=== FILE: README.md ===
# Platformer gameplay core in Dafny

This project models the gameplay core of a small 2D platformer built on an
entity–component system. Each frame the game controller (`EngineCore`) does
the following:

- it gates the frame on the start menu, the R (reset) key, pause and game over;
- it ticks the invincibility and power-up flash timers;
- it handles falling out of the level, coins, power-ups and the goal;
- it updates every entity of the scene;
- it resolves contacts between the player and enemies: a stomp, losing the
  power-up or losing a life;
- it counts down the level-complete message.

The components the scene updates are:

- player movement, with acceleration, deceleration, skidding and horizontal
  tile collision;
- vertical physics, with gravity, jumping and landing on a solid tile;
- enemy patrol, with turning at walls and ledges and a death countdown;
- sprite-sheet animation;
- projectiles, with a lifetime, gravity, tile collision, enemy hits and
  leaving the level.

## Layout

| file | module | what it holds |
|---|---|---|
| `option.dfy` | `Optional` | `Option` |
| `geometry.dfy` | `Geometry` | C++ float-to-int truncation (`Trunc`, `TruncDiv`), tile indices, `std::max`/`std::clamp`, rectangle intersection as in `sf::Rect::intersects` |
| `tiles.dfy` | `Tiles` | the tile grid, `isSolid`, the level builder and the `Tilemap` class |
| `animation.dfy` | `AnimationLogic` | the animation clock as a value: state switch, frame advance, texture rectangle |
| `physics.dfy` | `PhysicsLogic` | one vertical physics step as a function |
| `movement.dfy` | `MovementLogic` | target velocity, acceleration/deceleration/skid, horizontal tile collision |
| `enemy.dfy` | `EnemyLogic` | death countdown, wall step, patrol reversal |
| `projectile.dfy` | `ProjectileLogic` | lifetime, projectile gravity, solid-tile overlap, leaving the level |
| `session.dfy` | `SessionLogic` | the controller's counters, flags and timers as a `Session` value, and one function per controller operation |
| `ecs.dfy` | `Ecs` | the classes `Transform`, `AnimationComponent`, `PhysicsComponent`, `MovementComponent`, `EnemyComponent`, `ProjectileComponent`, `Entity`, `Scene` |
| `engine.dfy` | `Engine` | the class `EngineCore` |

## Modelling decisions

- **Pure logic and classes.** Each component keeps its fields in a class,
  and its `update` is a method. That method is proved against a pure function
  of the matching `*Logic` module, and the properties are lemmas about that
  function.
  - The controller's fields (lives, score, coin bank, timers, flags) are
    fields of `EngineCore`.
  - `EngineCore.State()` reads them as a `SessionLogic.Session` value.
  - Every controller method ensures `State() == F(old(State()))` for the
    function `F` of the same name.
  - The player's transform, physics and movement components are read as a
    `PlayerView` value (`EngineCore.Player()`).
- **Components.** A component is the datatype `Component`, one constructor
  per component class.
  - `getComponent<T>` returns the first component of kind `T` in insertion
    order (`FirstIndex`, `FirstOf`).
  - The controller keeps the player's component references. It looks them up
    once, when it is built, instead of on every frame (`Linked`).
- **Numbers.** `float` is modelled as `real`, without rounding.
  - A C++ float-to-int cast truncates toward zero. `Geometry.Trunc` models
    this, and tile indices are `TileOf(p, tileSize)`, which truncates
    `p / tileSize`.
  - Integer `/` on pixel coordinates is C++ truncating division
    (`TruncDiv`), not Dafny's Euclidean division.
- **Inputs.** Keyboard polling becomes parameters: `Keys`, `FrameInput` and
  the `Key` passed to `ProcessKey`. So do the tile map's coin, power-up and
  goal queries for the player's box, which arrive in `FrameInput`.
- **Airborne speed bound.** The bound for airborne movement multiplies the
  walking or running speed by `airAcceleration` (MovementComponent.h:63). For
  the game's tuning (`airAcceleration >= 1`) the clamp never binds, so the
  target velocity is the unclamped one. `MovementLogic.ClampIsInert` proves
  this; the code is modelled as written.
- **Physics collider height.** `setPlayerPowerState` writes
  `physics->colliderHeight` (EngineCore.cpp:773), but PhysicsComponent.h has
  no such field. The model gives `PhysicsComponent` a `colliderHeight` field,
  which its update never reads.
- **Animation pause flag.** Defeating an enemy writes `anim->paused`
  (EngineCore.cpp:633, ProjectileComponent.h:148), but AnimationComponent.h
  declares no such field. The model gives `AnimationComponent` a `paused`
  field, which its own `update` never reads.

## Model

| member | source | states |
|---|---|---|
| Geometry.Trunc | MovementComponent.h:133-142 | the integer a float-to-int cast yields lies within 1 of the value, toward zero, for both signs |
| Geometry.TruncDiv | MovementComponent.h:133-142 | C++ integer division by a positive tile size: quotient and remainder bounds for non-negative and negative dividends |
| Geometry.TileOf | EnemyComponent.h:47-49 | a pixel coordinate lies strictly within one tile of its tile index's pixel edge, and a non-negative coordinate has a non-negative tile at or below it |
| Geometry.QuotientOfTruncation | PhysicsComponent.h:37-38 | truncating `p / tileSize` gives the same tile as `TileOf` |
| Geometry.FloatTile | PhysicsComponent.h:37-38 | the float-division tile equals `TileOf` |
| Geometry.NonNegativeQuotient | MovementComponent.h:133-142 | for non-negative positions, truncating then dividing as integers gives the same tile as dividing as floats |
| Geometry.MaxR | EngineCore.cpp:212 | `std::max`: an upper bound of both arguments that is one of them |
| Geometry.ClampR | MovementComponent.h:79 | `std::clamp`: the result lies in the range, and a value already inside is returned unchanged |
| Geometry.Moved | MovementComponent.h:123-128 | a position advanced by `v * dt` stays put at zero speed and moves in the sign of `v` |
| Geometry.IntersectsPositive | EngineCore.cpp:611 | for rectangles of positive size, intersection is strict overlap on both axes and is symmetric |
| Tiles.SolidAt | Tilemap.h:68-72 | a cell is solid iff it is inside the grid and holds tile 1; cells outside the grid are never solid |
| Tiles.EmptyGrid | Tilemap.h:15-17 | the initial grid has `height` rows of `width` zeros |
| Tiles.EmptyGridHasNoSolid | Tilemap.h:15-17 | no cell of the initial grid is solid |
| Tiles.GroundFilled | Tilemap.h:31-39 | the level builder keeps the shape, keeps every row above the last, and fills the last row with solid tiles |
| Tiles.GroundFilledIdempotent | Tilemap.h:34-38 | building the level twice is the same as building it once |
| Tiles.GroundRowSolid | Tilemap.h:34-38 | after building, a cell of the bottom row is solid iff its column is inside the row |
| Tiles.Tilemap.constructor | Tilemap.h:8-17 | a new map has tile size 64 and the empty grid |
| Tiles.Tilemap.LoadFromFile | Tilemap.h:31-39 | loading replaces the grid by the ground-filled grid |
| Tiles.Tilemap.Update | Tilemap.h:42-44 | a tile map update changes nothing |
| AnimationLogic.TextureRect | AnimationComponent.h:142-145 | the texture rectangle has the frame's size, the state's row, and the column `currentFrame * frameWidth` |
| AnimationLogic.SetState | AnimationComponent.h:134-147 | re-setting the current state changes nothing; switching restarts the clock at the new state's first frame |
| AnimationLogic.NextFrame | AnimationComponent.h:158-160 | frames advance by one and wrap from the last frame to the first |
| AnimationLogic.Tick | AnimationComponent.h:149-165 | below the frame time the clock only accumulates; at or above it the clock resets and the frame advances |
| AnimationLogic.StaysInRange | AnimationComponent.h:134-165 | switching state and ticking keep the frame inside the current state's range |
| AnimationLogic.SwitchLandsInRange | AnimationComponent.h:134-147 | a state switch lands inside the new state's range |
| AnimationLogic.AdvanceIsModular | AnimationComponent.h:158-160 | `n` frame advances move the frame `n` places around the state's range, modulo its length |
| AnimationLogic.FrameCycle | AnimationComponent.h:158-160 | as many advances as the range has frames return to the same frame |
| Ecs.AnimationComponent.constructor | AnimationComponent.h:18-32 | a new animation starts idle on frame 0 with the given frame size and walk row, unpaused |
| Ecs.AnimationComponent.SetState | AnimationComponent.h:134-147 | the clock moves as `AnimationLogic.SetState`; the texture rectangle is recomputed only on a real switch |
| Ecs.AnimationComponent.Update | AnimationComponent.h:149-165 | the clock moves as `AnimationLogic.Tick`, the rectangle is recomputed only when a frame is due, and the frame stays in range |
| PhysicsLogic.VerticalOutcome | PhysicsComponent.h:37-50 | the body lands iff the tile under the proposed position is solid; a landed body has zero speed and snaps to the top of that tile; otherwise it takes the proposed position and speed |
| PhysicsLogic.SnapBelow | PhysicsComponent.h:43 | snapping puts the body at most one tile above its proposed position |
| PhysicsLogic.NoJumpWithoutGround | PhysicsComponent.h:25-31 | in the air, holding jump does not change the speed: only gravity applies |
| PhysicsLogic.RestingStaysPut | PhysicsComponent.h:21-51 | a body resting on a solid tile, with small gravity steps and no jump, stays exactly where it is |
| PhysicsLogic.RestingFall | PhysicsComponent.h:31-34 | from rest, one step proposes a fall of `gravity * dt * dt` |
| PhysicsLogic.RowAfterFall | PhysicsComponent.h:38 | a fall shorter than a tile stays in the same tile row |
| Ecs.PhysicsComponent.constructor | PhysicsComponent.h:12-19 | a new physics component is at rest in the air with the given collider height |
| Ecs.PhysicsComponent.Update | PhysicsComponent.h:21-51 | without a transform nothing changes; otherwise position, speed and ground flag move as `VerticalStep` |
| MovementLogic.TargetVelocity | MovementComponent.h:67-75 | both or neither direction gives zero; left alone gives `-maxSpeed`; right alone gives `maxSpeed` |
| MovementLogic.Approach | MovementComponent.h:80-89 | the speed moves toward the target by at most one step, never past it, and reaches it when within a step |
| MovementLogic.Decelerate | MovementComponent.h:92-99 | releasing the keys reduces the magnitude by one step, down to zero, without changing the sign |
| MovementLogic.AccelStep | MovementComponent.h:81-82 | the acceleration step is `acceleration * dt` on the ground and `airAcceleration * dt` in the air, and is non-negative |
| MovementLogic.DecelStep | MovementComponent.h:92-93 | the deceleration step is `deacceleration * dt` on the ground and `airDeacceleration * dt` in the air, and is non-negative |
| MovementLogic.SkidStep | MovementComponent.h:102 | the skid step is `skidDeceleration * dt`, and is non-negative |
| MovementLogic.ClampIsInert | MovementComponent.h:63 | with `airAcceleration >= 1` the airborne clamp leaves the target velocity unchanged |
| MovementLogic.ReleaseNeverFlipsSign | MovementComponent.h:91-99 | with no direction held, one update never reverses the sign, and the magnitude drops by exactly one step or to zero |
| MovementLogic.HeldNeverOvershoots | MovementComponent.h:78-89 | with a direction held, the speed ends between its old value and the target |
| MovementLogic.SkidStopsAtZero | MovementComponent.h:101-110 | a grounded skid against the held direction stops at zero and does not cross it |
| MovementLogic.StepLeft | MovementComponent.h:155-164 | moving left into a solid column snaps the body to the right edge of that tile and stops it; otherwise it moves |
| MovementLogic.StepRight | MovementComponent.h:166-175 | moving right into a solid column snaps the body to the left edge of that tile and stops it; otherwise it moves |
| MovementLogic.ResolveHorizontal | MovementComponent.h:124-175 | zero speed leaves the body in place; otherwise it either keeps its speed and moves by `v * dt` or is stopped |
| Ecs.MovementComponent.constructor | MovementComponent.h:29-36 | a new movement component is at rest with the small collider height |
| Ecs.MovementComponent.IsBlocked | MovementComponent.h:143-150 | the scan over the body's rows answers exactly `MovementLogic.Blocked` |
| Ecs.MovementComponent.Update | MovementComponent.h:38-176 | without a transform or tile map nothing changes; otherwise speed and position move as `VelocityStep` then `ResolveHorizontal`, and the animation switches as `AnimFor` of the new speed |
| Ecs.MovementComponent.Accelerate | MovementComponent.h:62-110 | the new speed is `VelocityStep` of the old one |
| Ecs.MovementComponent.Drive | MovementComponent.h:62-100 | returns the clamped target and drives the speed toward it |
| Ecs.MovementComponent.Collide | MovementComponent.h:124-175 | position and speed move as `ResolveHorizontal` |
| EnemyLogic.DeathStep | EnemyComponent.h:32-41 | a running death timer counts down by `dt`; the entity is destroyed only when the timer crosses zero |
| EnemyLogic.DestroyFiresOnce | EnemyComponent.h:33-38 | after the destroying step, further steps neither destroy again nor move the timer |
| EnemyLogic.CountdownDestroys | EnemyComponent.h:33-38 | a positive timer no longer than `n * dt` has destroyed the enemy within `n` steps |
| EnemyLogic.WallStep | EnemyComponent.h:43-70 | the wall flag is set iff the tile ahead at the feet row is solid; a blocked step snaps the body flush against that tile; a free step moves by `dx` |
| EnemyLogic.SingleRowBlocked | EnemyComponent.h:46-63 | a one-row body is blocked exactly when that one cell is solid |
| EnemyLogic.Reverse | EnemyComponent.h:72-92 | the direction either stays or flips, and never changes in the air |
| EnemyLogic.PatrolStep | EnemyComponent.h:43-92 | a patrol step keeps or flips the direction, and keeps it in the air |
| EnemyLogic.DirectionStaysValid | EnemyComponent.h:77-92 | the direction stays `1` or `-1` |
| EnemyLogic.ReversalRules | EnemyComponent.h:77-92 | a grounded enemy turns iff it hit a wall or has no ground ahead |
| Ecs.EnemyComponent.constructor | EnemyComponent.h:15-28 | a new enemy is alive, walks in the default direction and has no death timer |
| Ecs.EnemyComponent.Update | EnemyComponent.h:30-97 | without a transform or tile map nothing changes; a dead enemy only runs the death countdown and deactivates its entity when it fires; a live one moves as `PatrolStep` |
| Ecs.EnemyComponent.Walk | EnemyComponent.h:43-70 | the move and the wall flag are `WallStep` |
| Ecs.EnemyComponent.Turn | EnemyComponent.h:72-92 | the new direction is `Reverse` |
| ProjectileLogic.NextLifetime | ProjectileComponent.h:38 | the lifetime drops by `dt` and is clamped at zero |
| ProjectileLogic.LifetimeRunsDown | ProjectileComponent.h:38-42 | the lifetime never grows, and a spent lifetime stays spent |
| ProjectileLogic.FallVelocity | ProjectileComponent.h:44-46 | with gravity the vertical speed grows by `gravity * dt`; without it the speed is kept exactly |
| ProjectileLogic.NoCollisionOutsideGrid | ProjectileComponent.h:88-107 | a span above the grid, below it or left of it hits no solid tile |
| ProjectileLogic.SolidInSpanMonotone | ProjectileComponent.h:99-105 | a larger span that contains a solid-hitting span also hits a solid tile |
| ProjectileLogic.OverlapIsInLevel | ProjectileComponent.h:67-74 | a projectile that overlaps the level rectangle is not out of the level |
| Ecs.ProjectileComponent.constructor | ProjectileComponent.h:14-32 | a new projectile holds the given speed, collider, lifetime and gravity |
| Ecs.ProjectileComponent.Update | ProjectileComponent.h:34-75 | without a transform or tile map nothing changes; the lifetime runs down as `NextLifetime`; a spent projectile is destroyed where it is and touches no enemy; otherwise it flies, then defeats at most one enemy (the first it overlaps) or leaves the level |
| Ecs.ProjectileComponent.Advance | ProjectileComponent.h:38-74 | for a lifetime that does not run out: the lifetime runs down, the projectile flies, then either defeats the first enemy it overlaps and no other, or touches no enemy and leaves the level when outside it |
| Ecs.ProjectileComponent.Strike | ProjectileComponent.h:60-74 | a hit defeats the first enemy hit, destroys the projectile and changes no other enemy, physics or animation; a miss means no enemy overlaps, changes none of them, and the projectile stays active only while inside the level grown by its collider size |
| Ecs.ProjectileComponent.StrikeInScene | ProjectileComponent.h:60-74 | the same outcome as `Strike`, for a projectile that knows its scene |
| Ecs.ProjectileComponent.Expire | ProjectileComponent.h:38-42 | a lifetime that runs out is zero afterwards, the projectile is destroyed where it is, and no enemy, physics or animation changes |
| Ecs.ProjectileComponent.DestroyStruck | ProjectileComponent.h:61-63 | after a hit the projectile is destroyed and the hit enemy stays defeated |
| Ecs.ProjectileComponent.LeaveLevel | ProjectileComponent.h:67-74 | the projectile stays active iff it was active and stays inside the level grown by its collider size on every side; no enemy changes |
| Ecs.ProjectileComponent.Fly | ProjectileComponent.h:38-58 | the lifetime runs down as `NextLifetime`; gravity applies as `FallVelocity`; the projectile moves iff its new span hits no solid tile, and is destroyed in place otherwise; no enemy changes |
| Ecs.ProjectileComponent.CheckEnemyHit | ProjectileComponent.h:109-153 | a hit defeats the first live enemy the projectile overlaps and changes no other enemy, physics or animation; no hit means there is none and nothing changes |
| Ecs.ProjectileComponent.StrikeAt | ProjectileComponent.h:137-150 | the first overlapped enemy is defeated, and only that entity's enemy, physics and animation change |
| Ecs.ProjectileComponent.FindHit | ProjectileComponent.h:116-136 | the scan returns the index of the first other entity with a live enemy the projectile overlaps |
| Ecs.ProjectileComponent.CollidesWithSolid | ProjectileComponent.h:88-107 | the scan over the covered tiles answers exactly `SolidInSpan` |
| Ecs.FirstIndex | Entity.h:46-54 | the first index holding a component of the kind, or the length when there is none |
| Ecs.FirstOfAppend | Entity.h:35-54 | adding a component changes the answer of `getComponent` only for a kind that had none |
| Ecs.FirstIsUnique | Entity.h:46-54 | the first matching index is unique |
| Ecs.LiveEnemyBounds | EngineCore.cpp:597-609 | an entity has live-enemy bounds iff it has an enemy that is alive and a transform |
| Ecs.FirstHit | ProjectileComponent.h:116-136 | no entity before the result is hit, and the entity at the result is another entity that is hit |
| Ecs.DefeatEnemy | ProjectileComponent.h:137-149 | the enemy is dead with its death timer set, its body rests and its animation is paused; other live enemies keep their bounds |
| Ecs.Transform.constructor | TransformComponent.h:12-13 | a new transform holds the given position |
| Ecs.Entity.constructor | Entity.h:57-58 | a new entity has no components and is active |
| Ecs.Entity.Destroy | Entity.h:9-12 | the entity is inactive afterwards |
| Ecs.Entity.AddComponent | Entity.h:35-44 | the component is appended and the entity stays well formed |
| Ecs.Entity.GetComponent | Entity.h:46-55 | returns the first component of the kind, which belongs to the entity |
| Ecs.Entity.Update | Entity.h:17-24 | an inactive entity changes nothing; an active one keeps its components; only a component that may destroy it does so; other entities keep their active flag |
| Ecs.Entity.UpdateComponents | Entity.h:21-22 | the loop over components keeps the list and only deactivates the entity through a self-destroying component |
| Ecs.Entity.UpdateAt | Entity.h:21-22 | one component's update never reactivates the entity |
| Ecs.Entity.UpdateProjectileAt | Entity.h:21-22 | a projectile component's update never reactivates the entity, and deactivates it only through a component able to destroy it |
| Ecs.Scene.constructor | Scene.h:36 | a new scene has no entities |
| Ecs.Scene.CreateEntity | Scene.h:11-17 | a fresh, empty, active entity is appended |
| Ecs.Scene.Update | Scene.h:23-27 | the entity list is unchanged, and an entity that became inactive has a component able to destroy it |
| Ecs.Scene.UpdateMember | Scene.h:24-25 | one entity's update deactivates at most that entity |
| SessionLogic.LivesAfterHit | EngineCore.cpp:718 | a hit takes one life and never goes below zero |
| SessionLogic.LifeLossOutcomes | EngineCore.cpp:715-736 | invincible or game-over: nothing changes; last life: game over without respawn; otherwise one life fewer, invincible for the full duration, and a respawn; nothing else changes |
| SessionLogic.LifeLossAbsorbsRepeats | EngineCore.cpp:716-717 | a second hit right after the first changes nothing, and one call costs at most one life |
| SessionLogic.BankConserves | EngineCore.cpp:502-506 | banked coins convert to extra lives with no coin lost: `bank + n == coins + 100 * livesGained`, and the bank stays under 100 |
| SessionLogic.CollectKeepsInv | EngineCore.cpp:497-506 | collecting coins keeps the session invariant, never lowers the score or lives, and conserves coins |
| SessionLogic.GoalFiresOnce | EngineCore.cpp:531-554 | the goal completes the level and awards the score once; a completed level ignores the goal |
| SessionLogic.TicksIdle | EngineCore.cpp:667-669 | without invincibility the timer ticks change nothing |
| SessionLogic.InvincibilityEnds | EngineCore.cpp:667-672 | invincibility ends within `n` ticks once `n * dt` covers the timer |
| SessionLogic.ResetLevelFacts | EngineCore.cpp:653-660 | a level reset keeps lives, score, pause and game over, clears completion, invincibility and the coin counters, and is idempotent |
| SessionLogic.ResetGameForgets | EngineCore.cpp:737-746 | a game reset gives the same starting session from any session: 3 lives, score 0, not over, not paused |
| SessionLogic.ResetRequest | EngineCore.cpp:226-238 | R acts only on a fresh press, and resets the game rather than the level exactly when the game is over |
| SessionLogic.HeldResetActsOnce | EngineCore.cpp:226-238 | a fresh press acts, and holding R does nothing |
| SessionLogic.MenuLeavesOnlyAfterTransition | EngineCore.cpp:210-219 | the start menu closes only when a started transition's timer runs out, and the timer never grows |
| SessionLogic.PauseTwice | EngineCore.cpp:195-199 | P twice restores the session, P only flips `paused`, and outside the menu it does flip it |
| SessionLogic.StepsKeepInv | EngineCore.cpp:207-269 | every per-frame step keeps the session invariant (lives and coin counts in range, game over iff no lives) |
| SessionLogic.ScoreNeverDrops | EngineCore.cpp:207-269 | coins and power-ups add their exact score values, the goal adds to it, and no other step changes the score |
| SessionLogic.GoalMessageEnds | EngineCore.cpp:259-265 | the level-complete message ends within `n` frames once `n * dt` covers its timer |
| SessionLogic.CountdownsIdle | EngineCore.cpp:259-265 | without a completed level the goal countdown changes nothing |
| SessionLogic.PlayerBox | EngineCore.cpp:488-494 | the player has a box iff it has a transform, and the box sits at its position with the player's width |
| SessionLogic.Respawned | EngineCore.cpp:555-566 | the player returns to the spawn point at rest, and its collider sizes are kept |
| SessionLogic.RespawnIdempotent | EngineCore.cpp:555-566 | respawning twice is the same as respawning once |
| SessionLogic.Resize | EngineCore.cpp:760-775 | resizing changes only the collider heights and the position, and never adds or removes a component |
| SessionLogic.NewHeight | EngineCore.cpp:761 | the corrected rule: the big collider height when powered, the small one otherwise |
| SessionLogic.PowerDownKeepsBigCollider | EngineCore.cpp:761 | as written, powering down a player with a big collider leaves it big; the corrected rule shrinks it to 48 |
| SessionLogic.SetPowerResizes | EngineCore.cpp:748-784 | a power change gives the collider height of the new state and keeps the player's feet where they were |
| SessionLogic.PowerRoundTrip | EngineCore.cpp:748-784 | powering up then down restores the player exactly |
| SessionLogic.ContactOf | EngineCore.cpp:597-648 | no contact iff there is no live enemy or the boxes do not overlap; an overlap is a stomp iff the player is falling and its feet are within 5 px of the enemy's top; any other overlap shrinks a powered player and hurts a small one |
| SessionLogic.ContactCostsAtMostOneLife | EngineCore.cpp:639-648 | one contact costs at most one life, only a hurt costs one, the score and coins are untouched, and the invariant is kept |
| SessionLogic.PassStep | EngineCore.cpp:596-650 | across the enemy loop, at most one life is lost, a powered player loses none, and game over comes only with the last life |
| Engine.EngineCore.constructor | EngineCore.cpp:39-161 | the controller starts from the given session and menu, not powered up, with the player's component references linked, and they belong to the player when the player entity is well formed |
| Engine.EngineCore.RespawnPlayer | EngineCore.cpp:555-574 | the player moves as `Respawned` |
| Engine.EngineCore.LoseLife | EngineCore.cpp:715-736 | the session moves as `LifeLoss`, and the player respawns exactly when a life is lost with lives left |
| Engine.EngineCore.TakeHit | EngineCore.cpp:718-734 | the session moves as `LifeLoss`, and the game is over iff no lives are left |
| Engine.EngineCore.SetPlayerPowerState | EngineCore.cpp:748-784 | the player is resized as `SetPower`, and the power flag follows when there is a player |
| Engine.EngineCore.ResetPlayerIfFallen | EngineCore.cpp:461-479 | a player below the level loses a life as `LifeLoss` and respawns when lives remain; otherwise nothing changes |
| Engine.EngineCore.HandleCollectibles | EngineCore.cpp:481-507 | with a player box, the session moves as `Collect` |
| Engine.EngineCore.CashInBank | EngineCore.cpp:502-506 | the bank converts into lives as `BankCoins` |
| Engine.EngineCore.HandlePowerups | EngineCore.cpp:509-527 | with a player box, the session moves as `PowerupPickup`, and a pickup powers the player up |
| Engine.EngineCore.CheckGoalReached | EngineCore.cpp:531-553 | with a player box, the session moves as `Goal` |
| Engine.EngineCore.ResetLevelState | EngineCore.cpp:653-666 | the session moves as `ResetLevel`, and the player is powered down and respawned |
| Engine.EngineCore.ClearLevelCounters | EngineCore.cpp:654-660 | the session moves as `ResetLevel` |
| Engine.EngineCore.PowerDownAndRespawn | EngineCore.cpp:663-664 | the player is powered down and respawned |
| Engine.EngineCore.ResetGameState | EngineCore.cpp:737-746 | the session moves as `ResetGame`, and the player is powered down and respawned |
| Engine.EngineCore.UpdateInvincibility | EngineCore.cpp:667-685 | the session moves as `InvincibilityTick` |
| Engine.EngineCore.UpdatePowerupFlash | EngineCore.cpp:687-714 | the session moves as `FlashTick` |
| Engine.EngineCore.Classify | EngineCore.cpp:597-617 | the contact with one entity is `ContactOf` its live-enemy bounds |
| Engine.EngineCore.StompEnemy | EngineCore.cpp:618-637 | the player bounces upward off the ground, and the enemy is dead and defeated |
| Engine.EngineCore.LosePowerUp | EngineCore.cpp:639-645 | the player shrinks as `SetPower`, becomes invincible as `Touched(Shrink)`, and is no longer powered up |
| Engine.EngineCore.ApplyContact | EngineCore.cpp:618-649 | the session moves as `Touched`, and only a shrink clears the power-up; a stomp bounces the player upward off the ground and defeats the enemy; a shrink resizes the player as `SetPower` to small; a hurt respawns the player exactly when a life is lost with lives left; a miss leaves the player as it was |
| Engine.EngineCore.HandleEnemyCollisions | EngineCore.cpp:577-652 | one pass costs at most one life, none while invincible or powered up, and game over comes only with the last life |
| Engine.EngineCore.TouchAll | EngineCore.cpp:596-650 | the loop over entities keeps `PassSoFar` from the state before it |
| Engine.EngineCore.TouchMember | EngineCore.cpp:597-649 | the contact with the entity at position `k` is `ContactOf` its live-enemy bounds, the player's box and speed and the power flag as they were before the step; the session then moves as `Touched` |
| Engine.EngineCore.ProcessKey | EngineCore.cpp:183-199 | Enter in the idle menu starts the transition and resets the game and player; otherwise the key toggles pause as `TogglePause` |
| Engine.EngineCore.HandleResetKey | EngineCore.cpp:226-238 | the session moves as `ApplyReset(ResetRequest(...))`, the player resets when a reset happens, and the held flag follows the key |
| Engine.EngineCore.PickUp | EngineCore.cpp:252-254 | coins, power-ups and the goal keep the invariant and never lower score or lives |
| Engine.EngineCore.CountDownGoal | EngineCore.cpp:259-265 | the session moves as `GoalCountdown` |
| Engine.EngineCore.UpdateMenu | EngineCore.cpp:210-219 | the menu moves as `MenuTick` |
| Engine.EngineCore.Update | EngineCore.cpp:207-269 | in the menu only the menu moves; otherwise the reset key acts, a paused or finished game stops there, and a played frame never lowers the score and costs at most one life |
| Engine.EngineCore.UpdateGame | EngineCore.cpp:226-265 | the reset key acts first; a paused or finished game then stays as it is; a played frame keeps the score and costs at most one life |
| Engine.EngineCore.Play | EngineCore.cpp:248-265 | a played frame keeps the invariant, never lowers the score and costs at most one life |
| Engine.EngineCore.BeforeScene | EngineCore.cpp:248-254 | the steps before the scene update cost at most one life, and a lost life leaves the player invulnerable |
| Engine.EngineCore.TickTimers | EngineCore.cpp:249-250 | the session moves as `InvincibilityTick` then `FlashTick` |
| Engine.EngineCore.AfterScene | EngineCore.cpp:258-265 | the enemy pass and the goal countdown cost no life to an invulnerable player |

## Specification functions

The functions below only compute. Their contracts are the lemmas and
methods named after each, which have rows in the table above.

- `Geometry.Intersects` (EngineCore.cpp:611, `sf::Rect::intersects`):
  `IntersectsPositive`.
- `Tiles.Tilemap.IsSolid` (Tilemap.h:68-72): `Tiles.SolidAt` of the map's grid.
- `PhysicsLogic.VerticalStep` (PhysicsComponent.h:21-51): `VerticalOutcome`,
  `SnapBelow`, `NoJumpWithoutGround`, `RestingStaysPut`,
  `Ecs.PhysicsComponent.Update`.
- `MovementLogic.DriveStep` (MovementComponent.h:78-100): `Approach`,
  `Decelerate`, `HeldNeverOvershoots`, `Ecs.MovementComponent.Drive`.
- `MovementLogic.VelocityStep` (MovementComponent.h:62-110):
  `ReleaseNeverFlipsSign`, `HeldNeverOvershoots`, `SkidStopsAtZero`,
  `ClampIsInert`, `Ecs.MovementComponent.Accelerate`.
- `MovementLogic.AnimFor` (MovementComponent.h:113-121):
  `Ecs.MovementComponent.Update`.
- `ProjectileLogic.SpanOf` (ProjectileComponent.h:88-97) and
  `ProjectileLogic.SolidInSpan` (ProjectileComponent.h:99-105):
  `Ecs.ProjectileComponent.CollidesWithSolid`, `NoCollisionOutsideGrid`,
  `SolidInSpanMonotone`.
- `ProjectileLogic.OutOfLevel` (ProjectileComponent.h:67-74):
  `OverlapIsInLevel`, `Ecs.ProjectileComponent.LeaveLevel`.
- `SessionLogic.LifeLoss` (EngineCore.cpp:715-736): `LifeLossOutcomes`,
  `LifeLossAbsorbsRepeats`, `StepsKeepInv`.
- `SessionLogic.BankCoins` (EngineCore.cpp:502-506): `BankConserves`.
- `SessionLogic.Collect` (EngineCore.cpp:497-506): `CollectKeepsInv`,
  `ScoreNeverDrops`.
- `SessionLogic.PowerupPickup` (EngineCore.cpp:522-527): `ScoreNeverDrops`,
  `StepsKeepInv`.
- `SessionLogic.Goal` (EngineCore.cpp:531-553): `GoalFiresOnce`.
- `SessionLogic.InvincibilityTick` (EngineCore.cpp:667-672): `TicksIdle`,
  `InvincibilityEnds`.
- `SessionLogic.FlashTick` (EngineCore.cpp:687-691): `StepsKeepInv`,
  `ScoreNeverDrops`.
- `SessionLogic.GoalCountdown` (EngineCore.cpp:259-265): `GoalMessageEnds`,
  `CountdownsIdle`.
- `SessionLogic.ResetLevel` (EngineCore.cpp:653-660): `ResetLevelFacts`.
- `SessionLogic.ResetGame` (EngineCore.cpp:737-746): `ResetGameForgets`.
- `SessionLogic.ApplyReset` (EngineCore.cpp:226-238): `ResetRequest`,
  `HeldResetActsOnce`.
- `SessionLogic.MenuTick` (EngineCore.cpp:210-219):
  `MenuLeavesOnlyAfterTransition`.
- `SessionLogic.TogglePause` (EngineCore.cpp:195-199): `PauseTwice`.
- `SessionLogic.Touched` (EngineCore.cpp:618-649):
  `ContactCostsAtMostOneLife`, `PassStep`.
- `SessionLogic.SetPower` (EngineCore.cpp:748-784): `SetPowerResizes`,
  `PowerRoundTrip`.
- `SessionLogic.SetPowerAsWritten` (EngineCore.cpp:748-784) and
  `SessionLogic.NewHeightAsWritten` (EngineCore.cpp:761):
  `PowerDownKeepsBigCollider`.
- `Ecs.Entity.IsActive` (Entity.h:13-16): `Ecs.Entity.constructor`,
  `Ecs.Entity.Destroy`.
- `Ecs.Scene.GetEntities` (Scene.h:18-20): the scene's entity list, read by
  `Ecs.ProjectileComponent.FindHit` and `Ecs.Scene.CreateEntity`.

## Left out

- Rendering, sprites, sprite scaling and tinting, the camera, the window,
  audio, the HUD, console output and the Escape key: these are side effects
  that never reach the modelled state.
- Asset and level loading (`loadTileset`, the textures, `Main.cpp`): the tile
  size is a positive integer parameter, and the level builder is modelled as
  the grid it produces.
- Keyboard polling: the keys are parameters (`Keys`, `FrameInput`, `Key`).
- The tile map's coin, power-up and goal queries, and `resetCollectibles`
  and `resetPowerups`: their answers arrive in `FrameInput`, and the tile
  map's collectible state is not part of this model.
- The AnimationComponent constructor's guess of the sprite-sheet layout from
  the texture size: the layout and walk row are constructor parameters.
- Floating-point rounding: `float` is `real`, and only the explicit
  truncating casts are modelled.
- The controller looks the player's components up once, when it is built,
  rather than on every frame; components are never removed, so the answers
  are the same.
- Engine.EngineCore.CountDownGoal: states only the session's
  `GoalCountdown`. The player's power-down and respawn when the timer runs
  out is stated by `ResetLevelState`, which it calls.
- Engine.EngineCore.HandleEnemyCollisions: states bounds on lives and game
  over across the loop. It does not state which enemies were stomped; that
  is stated per entity by `TouchMember` and `StompEnemy`.
- Engine.EngineCore.TouchAll: the same bound as `HandleEnemyCollisions`,
  per iteration, without the per-enemy outcome.
- Engine.EngineCore.Update: for a played frame it states bounds (score never
  drops, at most one life lost, invariant kept), not the full new state.
- Engine.EngineCore.UpdateGame: the same bounds as `Update` for a played
  frame.
- Engine.EngineCore.Play: bounds only, as for `Update`.
- Engine.EngineCore.BeforeScene: bounds only, as for `Update`.
- Engine.EngineCore.AfterScene: bounds only, as for `Update`.
- Engine.EngineCore.PickUp: bounds only; the exact effects are stated by
  `HandleCollectibles`, `HandlePowerups` and `CheckGoalReached`.
- Ecs.Entity.Update: states what a frame may and may not change (the
  component list, other entities, self-destruction only by a capable
  component). Each component's exact effect is stated by that component's
  `Update`, not aggregated over the entity.
- Ecs.Scene.Update: the same as `Ecs.Entity.Update`, for the whole scene.
- Ecs.PhysicsComponent.Update: requires a tile map whenever there is a
  transform. The source tests only `transform` (PhysicsComponent.h:22) and
  then reads `tilemap->tileSize` (PhysicsComponent.h:37-38), so a physics
  component with a transform and no tile map would dereference a null
  pointer; the model does not describe that case.
- Ecs.Entity.UpdateComponents: states frame facts only (the component list
  is kept, the entity is deactivated only by a capable component). It does
  not state that each component is updated once, in insertion order.
- Ecs.Entity.UpdateAt: states only that one component's update never
  reactivates the entity. It does not restate that component's own effect,
  which its `Update` states.
- Ecs.Entity.UpdateProjectileAt: the same frame facts as `UpdateAt`, for a
  projectile component.
- Ecs.Scene.UpdateMember: states only that one entity's update deactivates
  at most that entity. It does not state that the entities are updated once
  each, in list order.

## Findings

| source | as written | input that shows it | evidently intended | confidence | as-written member | corrected member |
|---|---|---|---|---|---|---|
| EngineCore.cpp:761 | the new collider height depends only on whether the player has a movement component: it is the big height whenever one exists, whether powering up or down | a player with a movement component whose collider height is 64 is powered down (small height 48, big height 64): the collider stays 64 and the player does not shrink | the new height is the big one when powering up and the small one when powering down | not executed | SessionLogic.PowerDownKeepsBigCollider | SessionLogic.PowerRoundTrip |

The model uses the corrected rule: `SessionLogic.SetPower`, and with it
`Engine.EngineCore.SetPlayerPowerState`, picks the height from `powered`.
`SessionLogic.SetPowerResizes` and `SessionLogic.PowerRoundTrip` are proved
about it. The rule as written is kept as `SessionLogic.SetPowerAsWritten`.

=== FILE: animation.dfy ===
/**
  The frame-cycling state machine of `AnimationComponent` (`setState` and
  `update`) as functions on values.
 */
module AnimationLogic {
  import Geometry

  datatype AnimState = Idle | Walk

  /**
    The sprite-sheet layout: the frame range and the sheet row (a pixel
    offset) of each state.
   */
  datatype Layout = Layout(idleStart: int, idleEnd: int, walkStart: int, walkEnd: int, idleRow: int, walkRow: int)

  /** The field initialisers: six frames 0..5 for both states, both on row 0. */
  const DefaultLayout := Layout(0, 5, 0, 5, 0, 0)

  function Start(l: Layout, s: AnimState): int
  {
    if s == Idle then l.idleStart else l.walkStart
  }

  function End(l: Layout, s: AnimState): int
  {
    if s == Idle then l.idleEnd else l.walkEnd
  }

  function Row(l: Layout, s: AnimState): int
  {
    if s == Idle then l.idleRow else l.walkRow
  }

  /** Every state's range holds at least one frame. */
  predicate ValidLayout(l: Layout)
  {
    l.idleStart <= l.idleEnd && l.walkStart <= l.walkEnd
  }

  /** The mutable part of the component. */
  datatype Clock = Clock(state: AnimState, currentTime: real, currentFrame: int)

  /** The current frame lies in the current state's range. */
  predicate InRange(l: Layout, c: Clock)
  {
    Start(l, c.state) <= c.currentFrame <= End(l, c.state)
  }

  /** `sf::IntRect`: left, top, width, height. */
  datatype IntRect = IntRect(left: int, top: int, width: int, height: int)

  /** The sheet cell of the current frame: column `currentFrame * frameWidth` on the state's row. */
  function TextureRect(l: Layout, c: Clock, frameWidth: int, frameHeight: int): (r: IntRect)
    ensures r.width == frameWidth && r.height == frameHeight && r.top == Row(l, c.state)
    ensures r.left == c.currentFrame * frameWidth
  {
    IntRect(c.currentFrame * frameWidth, Row(l, c.state), frameWidth, frameHeight)
  }

  /**
    `setState`: asking for the current state changes nothing; a new state
    restarts at the beginning of its range with the time reset.
   */
  function SetState(l: Layout, c: Clock, s: AnimState): (r: Clock)
    ensures s == c.state ==> r == c
    ensures s != c.state ==> r == Clock(s, 0.0, Start(l, s))
    ensures r.state == s
  {
    if s == c.state then c else Clock(s, 0.0, Start(l, s))
  }

  /** The frame after `frame` in the range `start..end`, wrapping past the end back to the start. */
  function NextFrame(frame: int, start: int, end: int): (f: int)
    ensures frame < end ==> f == frame + 1
    ensures frame >= end ==> f == start
  {
    if frame + 1 > end then start else frame + 1
  }

  /**
    `update`: time accumulates until it reaches `frameTime`; then the time is
    reset and the frame advances by one, wrapping within the range.
   */
  function Tick(l: Layout, c: Clock, frameTime: real, dt: real): (r: Clock)
    ensures r.state == c.state
    ensures c.currentTime + dt < frameTime ==> r == c.(currentTime := c.currentTime + dt)
    ensures c.currentTime + dt >= frameTime ==>
      r.currentTime == 0.0 && r.currentFrame == NextFrame(c.currentFrame, Start(l, c.state), End(l, c.state))
  {
    var t := c.currentTime + dt;
    if t < frameTime then c.(currentTime := t)
    else c.(currentTime := 0.0, currentFrame := NextFrame(c.currentFrame, Start(l, c.state), End(l, c.state)))
  }

  /** Both operations keep the frame inside the current state's range. */
  lemma {:induction false} StaysInRange(l: Layout, c: Clock, s: AnimState, frameTime: real, dt: real)
    requires ValidLayout(l)
    ensures InRange(l, c) ==> InRange(l, SetState(l, c, s))
    ensures InRange(l, c) ==> InRange(l, Tick(l, c, frameTime, dt))
  {
  }

  /** A state change always lands in range, whatever the old frame was. */
  lemma {:induction false} SwitchLandsInRange(l: Layout, c: Clock, s: AnimState)
    requires ValidLayout(l) && s != c.state
    ensures InRange(l, SetState(l, c, s))
  {
  }

  /** Advancing `n` frames from `frame` within `start..end`. */
  function Advance(frame: int, start: int, end: int, n: nat): int
    decreases n
  {
    if n == 0 then frame else Advance(NextFrame(frame, start, end), start, end, n - 1)
  }

  /** Within the range, advancing `n` frames is counting modulo the range length. */
  lemma {:induction false} AdvanceIsModular(frame: int, start: int, end: int, n: nat)
    requires start <= frame <= end
    ensures Advance(frame, start, end, n) == start + (frame - start + n) % (end - start + 1)
    decreases n
  {
    var len := end - start + 1;
    if n > 0 {
      var next := NextFrame(frame, start, end);
      AdvanceIsModular(next, start, end, n - 1);
      if frame < end {
        assert next - start + (n - 1) == frame - start + n;
      } else {
        assert frame - start + n == len + (n - 1);
        ModShift(n - 1, len);
      }
    } else {
      assert (frame - start) % len == frame - start;
    }
  }

  lemma ModShift(k: nat, len: int)
    requires len > 0
    ensures (len + k) % len == k % len
  {
    var q := k / len;
    assert k == q * len + k % len;
    assert len + k == (q + 1) * len + k % len;
    ModUnique(len + k, len, q + 1, k % len);
  }

  /** A remainder is determined by any quotient-remainder split of the dividend. */
  lemma ModUnique(a: int, len: int, q: int, r: int)
    requires len > 0 && a == q * len + r && 0 <= r < len
    ensures a % len == r
  {
    var q' := a / len;
    var r' := a % len;
    assert a == q' * len + r';
    if q' < q {
      Geometry.IntMulMonotone(q' + 1, q, len);
    } else if q < q' {
      Geometry.IntMulMonotone(q + 1, q', len);
    }
  }

  /** The animation is periodic: after one pass through the range the frame is back where it began. */
  lemma {:induction false} FrameCycle(frame: int, start: int, end: int)
    requires start <= frame <= end
    ensures Advance(frame, start, end, end - start + 1) == frame
  {
    var len := end - start + 1;
    AdvanceIsModular(frame, start, end, len);
    ModUnique(frame - start + len, len, 1, frame - start);
  }
}

=== FILE: ecs.dfy ===
/**
  The entity-component layer: `TransformComponent`, the five behaviour
  components, `Entity` (an ordered component list with a first-match lookup
  and an `active` flag) and `Scene` (an append-only entity list).

  The C++ classes point at one another (every component's `entity`
  back-reference, a projectile's `scene`), so they share one module. The
  keys a component polls are parameters of its `Update`; the tile grid is the
  `Tilemap` object the component points at.
 */
module Ecs {
  import opened Optional
  import opened Geometry
  import opened Tiles
  import MovementLogic
  import PhysicsLogic
  import EnemyLogic
  import AnimationLogic
  import ProjectileLogic

  /** The keys the components poll during one frame. */
  datatype Keys = Keys(left: bool, right: bool, running: bool, jump: bool)

  /** `TransformComponent`: the position record; its `update` does nothing. */
  class Transform {
    var x: real
    var y: real
    /** The owning entity, which `addComponent` fixes when it creates the component. */
    const entity: Entity

    constructor (owner: Entity, x: real, y: real)
      ensures this.x == x && this.y == y && entity == owner
    {
      this.x := x;
      this.y := y;
      entity := owner;
    }
  }

  /** A component owned by an entity; the tag is the dynamic type `getComponent<T>` tests. */
  datatype Component =
    | TransformC(transform: Transform)
    | MovementC(movement: MovementComponent)
    | PhysicsC(physics: PhysicsComponent)
    | EnemyC(enemy: EnemyComponent)
    | AnimationC(animation: AnimationComponent)
    | ProjectileC(projectile: ProjectileComponent)

  datatype Kind = TransformK | MovementK | PhysicsK | EnemyK | AnimationK | ProjectileK

  function KindOf(c: Component): Kind
  {
    match c
    case TransformC(_) => TransformK
    case MovementC(_) => MovementK
    case PhysicsC(_) => PhysicsK
    case EnemyC(_) => EnemyK
    case AnimationC(_) => AnimationK
    case ProjectileC(_) => ProjectileK
  }

  // ---------------------------------------------------------------------
  // First-match lookup

  /** The position of the first component of kind `k`, or `|cs|` when there is none. */
  function FirstIndex(cs: seq<Component>, k: Kind): (i: nat)
    ensures i <= |cs|
    ensures forall j :: 0 <= j < i ==> KindOf(cs[j]) != k
    ensures i < |cs| ==> KindOf(cs[i]) == k
    decreases |cs|
  {
    if cs == [] then 0
    else if KindOf(cs[0]) == k then 0
    else 1 + FirstIndex(cs[1..], k)
  }

  /** What `getComponent<T>` returns: the first component of the kind in insertion order, if any. */
  function FirstOf(cs: seq<Component>, k: Kind): Option<Component>
  {
    var i := FirstIndex(cs, k);
    if i < |cs| then Some(cs[i]) else None
  }

  /**
    Appending a component never changes which component a lookup finds,
    except that it becomes the answer for its own kind when the list had none.
   */
  lemma {:induction false} FirstOfAppend(cs: seq<Component>, c: Component, k: Kind)
    ensures FirstOf(cs + [c], k) ==
      if FirstOf(cs, k).None? && KindOf(c) == k then Some(c) else FirstOf(cs, k)
  {
    var i := FirstIndex(cs, k);
    assert forall m :: 0 <= m < |cs| ==> (cs + [c])[m] == cs[m];
    if i < |cs| {
      FirstIsUnique(cs + [c], k, i);
    } else if KindOf(c) == k {
      FirstIsUnique(cs + [c], k, |cs|);
    } else {
      FirstIsUnique(cs + [c], k, |cs| + 1);
    }
  }

  // Typed views of a component list (the `dynamic_cast` results).

  function Transforms(cs: seq<Component>): set<Transform>
  {
    set c | c in cs && c.TransformC? :: c.transform
  }

  function Movements(cs: seq<Component>): set<MovementComponent>
  {
    set c | c in cs && c.MovementC? :: c.movement
  }

  function PhysicsParts(cs: seq<Component>): set<PhysicsComponent>
  {
    set c | c in cs && c.PhysicsC? :: c.physics
  }

  function Enemies(cs: seq<Component>): set<EnemyComponent>
  {
    set c | c in cs && c.EnemyC? :: c.enemy
  }

  function Animations(cs: seq<Component>): set<AnimationComponent>
  {
    set c | c in cs && c.AnimationC? :: c.animation
  }

  function Projectiles(cs: seq<Component>): set<ProjectileComponent>
  {
    set c | c in cs && c.ProjectileC? :: c.projectile
  }

  function TransformIn(cs: seq<Component>): (t: Transform?)
    ensures t != null ==> t in Transforms(cs)
  {
    var i := FirstIndex(cs, TransformK);
    if i < |cs| then cs[i].transform else null
  }

  function MovementIn(cs: seq<Component>): (m: MovementComponent?)
    ensures m != null ==> m in Movements(cs)
  {
    var i := FirstIndex(cs, MovementK);
    if i < |cs| then cs[i].movement else null
  }

  function PhysicsIn(cs: seq<Component>): (p: PhysicsComponent?)
    ensures p != null ==> p in PhysicsParts(cs)
  {
    var i := FirstIndex(cs, PhysicsK);
    if i < |cs| then cs[i].physics else null
  }

  function EnemyIn(cs: seq<Component>): (e: EnemyComponent?)
    ensures e != null ==> e in Enemies(cs)
  {
    var i := FirstIndex(cs, EnemyK);
    if i < |cs| then cs[i].enemy else null
  }

  function AnimationIn(cs: seq<Component>): (a: AnimationComponent?)
    ensures a != null ==> a in Animations(cs)
  {
    var i := FirstIndex(cs, AnimationK);
    if i < |cs| then cs[i].animation else null
  }

  // Nullable pointers as frames.

  function TransformSet(t: Transform?): set<Transform>
  {
    if t == null then {} else {t}
  }

  function EntitySet(e: Entity?): set<Entity>
  {
    if e == null then {} else {e}
  }

  function PhysicsSet(p: PhysicsComponent?): set<PhysicsComponent>
  {
    if p == null then {} else {p}
  }

  function AnimationSet(a: AnimationComponent?): set<AnimationComponent>
  {
    if a == null then {} else {a}
  }

  function EnemySet(e: EnemyComponent?): set<EnemyComponent>
  {
    if e == null then {} else {e}
  }

  function MovementSet(m: MovementComponent?): set<MovementComponent>
  {
    if m == null then {} else {m}
  }

  function SceneSet(s: Scene?): set<Scene>
  {
    if s == null then {} else {s}
  }

  /** The transforms the movement, physics, enemy and projectile components of a list write. */
  function Bodies(cs: seq<Component>): set<Transform>
  {
    (set c | c in cs && c.MovementC? && c.movement.transform != null :: c.movement.transform)
    + (set c | c in cs && c.PhysicsC? && c.physics.transform != null :: c.physics.transform)
    + (set c | c in cs && c.EnemyC? && c.enemy.transform != null :: c.enemy.transform)
    + (set c | c in cs && c.ProjectileC? && c.projectile.transform != null :: c.projectile.transform)
  }

  /** The scenes the projectiles of a list search for enemies. */
  function TargetScenes(cs: seq<Component>): set<Scene>
  {
    set c | c in cs && c.ProjectileC? && c.projectile.scene != null :: c.projectile.scene
  }

  // The same views over a set of entities.

  function EntitiesOf(ss: set<Scene>): set<Entity>
    reads ss`entities
  {
    set s, e | s in ss && e in s.entities :: e
  }

  function EnemiesOf(es: set<Entity>): set<EnemyComponent>
    reads es`components
  {
    set e, c | e in es && c in e.components && c.EnemyC? :: c.enemy
  }

  function PhysicsOf(es: set<Entity>): set<PhysicsComponent>
    reads es`components
  {
    set e, c | e in es && c in e.components && c.PhysicsC? :: c.physics
  }

  function AnimationsOf(es: set<Entity>): set<AnimationComponent>
    reads es`components
  {
    set e, c | e in es && c in e.components && c.AnimationC? :: c.animation
  }

  function TransformsOf(es: set<Entity>): set<Transform>
    reads es`components
  {
    set e, c | e in es && c in e.components && c.TransformC? :: c.transform
  }

  function MovementsOf(es: set<Entity>): set<MovementComponent>
    reads es`components
  {
    set e, c | e in es && c in e.components && c.MovementC? :: c.movement
  }

  function ProjectilesOf(es: set<Entity>): set<ProjectileComponent>
    reads es`components
  {
    set e, c | e in es && c in e.components && c.ProjectileC? :: c.projectile
  }

  function BodiesOf(es: set<Entity>): set<Transform>
    reads es`components
  {
    set e, t | e in es && t in Bodies(e.components) :: t
  }

  function TargetScenesOf(es: set<Entity>): set<Scene>
    reads es`components
  {
    set e, s | e in es && s in TargetScenes(e.components) :: s
  }

  /** The entity a component's back-reference names. */
  function Owner(c: Component): Entity
  {
    match c
    case TransformC(t) => t.entity
    case MovementC(m) => m.entity
    case PhysicsC(p) => p.entity
    case EnemyC(e) => e.entity
    case AnimationC(a) => a.entity
    case ProjectileC(p) => p.entity
  }

  // ---------------------------------------------------------------------
  // Enemy bounds and the projectile's target search

  /**
    The collider of the entity's first enemy component, placed at the
    entity's first transform, when that enemy is alive and the transform exists.
   */
  function LiveEnemyBounds(e: Entity): (r: Option<Rect>)
    reads e`components, Enemies(e.components)`alive, Transforms(e.components)`x, Transforms(e.components)`y
    ensures r.Some? <==> EnemyIn(e.components) != null && EnemyIn(e.components).alive && TransformIn(e.components) != null
    ensures r.Some? ==> r == EnemyBounds(e)
  {
    var en := EnemyIn(e.components);
    if en == null || !en.alive then None else EnemyBounds(e)
  }

  /** The collider of the entity's first enemy component placed at its first transform, when both exist. */
  function EnemyBounds(e: Entity): (r: Option<Rect>)
    reads e`components, Transforms(e.components)`x, Transforms(e.components)`y
    ensures r.Some? <==> EnemyIn(e.components) != null && TransformIn(e.components) != null
  {
    var en := EnemyIn(e.components);
    var t := TransformIn(e.components);
    if en == null || t == null then None
    else Some(Rect(t.x, t.y, en.colliderWidth, en.colliderHeight))
  }

  /** A projectile of `self` with collider `bounds` hits entity `e`. */
  predicate Hits(e: Entity, self: Entity?, bounds: Rect)
    reads e`components, Enemies(e.components)`alive, Transforms(e.components)`x, Transforms(e.components)`y
  {
    e != self && LiveEnemyBounds(e).Some? && Intersects(bounds, LiveEnemyBounds(e).value)
  }

  /** The entities of `es` other than `self`: the ones a projectile of `self` may hit. */
  function Others(es: seq<Entity>, self: Entity?): set<Entity>
  {
    set e | e in es && e != self
  }

  /** No entity of `es` before position `i` is hit by a projectile of `self` with collider `bounds`. */
  ghost predicate NoHitBefore(es: seq<Entity>, self: Entity?, bounds: Rect, i: int)
    reads Others(es, self)`components, EnemiesOf(Others(es, self))`alive,
          TransformsOf(Others(es, self))`x, TransformsOf(Others(es, self))`y
  {
    forall j :: 0 <= j < i && j < |es| ==> es[j] == self || !Hits(es[j], self, bounds)
  }

  /**
    The position of the first entity other than `self` that the projectile
    with collider `bounds` hits, or `|es|` when it hits none.
   */
  function FirstHit(es: seq<Entity>, self: Entity?, bounds: Rect): (i: nat)
    reads Others(es, self)`components, EnemiesOf(Others(es, self))`alive,
          TransformsOf(Others(es, self))`x, TransformsOf(Others(es, self))`y
    ensures i <= |es|
    ensures NoHitBefore(es, self, bounds, i)
    ensures i < |es| ==> es[i] != self && Hits(es[i], self, bounds)
    decreases |es|
  {
    if es == [] then 0
    else if es[0] != self && Hits(es[0], self, bounds) then 0
    else 1 + FirstHit(es[1..], self, bounds)
  }

  /**
    Defeats the entity's first enemy component, leaving the entity
    `Defeated`; only the components named in the frame change.
   */
  method DefeatEnemy(e: Entity)
    requires EnemyIn(e.components) != null
    modifies EnemySet(EnemyIn(e.components))`alive, EnemySet(EnemyIn(e.components))`deathTimer
    modifies PhysicsSet(PhysicsIn(e.components))`velocityY, PhysicsSet(PhysicsIn(e.components))`onGround
    modifies AnimationSet(AnimationIn(e.components))`paused
    ensures Defeated(e)
    ensures forall x: Entity :: old(allocated(x)) && LiveEnemyBounds(x).Some? ==> old(LiveEnemyBounds(x)) == LiveEnemyBounds(x)
  {
    var enemy := e.GetComponent(EnemyK);
    enemy.value.enemy.alive := false;
    enemy.value.enemy.deathTimer := enemy.value.enemy.deathDelay;
    var physics := e.GetComponent(PhysicsK);
    if physics.Some? {
      physics.value.physics.velocityY := 0.0;
      physics.value.physics.onGround := true;
    }
    var anim := e.GetComponent(AnimationK);
    if anim.Some? {
      anim.value.animation.paused := true;
    }
    forall x: Entity | old(allocated(x)) && LiveEnemyBounds(x).Some?
      ensures old(LiveEnemyBounds(x)) == LiveEnemyBounds(x)
    {
      assert EnemyIn(x.components) != enemy.value.enemy;
    }
  }

  /**
    A scan of `es` for a projectile of `self` with collider `bounds` struck
    `es[i]`, as seen after the hit: no earlier entity is hit, and `es[i]` is
    another entity whose enemy collider intersects `bounds` and which is now
    `Defeated`.
   */
  ghost predicate StruckAt(es: seq<Entity>, self: Entity?, bounds: Rect, i: int)
    reads Others(es, self)`components, EnemiesOf(Others(es, self))`alive, EnemiesOf(Others(es, self))`deathTimer,
          TransformsOf(Others(es, self))`x, TransformsOf(Others(es, self))`y,
          PhysicsOf(Others(es, self))`velocityY, PhysicsOf(Others(es, self))`onGround, AnimationsOf(Others(es, self))`paused
  {
    0 <= i < |es| && es[i] != self
    && (assert es[i] in Others(es, self); DefeatedUnder(es[i], bounds))
    && NoHitBefore(es, self, bounds, i)
  }

  /** Entity `e` has an enemy collider that intersects `bounds`, and it is `Defeated`. */
  ghost predicate DefeatedUnder(e: Entity, bounds: Rect)
    reads e`components, Enemies(e.components)`alive, Enemies(e.components)`deathTimer,
          Transforms(e.components)`x, Transforms(e.components)`y,
          PhysicsParts(e.components)`velocityY, PhysicsParts(e.components)`onGround,
          Animations(e.components)`paused
  {
    EnemyBounds(e).Some? && Intersects(bounds, EnemyBounds(e).value) && Defeated(e)
  }

  /** The first hit is the only position that is hit with no hit before it. */
  lemma FirstHitIs(es: seq<Entity>, self: Entity?, bounds: Rect, i: nat)
    requires i <= |es|
    requires NoHitBefore(es, self, bounds, i)
    requires i < |es| ==> es[i] != self && Hits(es[i], self, bounds)
    ensures FirstHit(es, self, bounds) == i
  {
  }

  /**
    The state a defeated enemy entity is left in, by a stomp or a projectile:
    its first enemy component is dead with the death countdown armed, its
    first physics component (if any) rests on the ground and its first
    animation (if any) is paused.
   */
  predicate Defeated(e: Entity)
    reads e`components, Enemies(e.components)`alive, Enemies(e.components)`deathTimer,
          PhysicsParts(e.components)`velocityY, PhysicsParts(e.components)`onGround,
          Animations(e.components)`paused
  {
    var en := EnemyIn(e.components);
    var p := PhysicsIn(e.components);
    var a := AnimationIn(e.components);
    en != null && !en.alive && en.deathTimer == en.deathDelay
    && (p != null ==> p.velocityY == 0.0 && p.onGround)
    && (a != null ==> a.paused)
  }

  // ---------------------------------------------------------------------
  // Components

  /** The animation clock and the texture rectangle it shows, for the sprite of an entity. */
  class AnimationComponent {
    const frameWidth: int
    const frameHeight: int
    const frameTime: real
    const layout: AnimationLogic.Layout
    var state: AnimationLogic.AnimState
    var currentTime: real
    var currentFrame: int
    /** The rectangle last handed to the sprite's `setTextureRect`. */
    var textureRect: AnimationLogic.IntRect
    /** Set when the enemy that owns the animation is defeated; `Update` does not read it. */
    var paused: bool
    /** The owning entity, which `addComponent` fixes when it creates the component. */
    const entity: Entity

    /**
      The frame size and the walk row are the values the texture-scanning
      constructor settles on, passed in. The ranges and the idle row keep
      their initialisers, and the sprite starts on frame 0 of the idle row.
     */
    constructor (owner: Entity, frameWidth: int, frameHeight: int, frameTime: real, walkRow: int)
      ensures this.frameWidth == frameWidth && this.frameHeight == frameHeight && this.frameTime == frameTime
      ensures layout == AnimationLogic.DefaultLayout.(walkRow := walkRow)
      ensures Clock() == AnimationLogic.Clock(AnimationLogic.Idle, 0.0, 0)
      ensures textureRect == AnimationLogic.IntRect(0, 0, frameWidth, frameHeight)
      ensures !paused && entity == owner
    {
      this.frameWidth := frameWidth;
      this.frameHeight := frameHeight;
      this.frameTime := frameTime;
      layout := AnimationLogic.DefaultLayout.(walkRow := walkRow);
      state := AnimationLogic.Idle;
      currentTime := 0.0;
      currentFrame := 0;
      textureRect := AnimationLogic.IntRect(0, 0, frameWidth, frameHeight);
      paused := false;
      entity := owner;
    }

    function Clock(): AnimationLogic.Clock
      reads this`state, this`currentTime, this`currentFrame
    {
      AnimationLogic.Clock(state, currentTime, currentFrame)
    }

    /** `setState`: a new state restarts its range and shows its first frame; the same state changes nothing. */
    method SetState(newState: AnimationLogic.AnimState)
      modifies this`state, this`currentTime, this`currentFrame, this`textureRect
      ensures Clock() == AnimationLogic.SetState(layout, old(Clock()), newState)
      ensures textureRect ==
        if newState == old(state) then old(textureRect)
        else AnimationLogic.TextureRect(layout, Clock(), frameWidth, frameHeight)
    {
      if state == newState {
        return;
      }
      state := newState;
      currentTime := 0.0;
      currentFrame := if state == AnimationLogic.Idle then layout.idleStart else layout.walkStart;
      var row := if state == AnimationLogic.Idle then layout.idleRow else layout.walkRow;
      textureRect := AnimationLogic.IntRect(currentFrame * frameWidth, row, frameWidth, frameHeight);
    }

    /**
      `update`: accumulate time; once a frame's time is up, advance one frame
      (wrapping within the state's range) and show it. A frame in range stays
      in range.
     */
    method Update(dt: real)
      modifies this`currentTime, this`currentFrame, this`textureRect
      ensures Clock() == AnimationLogic.Tick(layout, old(Clock()), frameTime, dt)
      ensures textureRect ==
        if old(currentTime) + dt < frameTime then old(textureRect)
        else AnimationLogic.TextureRect(layout, Clock(), frameWidth, frameHeight)
      ensures AnimationLogic.ValidLayout(layout) && AnimationLogic.InRange(layout, old(Clock())) ==>
        AnimationLogic.InRange(layout, Clock())
    {
      if AnimationLogic.ValidLayout(layout) {
        AnimationLogic.StaysInRange(layout, Clock(), state, frameTime, dt);
      }
      currentTime := currentTime + dt;
      if currentTime < frameTime {
        return;
      }
      currentTime := 0.0;
      var start := if state == AnimationLogic.Idle then layout.idleStart else layout.walkStart;
      var end := if state == AnimationLogic.Idle then layout.idleEnd else layout.walkEnd;
      var row := if state == AnimationLogic.Idle then layout.idleRow else layout.walkRow;
      currentFrame := currentFrame + 1;
      if currentFrame > end {
        currentFrame := start;
      }
      textureRect := AnimationLogic.IntRect(currentFrame * frameWidth, row, frameWidth, frameHeight);
    }
  }

  /** Gravity, the jump from the ground and the floor snap. */
  class PhysicsComponent {
    const transform: Transform?
    const tilemap: Tilemap?
    var velocityY: real
    const gravity: real := PhysicsLogic.DefaultGravity
    const jumpStrength: real := PhysicsLogic.DefaultJumpStrength
    var onGround: bool
    /** The collider height the game controller resizes on power changes. */
    var colliderHeight: real
    /** The owning entity, which `addComponent` fixes when it creates the component. */
    const entity: Entity

    constructor (owner: Entity, transform: Transform?, tilemap: Tilemap?, colliderHeight: real)
      ensures this.transform == transform && this.tilemap == tilemap && this.colliderHeight == colliderHeight
      ensures velocityY == 0.0 && !onGround && entity == owner
    {
      this.transform := transform;
      this.tilemap := tilemap;
      this.colliderHeight := colliderHeight;
      velocityY := 0.0;
      onGround := false;
      entity := owner;
    }

    /**
      `update` with the jump key state `jumpHeld`: without a transform nothing
      happens; otherwise the vertical state becomes `PhysicsLogic.VerticalStep`
      of the old one. Only the transform's `y` moves, never its `x`.
     */
    method Update(dt: real, jumpHeld: bool)
      requires transform != null ==> tilemap != null
      modifies this`velocityY, this`onGround, TransformSet(transform)`y
      ensures transform == null ==> velocityY == old(velocityY) && onGround == old(onGround)
      ensures transform != null ==>
        PhysicsLogic.Vertical(transform.y, velocityY, onGround) ==
          PhysicsLogic.VerticalStep(tilemap.tiles, tilemap.tileSize, transform.x,
                                    PhysicsLogic.Vertical(old(transform.y), old(velocityY), old(onGround)),
                                    jumpHeld, gravity, jumpStrength, dt)
    {
      if transform == null {
        return;
      }
      ghost var before := PhysicsLogic.Vertical(transform.y, velocityY, onGround);
      if onGround && jumpHeld {
        velocityY := jumpStrength;
        onGround := false;
      }
      velocityY := velocityY + gravity * dt;
      assert velocityY == PhysicsLogic.FallVelocity(before, jumpHeld, gravity, jumpStrength, dt);
      var newY := Moved(transform.y, velocityY, dt);
      assert newY == PhysicsLogic.ProposedY(before, jumpHeld, gravity, jumpStrength, dt);
      var ts := tilemap.tileSize;
      var tileX := FloatTile(transform.x, ts);
      var tileY := FloatTile(newY, ts);
      if tilemap.IsSolid(tileX, tileY) {
        transform.y := (tileY * ts) as real;
        velocityY := 0.0;
        onGround := true;
      } else {
        transform.y := newY;
        onGround := false;
      }
    }
  }

  /** Whether a body counts as grounded: its first physics component's flag, or true without one. */
  function GroundedIn(cs: seq<Component>): bool
    reads PhysicsParts(cs)`onGround
  {
    var p := PhysicsIn(cs);
    p == null || p.onGround
  }

  /** The player's horizontal controller. */
  class MovementComponent {
    const transform: Transform?
    const tilemap: Tilemap?
    const tuning: MovementLogic.MoveTuning := MovementLogic.DefaultTuning
    var velocityX: real
    const colliderWidth: real := 32.0
    var colliderHeight: real
    /** The owning entity, which `addComponent` fixes when it creates the component. */
    const entity: Entity

    constructor (owner: Entity, transform: Transform?, tilemap: Tilemap?)
      ensures this.transform == transform && this.tilemap == tilemap
      ensures velocityX == 0.0 && colliderHeight == 48.0 && entity == owner
    {
      this.transform := transform;
      this.tilemap := tilemap;
      velocityX := 0.0;
      colliderHeight := 48.0;
      entity := owner;
    }

    /** The animation `update` switches: the first one of the owning entity. */
    function AnimTarget(): set<AnimationComponent>
      reads entity`components
    {
      AnimationSet(AnimationIn(entity.components))
    }

    /** The `isBlocked` row scan: some row from `top` to `bottom` of column `tileX` is solid. */
    method IsBlocked(tileX: int, top: int, bottom: int) returns (blocked: bool)
      requires tilemap != null
      ensures blocked == MovementLogic.Blocked(tilemap.tiles, tileX, top, bottom)
    {
      var tileY := top;
      while tileY <= bottom
        invariant top <= tileY && (tileY <= bottom + 1 || tileY == top)
        invariant forall y :: top <= y < tileY ==> !SolidAt(tilemap.tiles, tileX, y)
        decreases bottom - tileY
      {
        if tilemap.IsSolid(tileX, tileY) {
          return true;
        }
        tileY := tileY + 1;
      }
      return false;
    }

    /**
      `update` with the polled keys `input`: the velocity becomes
      `MovementLogic.VelocityStep` of the old one (grounded as the entity's
      first physics component says), the first animation switches to walking
      above 1 pixel per second and to idle otherwise, and the horizontal
      collision is `MovementLogic.ResolveHorizontal`. Without a transform or a
      tile map nothing happens.
     */
    method Update(dt: real, input: MovementLogic.MoveInput)
      requires dt >= 0.0
      modifies this`velocityX, TransformSet(transform)`x
      modifies AnimTarget()`state, AnimTarget()`currentTime, AnimTarget()`currentFrame, AnimTarget()`textureRect
      ensures transform == null || tilemap == null ==>
        velocityX == old(velocityX) && unchanged(TransformSet(transform)) && unchanged(AnimTarget())
      ensures transform != null && tilemap != null ==>
        var v := MovementLogic.VelocityStep(tuning, old(velocityX), input, old(GroundedIn(entity.components)), dt);
        var h := MovementLogic.ResolveHorizontal(tilemap.tiles, tilemap.tileSize, old(transform.x), transform.y,
                                                 v, colliderWidth, colliderHeight, dt);
        velocityX == h.velocityX && transform.x == h.x
      ensures transform != null && tilemap != null && AnimationIn(entity.components) != null ==>
        var a := AnimationIn(entity.components);
        var v := MovementLogic.VelocityStep(tuning, old(velocityX), input, old(GroundedIn(entity.components)), dt);
        var s := MovementLogic.AnimFor(v);
        a.Clock() == AnimationLogic.SetState(a.layout, old(a.Clock()), s)
        && a.textureRect == (if s == old(a.state) then old(a.textureRect)
                             else AnimationLogic.TextureRect(a.layout, a.Clock(), a.frameWidth, a.frameHeight))
    {
      if transform == null || tilemap == null {
        return;
      }
      var anim := entity.GetComponent(AnimationK);
      var physics := entity.GetComponent(PhysicsK);
      var grounded := if physics.Some? then physics.value.physics.onGround else true;
      assert grounded == GroundedIn(entity.components);
      Accelerate(dt, input, grounded);
      if anim.Some? {
        anim.value.animation.SetState(if AbsR(velocityX) <= 1.0 then AnimationLogic.Idle else AnimationLogic.Walk);
      }
      Collide(dt);
    }

    /** The acceleration, deceleration and skid steps of `update`. */
    method Accelerate(dt: real, input: MovementLogic.MoveInput, grounded: bool)
      requires dt >= 0.0
      modifies this`velocityX
      ensures velocityX == MovementLogic.VelocityStep(tuning, old(velocityX), input, grounded, dt)
    {
      var targetVelocity := Drive(dt, input, grounded);
      if MovementLogic.Skids(grounded, targetVelocity, velocityX) {
        var skid := MovementLogic.SkidStep(tuning, dt);
        if AbsR(velocityX) <= skid {
          velocityX := 0.0;
        } else {
          velocityX := velocityX + (if velocityX > 0.0 then -skid else skid);
        }
      }
    }

    /**
      The target velocity of the held keys, clamped to the speed cap, and the
      acceleration toward it (or the deceleration when no direction wins).
     */
    method Drive(dt: real, input: MovementLogic.MoveInput, grounded: bool) returns (targetVelocity: real)
      requires dt >= 0.0
      modifies this`velocityX
      ensures targetVelocity == MovementLogic.ClampedTarget(tuning, input, grounded)
      ensures velocityX == MovementLogic.DriveStep(tuning, old(velocityX), targetVelocity, grounded, dt)
    {
      targetVelocity := 0.0;
      var maxSpeed := if input.running then tuning.runSpeed else tuning.walkSpeed;
      var effectiveMaxSpeed := MovementLogic.EffectiveMaxSpeed(tuning, input.running, grounded);
      if input.left {
        targetVelocity := targetVelocity - maxSpeed;
      }
      if input.right {
        targetVelocity := targetVelocity + maxSpeed;
      }
      assert targetVelocity == MovementLogic.TargetVelocity(input, MovementLogic.MaxSpeed(tuning, input.running));
      if targetVelocity != 0.0 {
        targetVelocity := ClampR(targetVelocity, -effectiveMaxSpeed, effectiveMaxSpeed);
        assert targetVelocity == MovementLogic.ClampedTarget(tuning, input, grounded);
        var delta := targetVelocity - velocityX;
        var accel := MovementLogic.AccelStep(tuning, grounded, dt);
        if AbsR(delta) <= accel {
          velocityX := targetVelocity;
        } else {
          velocityX := velocityX + (if delta > 0.0 then accel else -accel);
        }
        assert velocityX == MovementLogic.Approach(old(velocityX), targetVelocity, accel);
      } else {
        assert MovementLogic.ClampedTarget(tuning, input, grounded) == 0.0;
        var decel := MovementLogic.DecelStep(tuning, grounded, dt);
        if AbsR(velocityX) <= decel {
          velocityX := 0.0;
        } else {
          velocityX := velocityX + (if velocityX > 0.0 then -decel else decel);
        }
        assert velocityX == MovementLogic.Decelerate(old(velocityX), decel);
      }
    }

    /** The horizontal collision part of `update`, from the proposed position on. */
    method Collide(dt: real)
      requires transform != null && tilemap != null
      modifies this`velocityX, TransformSet(transform)`x
      ensures var h := MovementLogic.ResolveHorizontal(tilemap.tiles, tilemap.tileSize, old(transform.x), transform.y,
                                                       old(velocityX), colliderWidth, colliderHeight, dt);
        velocityX == h.velocityX && transform.x == h.x
    {
      if velocityX == 0.0 {
        return;
      }
      var ts := tilemap.tileSize;
      var newX := Moved(transform.x, velocityX, dt);
      var topY := transform.y + 1.0;
      var bottomY := transform.y + colliderHeight - 1.0;
      var tileYTop := TruncDiv(Trunc(topY), ts);
      var tileYBottom := TruncDiv(Trunc(bottomY), ts);
      var tileXLeft := TruncDiv(Trunc(newX), ts);
      var tileXRight := TruncDiv(Trunc(newX + colliderWidth - 1.0), ts);

      if velocityX < 0.0 {
        var blocked := IsBlocked(tileXLeft, tileYTop, tileYBottom);
        if blocked {
          transform.x := ((tileXLeft + 1) * ts) as real;
          velocityX := 0.0;
        } else {
          transform.x := newX;
        }
      } else if velocityX > 0.0 {
        var blocked := IsBlocked(tileXRight, tileYTop, tileYBottom);
        if blocked {
          transform.x := (tileXRight * ts) as real - colliderWidth;
          velocityX := 0.0;
        } else {
          transform.x := newX;
        }
      }
    }
  }

  /** A patrolling enemy with its death countdown. */
  class EnemyComponent {
    const transform: Transform?
    const tilemap: Tilemap?
    const speed: real := EnemyLogic.DefaultSpeed
    var direction: int
    var alive: bool
    var deathTimer: real
    const deathDelay: real := EnemyLogic.DefaultDeathDelay
    const colliderWidth: real
    const colliderHeight: real
    /** The owning entity, which `addComponent` fixes when it creates the component. */
    const entity: Entity

    constructor (owner: Entity, transform: Transform?, tilemap: Tilemap?, colliderWidth: real, colliderHeight: real)
      ensures this.transform == transform && this.tilemap == tilemap
      ensures this.colliderWidth == colliderWidth && this.colliderHeight == colliderHeight
      ensures direction == EnemyLogic.DefaultDirection && alive && deathTimer == 0.0 && entity == owner
    {
      this.transform := transform;
      this.tilemap := tilemap;
      this.colliderWidth := colliderWidth;
      this.colliderHeight := colliderHeight;
      direction := EnemyLogic.DefaultDirection;
      alive := true;
      deathTimer := 0.0;
      entity := owner;
    }

    /**
      `update`: a defeated enemy only runs `EnemyLogic.DeathStep` and
      destroys its entity when the countdown fires; a living one takes
      `EnemyLogic.PatrolStep` (grounded as the entity's first physics
      component says) and its death timer is untouched. Without a transform
      or a tile map nothing happens.
     */
    method Update(dt: real)
      modifies this`direction, this`deathTimer, TransformSet(transform)`x, entity`active
      ensures transform == null || tilemap == null ==>
        direction == old(direction) && deathTimer == old(deathTimer)
        && entity.active == old(entity.active) && unchanged(TransformSet(transform))
      ensures transform != null && tilemap != null && !alive ==>
        var c := EnemyLogic.DeathStep(old(deathTimer), dt);
        deathTimer == c.deathTimer && direction == old(direction) && transform.x == old(transform.x)
        && entity.active == (old(entity.active) && !c.destroy)
      ensures transform != null && tilemap != null && alive ==>
        var p := EnemyLogic.PatrolStep(tilemap.tiles, tilemap.tileSize, old(transform.x), transform.y, old(direction),
                                       speed, colliderWidth, colliderHeight, GroundedIn(entity.components), dt);
        transform.x == p.x && direction == p.direction
        && deathTimer == old(deathTimer) && entity.active == old(entity.active)
    {
      if transform == null || tilemap == null {
        return;
      }
      if !alive {
        if deathTimer > 0.0 {
          deathTimer := deathTimer - dt;
          if deathTimer <= 0.0 {
            entity.Destroy();
          }
        }
        return;
      }
      ghost var tiles, y, x0, d0 := tilemap.tiles, transform.y, transform.x, direction;
      var dx := EnemyLogic.Stride(direction, speed, dt);
      var hitWall := Walk(dx);
      ghost var w := EnemyLogic.WallOutcome(transform.x, hitWall);
      assert w == EnemyLogic.WallStep(tiles, tilemap.tileSize, x0, y, EnemyLogic.Stride(d0, speed, dt), colliderWidth, colliderHeight);

      var onGround := true;
      var physics := entity.GetComponent(PhysicsK);
      if physics.Some? {
        onGround := physics.value.physics.onGround;
      }
      assert onGround == GroundedIn(entity.components);
      Turn(hitWall, onGround);
      assert direction == EnemyLogic.Reverse(tiles, tilemap.tileSize, w, y, d0, colliderWidth, colliderHeight, onGround);
      EnemyLogic.PatrolStepFrom(tiles, tilemap.tileSize, x0, y, d0, speed, colliderWidth, colliderHeight, onGround, dt, w, direction);
    }

    /** The horizontal step by `dx`, with the wall test on the feet row. */
    method Walk(dx: real) returns (hitWall: bool)
      requires transform != null && tilemap != null
      modifies TransformSet(transform)`x
      ensures EnemyLogic.WallOutcome(transform.x, hitWall)
        == EnemyLogic.WallStep(tilemap.tiles, tilemap.tileSize, old(transform.x), transform.y, dx, colliderWidth, colliderHeight)
    {
      var ts := tilemap.tileSize;
      var newX := transform.x + dx;
      var feetY := transform.y + colliderHeight - 1.0;
      var tileY := TruncDiv(Trunc(feetY), ts);
      var tileXLeft := TruncDiv(Trunc(newX), ts);
      var tileXRight := TruncDiv(Trunc(newX + colliderWidth - 1.0), ts);
      assert tileY == EnemyLogic.FeetRow(ts, transform.y, colliderHeight);
      hitWall := false;
      if dx < 0.0 {
        if tilemap.IsSolid(tileXLeft, tileY) {
          transform.x := ((tileXLeft + 1) * ts) as real;
          hitWall := true;
        } else {
          transform.x := newX;
        }
      } else if dx > 0.0 {
        if tilemap.IsSolid(tileXRight, tileY) {
          transform.x := (tileXRight * ts) as real - colliderWidth;
          hitWall := true;
        } else {
          transform.x := newX;
        }
      }
    }

    /** The wall reversal and, when grounded and not yet turned, the ledge reversal. */
    method Turn(hitWall: bool, onGround: bool)
      requires transform != null && tilemap != null
      modifies this`direction
      ensures direction == EnemyLogic.Reverse(tilemap.tiles, tilemap.tileSize, EnemyLogic.WallOutcome(transform.x, hitWall),
                                              transform.y, old(direction), colliderWidth, colliderHeight, onGround)
    {
      var ts := tilemap.tileSize;
      var tileY := TruncDiv(Trunc(transform.y + colliderHeight - 1.0), ts);
      var turned := false;
      if hitWall && onGround {
        direction := direction * -1;
        turned := true;
      }
      if onGround && !turned {
        var tileBelow := tileY + 1;
        var tileAheadX :=
          if direction < 0 then FloatTile(transform.x - 1.0, ts)
          else FloatTile(transform.x + colliderWidth, ts);
        assert tileAheadX == EnemyLogic.AheadColumn(ts, transform.x, direction, colliderWidth);
        if !tilemap.IsSolid(tileAheadX, tileBelow) {
          direction := direction * -1;
        }
      }
    }
  }

  /** A shot: lifetime, optional gravity, tile collision, enemy hit and level bounds. */
  class ProjectileComponent {
    const transform: Transform?
    const tilemap: Tilemap?
    const scene: Scene?
    const velocityX: real
    var velocityY: real
    const colliderWidth: real
    const colliderHeight: real
    var lifetime: real
    const gravity: real
    /** The owning entity, which `addComponent` fixes when it creates the component. */
    const entity: Entity

    constructor (owner: Entity, transform: Transform?, tilemap: Tilemap?, scene: Scene?, velocityX: real, velocityY: real,
                 colliderWidth: real, colliderHeight: real, lifetime: real, gravity: real)
      ensures this.transform == transform && this.tilemap == tilemap && this.scene == scene
      ensures this.velocityX == velocityX && this.velocityY == velocityY
      ensures this.colliderWidth == colliderWidth && this.colliderHeight == colliderHeight
      ensures this.lifetime == lifetime && this.gravity == gravity && entity == owner
    {
      this.transform := transform;
      this.tilemap := tilemap;
      this.scene := scene;
      this.velocityX := velocityX;
      this.velocityY := velocityY;
      this.colliderWidth := colliderWidth;
      this.colliderHeight := colliderHeight;
      this.lifetime := lifetime;
      this.gravity := gravity;
      entity := owner;
    }

    /**
      `update`, with the level size in pixels as parameters: the lifetime runs
      down and the entity is destroyed when it reaches zero; otherwise gravity
      (when non-zero) acts on the vertical velocity, a move into a solid cell
      destroys the entity where it stands, and a free move is taken. Then the
      first enemy hit in the scene is `Defeated` and destroys the projectile,
      and leaving the grown level rectangle destroys it too. The ghost result
      `at` names the entity struck: of the enemies, physics components and
      animations of the other entities, only that entity's may change, and
      none does when nothing is struck.
     */
    method Update(dt: real, levelWidth: real, levelHeight: real) returns (ghost at: int)
      modifies this`lifetime, this`velocityY, TransformSet(transform)`x, TransformSet(transform)`y, entity`active
      modifies EnemiesOf(Targets())`alive, EnemiesOf(Targets())`deathTimer
      modifies PhysicsOf(Targets())`velocityY, PhysicsOf(Targets())`onGround, AnimationsOf(Targets())`paused
      ensures transform == null || tilemap == null ==>
        lifetime == old(lifetime) && velocityY == old(velocityY)
        && entity.active == old(entity.active) && unchanged(TransformSet(transform)) && KeptExcept([])
      ensures transform != null && tilemap != null ==> lifetime == ProjectileLogic.NextLifetime(old(lifetime), dt)
      ensures transform != null && tilemap != null && lifetime == 0.0 ==>
        !entity.active && velocityY == old(velocityY) && transform.x == old(transform.x) && transform.y == old(transform.y)
        && KeptExcept([])
      ensures transform != null && tilemap != null && lifetime != 0.0 ==> Advanced(dt, levelWidth, levelHeight, old(entity.active), at)
    {
      at := -1;
      if transform == null || tilemap == null {
        return;
      }
      if MaxR(0.0, lifetime - dt) <= 0.0 {
        Expire(dt);
      } else {
        at := Advance(dt, levelWidth, levelHeight);
      }
    }

    /** The lifetime runs out: it is set to zero and the entity is destroyed where it stands. */
    method Expire(dt: real)
      requires transform != null && MaxR(0.0, lifetime - dt) <= 0.0
      modifies this`lifetime, entity`active
      ensures lifetime == ProjectileLogic.NextLifetime(old(lifetime), dt) && lifetime == 0.0
      ensures !entity.active && velocityY == old(velocityY) && transform.x == old(transform.x) && transform.y == old(transform.y)
      ensures KeptExcept([])
    {
      lifetime := MaxR(0.0, lifetime - dt);
      entity.Destroy();
      SameTargets();
    }

    /**
      What a living projectile's update leaves behind, against the state
      before it: gravity has acted on the vertical velocity; a move into a
      solid cell destroyed the projectile where it stood and changed no
      target; otherwise it moved and `StrikeOutcome` holds at the new
      position, with `at` the entity it struck, if any.
     */
    twostate predicate Advanced(dt: real, levelWidth: real, levelHeight: real, wasActive: bool, at: int)
      requires transform != null && tilemap != null
      reads this`velocityY, TransformSet(transform)`x, TransformSet(transform)`y, tilemap`tileSize, tilemap`tiles, entity`active
      reads SceneSet(scene)`entities, Targets()`components, EnemiesOf(Targets())`alive, EnemiesOf(Targets())`deathTimer,
            TransformsOf(Targets())`x, TransformsOf(Targets())`y,
            PhysicsOf(Targets())`velocityY, PhysicsOf(Targets())`onGround, AnimationsOf(Targets())`paused
    {
      var vy := ProjectileLogic.FallVelocity(old(velocityY), gravity, dt);
      var nx := Moved(old(transform.x), velocityX, dt);
      var ny := Moved(old(transform.y), vy, dt);
      velocityY == vy
      && if ProjectileLogic.SolidInSpan(tilemap.tiles, ProjectileLogic.SpanOf(tilemap.tileSize, nx, ny, colliderWidth, colliderHeight))
         then !entity.active && transform.x == old(transform.x) && transform.y == old(transform.y) && KeptExcept([])
         else transform.x == nx && transform.y == ny && StrikeOutcome(levelWidth, levelHeight, wasActive, at)
    }

    /** The lifetime runs down without running out; then the flight and the strike. */
    method Advance(dt: real, levelWidth: real, levelHeight: real) returns (ghost at: int)
      requires transform != null && tilemap != null && MaxR(0.0, lifetime - dt) > 0.0
      modifies this`lifetime, this`velocityY, TransformSet(transform)`x, TransformSet(transform)`y, entity`active
      modifies EnemiesOf(Targets())`alive, EnemiesOf(Targets())`deathTimer
      modifies PhysicsOf(Targets())`velocityY, PhysicsOf(Targets())`onGround, AnimationsOf(Targets())`paused
      ensures lifetime == ProjectileLogic.NextLifetime(old(lifetime), dt) && lifetime != 0.0
      ensures Advanced(dt, levelWidth, levelHeight, old(entity.active), at)
    {
      at := -1;
      var moved := Fly(dt);
      SameTargets();
      if moved {
        var hit;
        hit, at := Strike(levelWidth, levelHeight);
        SameTargets();
        assert KeptExcept(if hit then scene.entities[at].components else []);
      }
    }

    /**
      The outcome of the enemy and level tests at the current position. With
      a scene, either the enemy of entity `at` was `StruckAt`, no other target
      changed and the projectile is destroyed, or no enemy is hit, no target changed and
      the projectile stays active exactly when it was active and is inside the
      grown level rectangle; without a scene, only the level test applies.
     */
    twostate predicate StrikeOutcome(levelWidth: real, levelHeight: real, wasActive: bool, at: int)
      requires transform != null
      reads TransformSet(transform)`x, TransformSet(transform)`y, entity`active, SceneSet(scene)`entities
      reads Targets()`components, EnemiesOf(Targets())`alive, EnemiesOf(Targets())`deathTimer,
            TransformsOf(Targets())`x, TransformsOf(Targets())`y,
            PhysicsOf(Targets())`velocityY, PhysicsOf(Targets())`onGround, AnimationsOf(Targets())`paused
    {
      var bounds := Rect(transform.x, transform.y, colliderWidth, colliderHeight);
      var out := ProjectileLogic.OutOfLevel(transform.x, transform.y, colliderWidth, colliderHeight, levelWidth, levelHeight);
      if scene == null then (entity.active <==> wasActive && !out)
      else
        (StruckAt(scene.entities, entity, bounds, at) && KeptExcept(scene.entities[at].components) && !entity.active)
        || (FirstHit(scene.entities, entity, bounds) == |scene.entities| && KeptExcept([])
            && (entity.active <==> wasActive && !out))
    }

    /**
      The last part of `update`, at the new position: an enemy hit in the
      scene, or leaving the grown level rectangle, destroys the projectile.
     */
    method Strike(levelWidth: real, levelHeight: real) returns (hit: bool, ghost at: int)
      requires transform != null
      modifies entity`active
      modifies EnemiesOf(Targets())`alive, EnemiesOf(Targets())`deathTimer
      modifies PhysicsOf(Targets())`velocityY, PhysicsOf(Targets())`onGround, AnimationsOf(Targets())`paused
      ensures hit ==> scene != null && !entity.active
                      && StruckAt(scene.entities, entity, Rect(transform.x, transform.y, colliderWidth, colliderHeight), at)
      ensures !hit ==> (scene != null ==> FirstHit(scene.entities, entity, Rect(transform.x, transform.y, colliderWidth, colliderHeight)) == |scene.entities|)
      ensures !hit ==>
        (entity.active <==>
           old(entity.active) && !ProjectileLogic.OutOfLevel(transform.x, transform.y, colliderWidth, colliderHeight, levelWidth, levelHeight))
      ensures KeptExcept(if hit then scene.entities[at].components else [])
    {
      if scene != null {
        hit, at := StrikeInScene(levelWidth, levelHeight);
      } else {
        hit, at := false, -1;
        LeaveLevel(levelWidth, levelHeight);
      }
    }

    /** `Strike` for a projectile that belongs to a scene. */
    method StrikeInScene(levelWidth: real, levelHeight: real) returns (hit: bool, ghost at: int)
      requires transform != null && scene != null
      modifies entity`active
      modifies EnemiesOf(Targets())`alive, EnemiesOf(Targets())`deathTimer
      modifies PhysicsOf(Targets())`velocityY, PhysicsOf(Targets())`onGround, AnimationsOf(Targets())`paused
      ensures hit ==> !entity.active && StruckAt(scene.entities, entity, Rect(transform.x, transform.y, colliderWidth, colliderHeight), at)
      ensures !hit ==> FirstHit(scene.entities, entity, Rect(transform.x, transform.y, colliderWidth, colliderHeight)) == |scene.entities|
      ensures !hit ==>
        (entity.active <==>
           old(entity.active) && !ProjectileLogic.OutOfLevel(transform.x, transform.y, colliderWidth, colliderHeight, levelWidth, levelHeight))
      ensures KeptExcept(if hit then scene.entities[at].components else [])
    {
      hit, at := CheckEnemyHit();
      SameTargets();
      if hit {
        DestroyStruck(at);
      } else {
        LeaveLevel(levelWidth, levelHeight);
      }
      SameTargets();
    }

    /** The destruction after a hit, which leaves the struck enemy as it was. */
    method DestroyStruck(ghost at: int)
      requires transform != null && scene != null
      requires StruckAt(scene.entities, entity, Rect(transform.x, transform.y, colliderWidth, colliderHeight), at)
      modifies entity`active
      ensures !entity.active
      ensures StruckAt(scene.entities, entity, Rect(transform.x, transform.y, colliderWidth, colliderHeight), at)
      ensures scene.entities[at].components == old(scene.entities[at].components)
      ensures TargetsKept()
    {
      entity.Destroy();
    }

    /** The level-bounds test of `update`: a collider outside the level grown by its own size destroys the entity. */
    method LeaveLevel(levelWidth: real, levelHeight: real)
      requires transform != null
      modifies entity`active
      ensures entity.active <==>
        old(entity.active) && !ProjectileLogic.OutOfLevel(transform.x, transform.y, colliderWidth, colliderHeight, levelWidth, levelHeight)
      ensures TargetsKept()
      ensures scene != null ==>
        FirstHit(scene.entities, entity, Rect(transform.x, transform.y, colliderWidth, colliderHeight))
        == old(FirstHit(scene.entities, entity, Rect(transform.x, transform.y, colliderWidth, colliderHeight)))
    {
      var nextX, nextY := transform.x, transform.y;
      if nextX < -colliderWidth || nextX > levelWidth + colliderWidth
         || nextY < -colliderHeight || nextY > levelHeight + colliderHeight {
        entity.Destroy();
      }
      if scene != null {
        FirstHitKept(Rect(transform.x, transform.y, colliderWidth, colliderHeight));
      }
    }

    /**
      The flight part of `update` for a lifetime that does not run out: the
      lifetime runs down, gravity acts, then either the destroying
      collision with a solid cell, or the move to the next position.
     */
    method Fly(dt: real) returns (moved: bool)
      requires transform != null && tilemap != null
      modifies this`lifetime, this`velocityY, TransformSet(transform)`x, TransformSet(transform)`y, entity`active
      ensures lifetime == ProjectileLogic.NextLifetime(old(lifetime), dt)
      ensures var vy := ProjectileLogic.FallVelocity(old(velocityY), gravity, dt);
        var nx := Moved(old(transform.x), velocityX, dt);
        var ny := Moved(old(transform.y), vy, dt);
        velocityY == vy
        && (moved <==> !ProjectileLogic.SolidInSpan(tilemap.tiles,
                          ProjectileLogic.SpanOf(tilemap.tileSize, nx, ny, colliderWidth, colliderHeight)))
        && (moved ==> transform.x == nx && transform.y == ny && entity.active == old(entity.active))
        && (!moved ==> !entity.active && transform.x == old(transform.x) && transform.y == old(transform.y))
      ensures TargetsKept()
    {
      lifetime := MaxR(0.0, lifetime - dt);
      if gravity != 0.0 {
        velocityY := velocityY + gravity * dt;
      }
      var nextX := Moved(transform.x, velocityX, dt);
      var nextY := Moved(transform.y, velocityY, dt);
      assert nextX == Moved(old(transform.x), velocityX, dt);
      assert nextY == Moved(old(transform.y), velocityY, dt);
      var collides := CollidesWithSolid(nextX, nextY);
      if collides {
        entity.Destroy();
        moved := false;
      } else {
        transform.x, transform.y := nextX, nextY;
        moved := true;
      }
      SameTargets();
    }

    /**
      Of the enemies, physics components and animations the projectile can
      reach, only the first enemy, physics component and animation of the
      component list `struck` (the struck entity's, or `[]` for none) changed.
     */
    twostate predicate KeptExcept(new struck: seq<Component>)
      reads SceneSet(scene)`entities, Targets()`components
      reads EnemiesOf(Targets())`alive, EnemiesOf(Targets())`deathTimer
      reads PhysicsOf(Targets())`velocityY, PhysicsOf(Targets())`onGround, AnimationsOf(Targets())`paused
    {
      var es := old(EnemiesOf(Targets())) * EnemiesOf(Targets()) - EnemySet(EnemyIn(struck));
      var ps := old(PhysicsOf(Targets())) * PhysicsOf(Targets()) - PhysicsSet(PhysicsIn(struck));
      var ans := old(AnimationsOf(Targets())) * AnimationsOf(Targets()) - AnimationSet(AnimationIn(struck));
      unchanged(es`alive, es`deathTimer, ps`velocityY, ps`onGround, ans`paused)
    }

    /**
      The scene's entity list and the other entities' component lists are
      unchanged, and so are their enemies' liveness and death timers, their
      physics components' speed and ground flag, and their animations' pause.
     */
    twostate predicate TargetsKept()
      reads SceneSet(scene)`entities, Targets()`components
      reads EnemiesOf(Targets())`alive, EnemiesOf(Targets())`deathTimer
      reads PhysicsOf(Targets())`velocityY, PhysicsOf(Targets())`onGround, AnimationsOf(Targets())`paused
    {
      && unchanged(SceneSet(scene)`entities)
      && unchanged(Targets()`components)
      && unchanged(EnemiesOf(Targets())`alive, EnemiesOf(Targets())`deathTimer)
      && unchanged(PhysicsOf(Targets())`velocityY, PhysicsOf(Targets())`onGround, AnimationsOf(Targets())`paused)
    }

    /** With the entity list and the component lists unchanged, the projectile reaches the same enemies, physics components and animations. */
    twostate lemma SameTargets()
      requires unchanged(SceneSet(scene)`entities)
      requires unchanged(Targets()`components)
      ensures Targets() == old(Targets())
      ensures EnemiesOf(Targets()) == old(EnemiesOf(Targets()))
      ensures PhysicsOf(Targets()) == old(PhysicsOf(Targets()))
      ensures AnimationsOf(Targets()) == old(AnimationsOf(Targets()))
    {
    }

    /** Everything the projectile can reach but the components of `struck` left unchanged is `KeptExcept(struck)`. */
    twostate lemma KeptOutside(new struck: seq<Component>)
      requires unchanged(SceneSet(scene)`entities)
      requires unchanged(Targets()`components)
      requires unchanged(EnemiesOf(Targets()) - EnemySet(EnemyIn(struck)), PhysicsOf(Targets()) - PhysicsSet(PhysicsIn(struck)))
      requires unchanged(AnimationsOf(Targets()) - AnimationSet(AnimationIn(struck)))
      ensures KeptExcept(struck)
    {
      SameTargets();
    }

    /** With the enemies' liveness and the other entities' positions unchanged, the first hit is the same. */
    twostate lemma FirstHitKept(bounds: Rect)
      requires scene != null
      requires unchanged(scene`entities)
      requires unchanged(Targets()`components)
      requires unchanged(EnemiesOf(Targets())`alive, TransformsOf(Targets())`x, TransformsOf(Targets())`y)
      ensures FirstHit(scene.entities, entity, bounds) == old(FirstHit(scene.entities, entity, bounds))
    {
      SameTargets();
    }

    /** The entities `checkEnemyHit` scans, apart from the projectile's own. */
    function Targets(): set<Entity>
      reads SceneSet(scene)`entities
    {
      if scene == null then {} else Others(scene.entities, entity)
    }

    /**
      `checkEnemyHit`: the first other entity of the scene whose living
      enemy's collider intersects the projectile's collider is `Defeated`
      and the answer is `true`; with no such entity nothing changes and the
      answer is `false`.
     */
    method CheckEnemyHit() returns (hit: bool, ghost at: int)
      requires transform != null && scene != null
      modifies EnemiesOf(Targets())`alive, EnemiesOf(Targets())`deathTimer
      modifies PhysicsOf(Targets())`velocityY, PhysicsOf(Targets())`onGround, AnimationsOf(Targets())`paused
      ensures !hit ==> unchanged(EnemiesOf(Targets()), PhysicsOf(Targets()), AnimationsOf(Targets()))
      ensures var bounds := Rect(transform.x, transform.y, colliderWidth, colliderHeight);
        (hit ==> StruckAt(scene.entities, entity, bounds, at))
        && (!hit ==> FirstHit(scene.entities, entity, bounds) == |scene.entities|)
      ensures KeptExcept(if hit then scene.entities[at].components else [])
    {
      var i := FindHit();
      at := i;
      if i < |scene.entities| {
        StrikeAt(i);
        return true, at;
      }
      return false, at;
    }

    /** The hit of `checkEnemyHit` on the first entity `i` the scan found. */
    method StrikeAt(i: nat)
      requires transform != null && scene != null
      requires i == FirstHit(scene.entities, entity, Rect(transform.x, transform.y, colliderWidth, colliderHeight))
      requires i < |scene.entities|
      modifies EnemiesOf(Targets())`alive, EnemiesOf(Targets())`deathTimer
      modifies PhysicsOf(Targets())`velocityY, PhysicsOf(Targets())`onGround, AnimationsOf(Targets())`paused
      ensures StruckAt(scene.entities, entity, Rect(transform.x, transform.y, colliderWidth, colliderHeight), i)
      ensures KeptExcept(scene.entities[i].components)
    {
      var bounds := Rect(transform.x, transform.y, colliderWidth, colliderHeight);
      DefeatEnemy(scene.entities[i]);
      KeptOutside(scene.entities[i].components);
    }

    /** The scan of `checkEnemyHit`: the position of the first entity it hits, `|entities|` for none. */
    method FindHit() returns (i: nat)
      requires transform != null && scene != null
      ensures i == FirstHit(scene.entities, entity, Rect(transform.x, transform.y, colliderWidth, colliderHeight))
    {
      var bounds := Rect(transform.x, transform.y, colliderWidth, colliderHeight);
      var es := scene.GetEntities();
      i := 0;
      while i < |es|
        invariant 0 <= i <= |es|
        invariant forall j :: 0 <= j < i ==> es[j] == entity || !Hits(es[j], entity, bounds)
      {
        var other := es[i];
        if other != entity {
          var enemy := other.GetComponent(EnemyK);
          if enemy.Some? && enemy.value.enemy.alive {
            var enemyTransform := other.GetComponent(TransformK);
            if enemyTransform.Some? {
              var t := enemyTransform.value.transform;
              var enemyBounds := Rect(t.x, t.y, enemy.value.enemy.colliderWidth, enemy.value.enemy.colliderHeight);
              if Intersects(bounds, enemyBounds) {
                break;
              }
            }
          }
        }
        i := i + 1;
      }
      FirstHitIs(es, entity, bounds, i);
    }

    /** `collidesWithSolid`: some cell under the collider placed at (px, py) is solid. */
    method CollidesWithSolid(px: real, py: real) returns (collides: bool)
      requires tilemap != null
      ensures collides == ProjectileLogic.SolidInSpan(tilemap.tiles,
        ProjectileLogic.SpanOf(tilemap.tileSize, px, py, colliderWidth, colliderHeight))
    {
      var ts := tilemap.tileSize;
      var tileXLeft := TruncDiv(Trunc(px), ts);
      var tileXRight := TruncDiv(Trunc(px + colliderWidth - 1.0), ts);
      var tileYTop := TruncDiv(Trunc(py), ts);
      var tileYBottom := TruncDiv(Trunc(py + colliderHeight - 1.0), ts);
      ghost var span := ProjectileLogic.SpanOf(ts, px, py, colliderWidth, colliderHeight);
      assert span == ProjectileLogic.TileSpan(tileXLeft, tileXRight, tileYTop, tileYBottom);
      var y := tileYTop;
      while y <= tileYBottom
        invariant tileYTop <= y && (y <= tileYBottom + 1 || y == tileYTop)
        invariant forall ty, tx :: tileYTop <= ty < y && tileXLeft <= tx <= tileXRight ==> !SolidAt(tilemap.tiles, tx, ty)
        decreases tileYBottom - y
      {
        var x := tileXLeft;
        while x <= tileXRight
          invariant tileXLeft <= x && (x <= tileXRight + 1 || x == tileXLeft)
          invariant forall tx :: tileXLeft <= tx < x ==> !SolidAt(tilemap.tiles, tx, y)
          decreases tileXRight - x
        {
          if tilemap.IsSolid(x, y) {
            return true;
          }
          x := x + 1;
        }
        y := y + 1;
      }
      return false;
    }
  }

  // ---------------------------------------------------------------------
  // Entity and Scene

  class Entity {
    var components: seq<Component>
    var active: bool

    /** A new entity is active and has no components. */
    constructor ()
      ensures components == [] && active
    {
      components := [];
      active := true;
    }

    /** Every component's back-reference names this entity. */
    predicate Valid()
      reads this`components
    {
      forall i :: 0 <= i < |components| ==> Owner(components[i]) == this
    }

    /** `destroy`: the entity becomes inactive; destroying twice is the same as once. */
    method Destroy()
      modifies this`active
      ensures !active
    {
      active := false;
    }

    /** `isActive`. */
    predicate IsActive()
      reads this`active
    {
      active
    }

    /**
      `addComponent`: the component, created for this entity (its
      back-reference names this entity), goes to the end of the list; the
      earlier components stay as they were, and so every lookup except the
      first one of the new component's kind (`FirstOfAppend`).
     */
    method AddComponent(c: Component)
      requires Owner(c) == this
      modifies this`components
      ensures components == old(components) + [c]
      ensures old(Valid()) ==> Valid()
    {
      components := components + [c];
    }

    /** `getComponent<T>`: the first component of the kind, in insertion order, or nothing. */
    method GetComponent(k: Kind) returns (r: Option<Component>)
      ensures r == FirstOf(components, k)
      ensures r.Some? ==> KindOf(r.value) == k && r.value in components
    {
      var i := 0;
      while i < |components|
        invariant 0 <= i <= |components|
        invariant forall j :: 0 <= j < i ==> KindOf(components[j]) != k
      {
        if KindOf(components[i]) == k {
          FirstIsUnique(components, k, i);
          return Some(components[i]);
        }
        i := i + 1;
      }
      FirstIsUnique(components, k, |components|);
      return None;
    }

    /** Every physics component with a transform also has a tile map (its `update` reads both). */
    predicate PhysicsWired()
      reads this`components
    {
      forall i :: 0 <= i < |components| && components[i].PhysicsC? && components[i].physics.transform != null ==>
        components[i].physics.tilemap != null
    }

    /** The entities the projectiles of this entity search: every entity of their scenes. */
    function Reach(): set<Entity>
      reads this`components, TargetScenes(components)`entities
    {
      EntitiesOf(TargetScenes(components))
    }

    /** `o` holds the values it held in the pre-state. */
    twostate predicate Untouched(o: object)
      reads o
    {
      unchanged(o)
    }

    /** Only an enemy or a projectile component calls `destroy` on its own entity. */
    predicate CanDestroyItself()
      reads this`components
    {
      Enemies(components) != {} || Projectiles(components) != {}
    }

    /**
      `update`, with the polled keys and the level size as parameters: an
      inactive entity changes nothing; an active one updates its components
      in insertion order, and only an enemy or a projectile component can
      destroy it. The component list and the back-references stay as they
      were.
     */
    method Update(dt: real, keys: Keys, levelWidth: real, levelHeight: real)
      requires Valid() && PhysicsWired() && dt >= 0.0
      modifies this`active, Bodies(components)`x, Bodies(components)`y
      modifies Movements(components)`velocityX, PhysicsParts(components)`velocityY, PhysicsParts(components)`onGround
      modifies Enemies(components)`direction, Enemies(components)`deathTimer
      modifies Projectiles(components)`lifetime, Projectiles(components)`velocityY
      modifies Animations(components)`state, Animations(components)`currentTime
      modifies Animations(components)`currentFrame, Animations(components)`textureRect
      modifies EnemiesOf(Reach())`alive, EnemiesOf(Reach())`deathTimer
      modifies PhysicsOf(Reach())`velocityY, PhysicsOf(Reach())`onGround, AnimationsOf(Reach())`paused
      ensures Valid() && components == old(components)
      ensures !old(active) ==> forall o: object :: old(allocated(o)) ==> Untouched(o)
      ensures old(active) && !active ==> CanDestroyItself()
      ensures forall x: Entity :: old(allocated(x)) && x != this ==> x.active == old(x.active)
    {
      if !active {
        return;
      }
      UpdateComponents(dt, keys, levelWidth, levelHeight);
    }

    /** The loop of `update` over the components, in insertion order. */
    method UpdateComponents(dt: real, keys: Keys, levelWidth: real, levelHeight: real)
      requires Valid() && PhysicsWired() && dt >= 0.0
      modifies this`active, Bodies(components)`x, Bodies(components)`y
      modifies Movements(components)`velocityX, PhysicsParts(components)`velocityY, PhysicsParts(components)`onGround
      modifies Enemies(components)`direction, Enemies(components)`deathTimer
      modifies Projectiles(components)`lifetime, Projectiles(components)`velocityY
      modifies Animations(components)`state, Animations(components)`currentTime
      modifies Animations(components)`currentFrame, Animations(components)`textureRect
      modifies EnemiesOf(Reach())`alive, EnemiesOf(Reach())`deathTimer
      modifies PhysicsOf(Reach())`velocityY, PhysicsOf(Reach())`onGround, AnimationsOf(Reach())`paused
      ensures Valid() && components == old(components)
      ensures old(active) && !active ==> CanDestroyItself()
      ensures forall x: Entity :: old(allocated(x)) && x != this ==> x.active == old(x.active)
    {
      var i := 0;
      while i < |components|
        invariant 0 <= i <= |components|
        invariant Valid()
        invariant old(active) && !active ==> CanDestroyItself()
      {
        assert Owner(components[i]) == this;
        UpdateAt(i, dt, keys, levelWidth, levelHeight);
        i := i + 1;
      }
    }

    /** The update of the component at position `k`, with the inputs its kind polls. */
    method UpdateAt(k: nat, dt: real, keys: Keys, levelWidth: real, levelHeight: real)
      requires PhysicsWired() && k < |components| && Owner(components[k]) == this && dt >= 0.0
      modifies this`active, Bodies(components)`x, Bodies(components)`y
      modifies Movements(components)`velocityX, PhysicsParts(components)`velocityY, PhysicsParts(components)`onGround
      modifies Enemies(components)`direction, Enemies(components)`deathTimer
      modifies Projectiles(components)`lifetime, Projectiles(components)`velocityY
      modifies Animations(components)`state, Animations(components)`currentTime
      modifies Animations(components)`currentFrame, Animations(components)`textureRect
      modifies EnemiesOf(Reach())`alive, EnemiesOf(Reach())`deathTimer
      modifies PhysicsOf(Reach())`velocityY, PhysicsOf(Reach())`onGround, AnimationsOf(Reach())`paused
      ensures old(active) && !active ==> CanDestroyItself()
      ensures active ==> old(active)
    {
      match components[k] {
        case TransformC(_) =>
        case MovementC(m) =>
          m.Update(dt, MovementLogic.MoveInput(keys.left, keys.right, keys.running));
        case PhysicsC(p) =>
          p.Update(dt, keys.jump);
        case EnemyC(e) =>
          assert e in Enemies(components);
          e.Update(dt);
        case AnimationC(a) =>
          a.Update(dt);
        case ProjectileC(_) =>
          UpdateProjectileAt(k, dt, levelWidth, levelHeight);
      }
    }

    /** `UpdateAt` for a projectile component. */
    method UpdateProjectileAt(k: nat, dt: real, levelWidth: real, levelHeight: real)
      requires PhysicsWired() && k < |components| && Owner(components[k]) == this && components[k].ProjectileC?
      modifies this`active, Bodies(components)`x, Bodies(components)`y
      modifies Projectiles(components)`lifetime, Projectiles(components)`velocityY
      modifies EnemiesOf(Reach())`alive, EnemiesOf(Reach())`deathTimer
      modifies PhysicsOf(Reach())`velocityY, PhysicsOf(Reach())`onGround, AnimationsOf(Reach())`paused
      ensures old(active) && !active ==> CanDestroyItself()
      ensures active ==> old(active)
    {
      var p := components[k].projectile;
      assert p in Projectiles(components);
      TargetsInReach(components[k]);
      ghost var struck := p.Update(dt, levelWidth, levelHeight);
    }

    /** A projectile of this entity only hits entities within `Reach`. */
    lemma TargetsInReach(c: Component)
      requires c in components && c.ProjectileC?
      ensures c.projectile.Targets() <= Reach()
      ensures EnemiesOf(c.projectile.Targets()) <= EnemiesOf(Reach())
      ensures PhysicsOf(c.projectile.Targets()) <= PhysicsOf(Reach())
      ensures AnimationsOf(c.projectile.Targets()) <= AnimationsOf(Reach())
    {
      var p := c.projectile;
      if p.scene != null {
        assert p.scene in TargetScenes(components);
      }
    }
  }

  /** The first match is the only position with the kind and none before it. */
  lemma FirstIsUnique(cs: seq<Component>, k: Kind, i: nat)
    requires i <= |cs|
    requires forall j :: 0 <= j < i ==> KindOf(cs[j]) != k
    requires i < |cs| ==> KindOf(cs[i]) == k
    ensures FirstIndex(cs, k) == i
  {
  }

  class Scene {
    var entities: seq<Entity>

    constructor ()
      ensures entities == []
    {
      entities := [];
    }

    /** `createEntity`: one new active entity without components is appended; the others stay. */
    method CreateEntity() returns (e: Entity)
      modifies this`entities
      ensures fresh(e) && e.components == [] && e.active
      ensures entities == old(entities) + [e]
    {
      e := new Entity();
      entities := entities + [e];
    }

    /** `getEntities`. */
    function GetEntities(): seq<Entity>
      reads this`entities
    {
      entities
    }

    /** The entities of the scene, as a set. */
    function Members(): set<Entity>
      reads this`entities
    {
      set e | e in entities
    }

    /** Every entity of the scene is `Valid` and `PhysicsWired`. */
    predicate Valid()
      reads this`entities, Members()`components
    {
      forall i :: 0 <= i < |entities| ==> entities[i].Valid() && entities[i].PhysicsWired()
    }

    /** The entities any projectile of the scene may hit. */
    function Reach(): set<Entity>
      reads this`entities, Members()`components, TargetScenesOf(Members())`entities
    {
      EntitiesOf(TargetScenesOf(Members()))
    }

    /**
      `update`, with the polled keys and the level size as parameters: every
      entity is updated once, in order. An entity that was active becomes
      inactive only when it has an enemy or a projectile component, since
      only those destroy their own entity.
     */
    method Update(dt: real, keys: Keys, levelWidth: real, levelHeight: real)
      requires Valid() && dt >= 0.0
      modifies Members()`active, BodiesOf(Members())`x, BodiesOf(Members())`y
      modifies MovementsOf(Members())`velocityX, PhysicsOf(Members())`velocityY, PhysicsOf(Members())`onGround
      modifies EnemiesOf(Members())`direction, EnemiesOf(Members())`deathTimer
      modifies ProjectilesOf(Members())`lifetime, ProjectilesOf(Members())`velocityY
      modifies AnimationsOf(Members())`state, AnimationsOf(Members())`currentTime
      modifies AnimationsOf(Members())`currentFrame, AnimationsOf(Members())`textureRect
      modifies EnemiesOf(Reach())`alive, EnemiesOf(Reach())`deathTimer
      modifies PhysicsOf(Reach())`velocityY, PhysicsOf(Reach())`onGround, AnimationsOf(Reach())`paused
      ensures Valid() && entities == old(entities)
      ensures forall e :: e in entities && old(e.active) && !e.active ==> e.CanDestroyItself()
    {
      var i := 0;
      while i < |entities|
        invariant 0 <= i <= |entities|
        invariant Valid()
        invariant forall e :: e in entities && old(e.active) && !e.active ==> e.CanDestroyItself()
      {
        UpdateMember(i, dt, keys, levelWidth, levelHeight);
        i := i + 1;
      }
    }

    /** The update of the entity at position `k`. */
    method UpdateMember(k: nat, dt: real, keys: Keys, levelWidth: real, levelHeight: real)
      requires Valid() && k < |entities| && dt >= 0.0
      modifies Members()`active, BodiesOf(Members())`x, BodiesOf(Members())`y
      modifies MovementsOf(Members())`velocityX, PhysicsOf(Members())`velocityY, PhysicsOf(Members())`onGround
      modifies EnemiesOf(Members())`direction, EnemiesOf(Members())`deathTimer
      modifies ProjectilesOf(Members())`lifetime, ProjectilesOf(Members())`velocityY
      modifies AnimationsOf(Members())`state, AnimationsOf(Members())`currentTime
      modifies AnimationsOf(Members())`currentFrame, AnimationsOf(Members())`textureRect
      modifies EnemiesOf(Reach())`alive, EnemiesOf(Reach())`deathTimer
      modifies PhysicsOf(Reach())`velocityY, PhysicsOf(Reach())`onGround, AnimationsOf(Reach())`paused
      ensures Valid()
      ensures old(entities[k].active) && !entities[k].active ==> entities[k].CanDestroyItself()
      ensures forall x: Entity :: old(allocated(x)) && x != entities[k] ==> x.active == old(x.active)
    {
      var e := entities[k];
      MemberFrames(e);
      e.Update(dt, keys, levelWidth, levelHeight);
    }

    /** What one entity's update may change lies within what the scene's update may change. */
    lemma MemberFrames(e: Entity)
      requires e in entities
      ensures Bodies(e.components) <= BodiesOf(Members())
      ensures Movements(e.components) <= MovementsOf(Members()) && PhysicsParts(e.components) <= PhysicsOf(Members())
      ensures Enemies(e.components) <= EnemiesOf(Members()) && Projectiles(e.components) <= ProjectilesOf(Members())
      ensures Animations(e.components) <= AnimationsOf(Members())
      ensures EnemiesOf(e.Reach()) <= EnemiesOf(Reach()) && PhysicsOf(e.Reach()) <= PhysicsOf(Reach())
      ensures AnimationsOf(e.Reach()) <= AnimationsOf(Reach())
    {
      assert e in Members();
      assert TargetScenes(e.components) <= TargetScenesOf(Members());
    }
  }
}

=== FILE: enemy.dfy ===
/**
  The patrol of `EnemyComponent::update` as functions on values: the death
  countdown of a defeated enemy, the horizontal step with the wall snap on the
  feet row, and the wall and ledge reversals.
 */
module EnemyLogic {
  import opened Geometry
  import opened Tiles
  import MovementLogic

  /** The field initialisers of `EnemyComponent`. */
  const DefaultSpeed: real := 60.0
  const DefaultDirection: int := -1
  const DefaultDeathDelay: real := 0.3
  const DefaultCollider: real := 32.0

  /** A patrol direction: -1 walks left, +1 walks right. */
  predicate ValidDirection(d: int)
  {
    d == -1 || d == 1
  }

  // ---------------------------------------------------------------------
  // Death countdown

  /** The timer after one update of a defeated enemy, and whether it destroys its entity. */
  datatype Countdown = Countdown(deathTimer: real, destroy: bool)

  /**
    A defeated enemy only counts down: a positive timer drops by `dt` and the
    entity is destroyed on the update that takes it to zero or below; a timer
    already at or below zero is left alone and destroys nothing.
   */
  function DeathStep(deathTimer: real, dt: real): (r: Countdown)
    ensures r.destroy ==> deathTimer > 0.0 && r.deathTimer <= 0.0
    ensures deathTimer <= 0.0 ==> r == Countdown(deathTimer, false)
    ensures deathTimer > 0.0 ==> r.deathTimer == deathTimer - dt
  {
    if deathTimer > 0.0 then
      var t := deathTimer - dt;
      Countdown(t, t <= 0.0)
    else Countdown(deathTimer, false)
  }

  /** The countdown destroys an entity at most once: after it fires, no later update fires again. */
  lemma {:induction false} DestroyFiresOnce(deathTimer: real, dt: real, dt2: real)
    requires DeathStep(deathTimer, dt).destroy
    ensures !DeathStep(DeathStep(deathTimer, dt).deathTimer, dt2).destroy
    ensures DeathStep(DeathStep(deathTimer, dt).deathTimer, dt2).deathTimer == DeathStep(deathTimer, dt).deathTimer
  {
  }

  /** `n` updates of a defeated enemy with the same `dt`: whether any of them destroyed the entity. */
  function CountdownFires(deathTimer: real, dt: real, n: nat): (fired: bool)
    decreases n
  {
    if n == 0 then false
    else
      var r := DeathStep(deathTimer, dt);
      r.destroy || CountdownFires(r.deathTimer, dt, n - 1)
  }

  /**
    With a positive frame time, a defeated enemy whose timer is at most `n`
    frames long is destroyed within `n` updates. An enemy stomped by the
    controller gets `deathDelay` (0.3 s) on its timer, so it disappears.
   */
  lemma {:induction false} CountdownDestroys(deathTimer: real, dt: real, n: nat)
    requires dt > 0.0 && deathTimer > 0.0 && deathTimer <= n as real * dt
    ensures CountdownFires(deathTimer, dt, n)
    decreases n
  {
    var r := DeathStep(deathTimer, dt);
    if !r.destroy {
      assert n != 0;
      assert r.deathTimer <= (n - 1) as real * dt by {
        assert n as real * dt == (n - 1) as real * dt + dt;
      }
      CountdownDestroys(r.deathTimer, dt, n - 1);
    }
  }

  // ---------------------------------------------------------------------
  // Patrol step of a living enemy

  /** The feet row: the tile row holding the collider's bottom pixel. */
  function FeetRow(tileSize: Pos, y: real, height: real): int
  {
    TileOf(y + height - 1.0, tileSize)
  }

  /** Position after the horizontal step and whether it ran into a wall. */
  datatype WallOutcome = WallOutcome(x: real, hitWall: bool)

  /**
    Moves by `dx` and tests only the feet row: the leading column is the one
    holding the left edge when walking left and the right edge when walking
    right. A solid cell snaps the collider flush against it; with `dx == 0` the
    enemy stays where it is.
   */
  function WallStep(tiles: Grid, tileSize: Pos, x: real, y: real, dx: real, width: real, height: real): (r: WallOutcome)
    ensures var newX := x + dx;
      var row := FeetRow(tileSize, y, height);
      var left := TileOf(newX, tileSize);
      var right := TileOf(newX + width - 1.0, tileSize);
      (r.hitWall <==> (dx < 0.0 && SolidAt(tiles, left, row)) || (dx > 0.0 && SolidAt(tiles, right, row)))
      && (dx < 0.0 && r.hitWall ==> r.x == ((left + 1) * tileSize) as real && newX < r.x)
      && (dx > 0.0 && r.hitWall ==> r.x + width == (right * tileSize) as real)
      && (!r.hitWall && dx != 0.0 ==> r.x == newX)
      && (dx == 0.0 ==> r == WallOutcome(x, false))
  {
    var newX := x + dx;
    var row := FeetRow(tileSize, y, height);
    if dx < 0.0 then
      var s := MovementLogic.StepLeft(tiles, tileSize, newX, dx, row, row);
      SingleRowBlocked(tiles, TileOf(newX, tileSize), row);
      WallOutcome(s.x, MovementLogic.Blocked(tiles, TileOf(newX, tileSize), row, row))
    else if dx > 0.0 then
      var s := MovementLogic.StepRight(tiles, tileSize, newX, dx, width, row, row);
      SingleRowBlocked(tiles, TileOf(newX + width - 1.0, tileSize), row);
      WallOutcome(s.x, MovementLogic.Blocked(tiles, TileOf(newX + width - 1.0, tileSize), row, row))
    else WallOutcome(x, false)
  }

  /** A row range of one row is blocked exactly when that one cell is solid. */
  lemma SingleRowBlocked(tiles: Grid, tileX: int, row: int)
    ensures MovementLogic.Blocked(tiles, tileX, row, row) <==> SolidAt(tiles, tileX, row)
  {
    if SolidAt(tiles, tileX, row) {
      assert row <= row <= row && SolidAt(tiles, tileX, row);
    }
  }

  /**
    The column just past the leading edge after the step: the pixel left of
    the collider when walking left, the pixel at its right edge when walking
    right. The source divides the float and truncates;
    `Geometry.QuotientOfTruncation` shows that `TileOf` picks the same column.
   */
  function AheadColumn(tileSize: Pos, x: real, direction: int, width: real): int
  {
    if direction < 0 then TileOf(x - 1.0, tileSize) else TileOf(x + width, tileSize)
  }

  /** Position and direction after one update of a living enemy. */
  datatype Patrol = Patrol(x: real, direction: int)

  /**
    The reversal tests after the horizontal step `w`: a grounded enemy turns
    around on a wall, and otherwise, when grounded, turns around at a ledge
    (no solid cell diagonally ahead and below its feet).
   */
  function Reverse(tiles: Grid, tileSize: Pos, w: WallOutcome, y: real, direction: int,
                   width: real, height: real, onGround: bool): (d: int)
    ensures d == direction || d == -direction
    ensures !onGround ==> d == direction
  {
    var turned := w.hitWall && onGround;
    var d1 := if turned then -direction else direction;
    if onGround && !turned && !SolidAt(tiles, AheadColumn(tileSize, w.x, d1, width), FeetRow(tileSize, y, height) + 1)
    then -d1 else d1
  }

  /** The distance walked in one update: `direction * speed * dt`. */
  function Stride(direction: int, speed: real, dt: real): real
  {
    direction as real * speed * dt
  }

  /** One update of a living enemy: walk `Stride` with the wall test, then the reversal tests. */
  function PatrolStep(tiles: Grid, tileSize: Pos, x: real, y: real, direction: int, speed: real,
                      width: real, height: real, onGround: bool, dt: real): (r: Patrol)
    ensures r.direction == direction || r.direction == -direction
    ensures !onGround ==> r.direction == direction
  {
    var w := WallStep(tiles, tileSize, x, y, Stride(direction, speed, dt), width, height);
    Patrol(w.x, Reverse(tiles, tileSize, w, y, direction, width, height, onGround))
  }

  /** `PatrolStep` from the outcome of its two stages. */
  lemma PatrolStepFrom(tiles: Grid, tileSize: Pos, x: real, y: real, direction: int, speed: real,
                       width: real, height: real, onGround: bool, dt: real, w: WallOutcome, d: int)
    requires w == WallStep(tiles, tileSize, x, y, Stride(direction, speed, dt), width, height)
    requires d == Reverse(tiles, tileSize, w, y, direction, width, height, onGround)
    ensures PatrolStep(tiles, tileSize, x, y, direction, speed, width, height, onGround, dt) == Patrol(w.x, d)
  {
  }

  /** The direction stays -1 or +1 forever. */
  lemma DirectionStaysValid(tiles: Grid, tileSize: Pos, x: real, y: real, direction: int, speed: real,
                            width: real, height: real, onGround: bool, dt: real)
    requires ValidDirection(direction)
    ensures ValidDirection(PatrolStep(tiles, tileSize, x, y, direction, speed, width, height, onGround, dt).direction)
  {
  }

  /**
    The reversal rules: a grounded enemy that hits a wall turns exactly once
    (the ledge test is skipped); a grounded enemy that hits no wall turns
    exactly when the cell ahead of it below its feet is open.
   */
  lemma {:induction false} ReversalRules(tiles: Grid, tileSize: Pos, x: real, y: real, direction: int, speed: real,
                                         width: real, height: real, dt: real)
    requires ValidDirection(direction)
    ensures var w := WallStep(tiles, tileSize, x, y, Stride(direction, speed, dt), width, height);
      var r := PatrolStep(tiles, tileSize, x, y, direction, speed, width, height, true, dt);
      r.x == w.x
      && (w.hitWall ==> r.direction == -direction)
      && (!w.hitWall ==>
            (r.direction == -direction <==>
               !SolidAt(tiles, AheadColumn(tileSize, w.x, direction, width), FeetRow(tileSize, y, height) + 1)))
  {
  }
}

=== FILE: engine.dfy ===
/**
  `EngineCore`, the game controller: it owns the scene, the tile map and the
  player entity, and keeps the session's counters, flags and timers as
  fields. Every method that changes them is proved to do what the function
  of the same name in `SessionLogic` does, and to move the player's
  components as the `PlayerView` functions there say.

  The keyboard, the tile map's coin, power-up and goal queries and the level
  size are read once per frame and arrive as a `FrameInput`.
 */
module Engine {
  import opened Optional
  import opened Geometry
  import opened Tiles
  import opened Ecs
  import opened SessionLogic

  /**
    What the controller reads from outside during one frame: the keys the
    components poll, whether R is down, and the answers of the tile map's
    queries for the player's box (coins and power-ups taken, the running coin
    count, whether the goal is reached, the level's height and size).
   */
  datatype FrameInput = FrameInput(
    keys: Keys,
    resetPressed: bool,
    coinsTaken: nat,
    collectedCount: nat,
    powerupsTaken: nat,
    reachedGoal: bool,
    pixelHeight: int,
    levelWidth: real,
    levelHeight: real)

  class EngineCore {
    const cfg: Config
    const tilemap: Tilemap
    const scene: Scene
    const player: Entity?
    const playerSpawn: Pose
    /** The player's transform, physics and movement components, looked up once when the level is built. */
    const playerTransform: Transform?
    const playerPhysics: PhysicsComponent?
    const playerMovement: MovementComponent?

    var lives: int
    var score: int
    var coinBank: int
    var collectedCoins: int
    var gameOver: bool
    var paused: bool
    var invincible: bool
    var levelComplete: bool
    var invincibilityTimer: real
    var goalMessageTimer: real
    var powerupFlashTimer: real
    var poweredUp: bool
    var inStartMenu: bool
    var startTransition: bool
    var startTransitionTimer: real
    var resetHeld: bool

    /**
      A controller over an already built level: the scene with the player
      entity, the tile map and the spawn point, with the given starting
      counters and menu state, not powered up and with R not held.
     */
    constructor (cfg: Config, tilemap: Tilemap, scene: Scene, player: Entity?, playerSpawn: Pose, s: Session, m: Menu)
      ensures this.cfg == cfg && this.tilemap == tilemap && this.scene == scene
      ensures this.player == player && this.playerSpawn == playerSpawn
      ensures State() == s && MenuState() == m && !poweredUp && !resetHeld && Linked()
      ensures (player != null ==> player.Valid()) ==> Owned()
    {
      this.cfg := cfg;
      this.tilemap := tilemap;
      this.scene := scene;
      this.player := player;
      this.playerSpawn := playerSpawn;
      playerTransform := if player == null then null else TransformIn(player.components);
      playerPhysics := if player == null then null else PhysicsIn(player.components);
      playerMovement := if player == null then null else MovementIn(player.components);
      lives := s.lives;
      score := s.score;
      coinBank := s.coinBank;
      collectedCoins := s.collectedCoins;
      gameOver := s.gameOver;
      paused := s.paused;
      invincible := s.invincible;
      levelComplete := s.levelComplete;
      invincibilityTimer := s.invincibilityTimer;
      goalMessageTimer := s.goalMessageTimer;
      powerupFlashTimer := s.powerupFlashTimer;
      poweredUp := false;
      inStartMenu := m.inStartMenu;
      startTransition := m.startTransition;
      startTransitionTimer := m.startTransitionTimer;
      resetHeld := false;
    }

    /** The session counters held in the fields. */
    function State(): Session
      reads this`lives, this`score, this`coinBank, this`collectedCoins, this`gameOver, this`paused
      reads this`invincible, this`levelComplete, this`invincibilityTimer, this`goalMessageTimer
      reads this`powerupFlashTimer
    {
      Session(lives, score, coinBank, collectedCoins, gameOver, paused, invincible, levelComplete,
              invincibilityTimer, goalMessageTimer, powerupFlashTimer)
    }

    /** The start-menu fields. */
    function MenuState(): Menu
      reads this`inStartMenu, this`startTransition, this`startTransitionTimer
    {
      Menu(inStartMenu, startTransition, startTransitionTimer)
    }

    /**
      The cached references are what `getComponent` answers for the player
      entity (all null without a player). The controller never adds
      components, so every lookup of the source gives these.
     */
    ghost predicate Linked()
      reads EntitySet(player)`components
    {
      if player == null then playerTransform == null && playerPhysics == null && playerMovement == null
      else playerTransform == TransformIn(player.components) && playerPhysics == PhysicsIn(player.components)
           && playerMovement == MovementIn(player.components)
    }

    /**
      The cached references belong to the player entity, so there are none
      without a player; this follows from `Linked` for a valid player.
     */
    predicate Owned()
    {
      (playerTransform != null ==> player != null && playerTransform.entity == player)
      && (playerPhysics != null ==> player != null && playerPhysics.entity == player)
      && (playerMovement != null ==> player != null && playerMovement.entity == player)
    }

    /** The position of the player's transform. */
    function PlayerPose(): Option<Pose>
      reads TransformSet(playerTransform)`x, TransformSet(playerTransform)`y
    {
      if playerTransform == null then None else Some(Pose(playerTransform.x, playerTransform.y))
    }

    /** The vertical state of the player's physics component. */
    function PlayerFall(): Option<Fall>
      reads PhysicsSet(playerPhysics)`velocityY, PhysicsSet(playerPhysics)`onGround
    {
      if playerPhysics == null then None else Some(Fall(playerPhysics.velocityY, playerPhysics.onGround))
    }

    /** The collider height of the player's physics component. */
    function PhysicsHeight(): Option<real>
      reads PhysicsSet(playerPhysics)`colliderHeight
    {
      if playerPhysics == null then None else Some(playerPhysics.colliderHeight)
    }

    /** The collider height of the player's movement component. */
    function MovementHeight(): Option<real>
      reads MovementSet(playerMovement)`colliderHeight
    {
      if playerMovement == null then None else Some(playerMovement.colliderHeight)
    }

    /** The fields of the player's components the controller reads and writes. */
    function Player(): PlayerView
      reads TransformSet(playerTransform)`x, TransformSet(playerTransform)`y
      reads PhysicsSet(playerPhysics)`velocityY, PhysicsSet(playerPhysics)`onGround
      reads PhysicsSet(playerPhysics)`colliderHeight, MovementSet(playerMovement)`colliderHeight
    {
      PlayerView(PlayerPose(), PlayerFall(), PhysicsHeight(), MovementHeight())
    }

    /**
      `respawnPlayer`: the player's transform goes to the spawn point and its
      physics starts falling afresh; nothing else of the player changes.
     */
    method RespawnPlayer()
      requires Owned()
      modifies TransformSet(playerTransform)`x, TransformSet(playerTransform)`y
      modifies PhysicsSet(playerPhysics)`velocityY, PhysicsSet(playerPhysics)`onGround
      ensures Player() == Respawned(old(Player()), playerSpawn)
    {
      if player == null {
        return;
      }
      if playerTransform != null {
        playerTransform.x := playerSpawn.x;
        playerTransform.y := playerSpawn.y;
      }
      if playerPhysics != null {
        playerPhysics.velocityY := 0.0;
        playerPhysics.onGround := false;
      }
    }

    /**
      `loseLife`: the counters move as `LifeLoss` says, and the player is
      respawned exactly when a life was lost and some remain.
     */
    method LoseLife()
      requires Owned()
      modifies this`lives, this`gameOver, this`invincible, this`invincibilityTimer
      modifies TransformSet(playerTransform)`x, TransformSet(playerTransform)`y
      modifies PhysicsSet(playerPhysics)`velocityY, PhysicsSet(playerPhysics)`onGround
      ensures State() == LifeLoss(old(State()), cfg)
      ensures Player() == if Respawns(old(State())) then Respawned(old(Player()), playerSpawn) else old(Player())
    {
      if invincible || gameOver {
        return;
      }
      TakeHit();
      if lives > 0 {
        RespawnPlayer();
      }
    }

    /** The counters of `loseLife` for a vulnerable player: one life less, then invincibility or the end of the game. */
    method TakeHit()
      requires Vulnerable(State())
      modifies this`lives, this`gameOver, this`invincible, this`invincibilityTimer
      ensures State() == LifeLoss(old(State()), cfg)
      ensures gameOver <==> lives <= 0
    {
      lives := LivesAfterHit(lives);
      invincible := true;
      invincibilityTimer := cfg.invincibilityDuration;
      if lives <= 0 {
        gameOver := true;
        invincible := false;
        invincibilityTimer := 0.0;
      }
    }

    /**
      `setPlayerPowerState`, with the new collider height chosen by `powered`
      (see `SessionLogic.NewHeightAsWritten` for the height the source picks):
      without a player or without a change nothing happens; otherwise the
      player is resized as `SetPower` says and takes the new power state.
     */
    method SetPlayerPowerState(powered: bool)
      requires Owned()
      modifies this`poweredUp, TransformSet(playerTransform)`y
      modifies PhysicsSet(playerPhysics)`colliderHeight, MovementSet(playerMovement)`colliderHeight
      ensures Player() == SetPower(old(Player()), old(poweredUp), powered, cfg)
      ensures poweredUp == if player == null then old(poweredUp) else powered
    {
      if player == null {
        return;
      }
      if poweredUp == powered {
        return;
      }
      var oldHeight := if playerMovement != null then playerMovement.colliderHeight else cfg.smallColliderHeight;
      var newHeight := NewHeight(powered, cfg);
      var delta := newHeight - oldHeight;
      if playerTransform != null && AbsR(delta) > 0.1 {
        playerTransform.y := playerTransform.y - delta;
      }
      if playerMovement != null {
        playerMovement.colliderHeight := newHeight;
      }
      if playerPhysics != null {
        playerPhysics.colliderHeight := newHeight;
      }
      poweredUp := powered;
    }

    /**
      `resetPlayerIfFallen`: a player whose transform is more than 200 pixels
      below the level loses a life, as `LoseLife`; otherwise nothing changes.
     */
    method ResetPlayerIfFallen(pixelHeight: int)
      requires Owned()
      modifies this`lives, this`gameOver, this`invincible, this`invincibilityTimer
      modifies TransformSet(playerTransform)`x, TransformSet(playerTransform)`y
      modifies PhysicsSet(playerPhysics)`velocityY, PhysicsSet(playerPhysics)`onGround
      ensures State() == if Fallen(old(Player()), pixelHeight) then LifeLoss(old(State()), cfg) else old(State())
      ensures Player() == if Fallen(old(Player()), pixelHeight) && Respawns(old(State()))
                          then Respawned(old(Player()), playerSpawn) else old(Player())
    {
      if player == null {
        return;
      }
      if playerTransform == null {
        return;
      }
      if playerTransform.y > pixelHeight as real + FallMargin {
        LoseLife();
      }
    }

    /**
      `handleCollectibles`, given the coins the tile map takes under the
      player's box and its running count: with a box, the counters move as
      `Collect` says, the coin bank being emptied into lives one hundred at
      a time; without one nothing changes.
     */
    method HandleCollectibles(coinsTaken: nat, collectedCount: nat)
      requires Owned()
      modifies this`collectedCoins, this`score, this`coinBank, this`lives
      ensures State() == if PlayerBox(Player()).Some? then Collect(old(State()), coinsTaken, collectedCount, cfg) else old(State())
    {
      if player == null {
        return;
      }
      if playerTransform == null {
        return;
      }
      if coinsTaken > 0 {
        collectedCoins := collectedCount;
        score := score + coinsTaken * cfg.coinScoreValue;
        coinBank := coinBank + coinsTaken;
        CashInBank();
      }
    }

    /**
      The loop of `handleCollectibles`: every full hundred coins in the bank
      becomes a life, as `BankCoins` with nothing added says.
     */
    method CashInBank()
      modifies this`coinBank, this`lives
      ensures var b := BankCoins(old(coinBank), 0); coinBank == b.coins && lives == old(lives) + b.livesGained
    {
      ghost var total := coinBank;
      while coinBank >= CoinsPerLife
        invariant coinBank + CoinsPerLife * (lives - old(lives)) == total && lives >= old(lives)
        invariant lives > old(lives) ==> coinBank >= 0
        invariant total >= CoinsPerLife ==> coinBank >= 0
        decreases coinBank
      {
        coinBank := coinBank - CoinsPerLife;
        lives := lives + 1;
      }
      if total >= CoinsPerLife {
        assert total == CoinsPerLife * (lives - old(lives)) + coinBank && 0 <= coinBank < CoinsPerLife;
        assert total / CoinsPerLife == lives - old(lives) && total % CoinsPerLife == coinBank;
      }
    }

    /**
      `handlePowerups`, given the power-ups the tile map takes under the
      player's box: with a box and at least one power-up, the player powers
      up, the flash starts and the score grows as `PowerupPickup` says.
     */
    method HandlePowerups(powerupsTaken: nat)
      requires Owned()
      modifies this`poweredUp, this`powerupFlashTimer, this`score, TransformSet(playerTransform)`y
      modifies PhysicsSet(playerPhysics)`colliderHeight, MovementSet(playerMovement)`colliderHeight
      ensures State() == if PlayerBox(old(Player())).Some? then PowerupPickup(old(State()), powerupsTaken, cfg) else old(State())
      ensures var picked := PlayerBox(old(Player())).Some? && powerupsTaken > 0;
        Player() == (if picked then SetPower(old(Player()), old(poweredUp), true, cfg) else old(Player()))
        && poweredUp == (picked || old(poweredUp))
    {
      if player == null {
        return;
      }
      if playerTransform == null {
        return;
      }
      if powerupsTaken > 0 {
        SetPlayerPowerState(true);
        powerupFlashTimer := cfg.powerupFlashDuration;
        score := score + powerupsTaken * cfg.powerupScoreValue;
      }
    }

    /** `checkGoalReached`, given the tile map's answer for the player's box: the counters move as `Goal` says. */
    method CheckGoalReached(reachedGoal: bool)
      requires Owned()
      modifies this`levelComplete, this`goalMessageTimer, this`score
      ensures State() == if PlayerBox(Player()).Some? then Goal(old(State()), reachedGoal, cfg) else old(State())
    {
      if player == null || levelComplete {
        return;
      }
      if playerTransform == null {
        return;
      }
      if reachedGoal {
        levelComplete := true;
        goalMessageTimer := cfg.goalMessageDuration;
        score := score + cfg.goalScoreValue;
      }
    }

    /**
      `resetLevelState`: the counters move as `ResetLevel` says, and the
      player loses the power-up and is respawned.
     */
    method ResetLevelState()
      requires Owned()
      modifies this`levelComplete, this`goalMessageTimer, this`collectedCoins, this`coinBank
      modifies this`invincible, this`invincibilityTimer, this`powerupFlashTimer, this`poweredUp
      modifies TransformSet(playerTransform)`x, TransformSet(playerTransform)`y
      modifies PhysicsSet(playerPhysics)`velocityY, PhysicsSet(playerPhysics)`onGround
      modifies PhysicsSet(playerPhysics)`colliderHeight, MovementSet(playerMovement)`colliderHeight
      ensures State() == ResetLevel(old(State()))
      ensures Player() == Respawned(SetPower(old(Player()), old(poweredUp), false, cfg), playerSpawn)
      ensures poweredUp == (old(poweredUp) && player == null)
    {
      ClearLevelCounters();
      PowerDownAndRespawn();
    }

    /** The counter part of `resetLevelState`, as `ResetLevel`. */
    method ClearLevelCounters()
      modifies this`levelComplete, this`goalMessageTimer, this`collectedCoins, this`coinBank
      modifies this`invincible, this`invincibilityTimer, this`powerupFlashTimer
      ensures State() == ResetLevel(old(State()))
    {
      levelComplete := false;
      goalMessageTimer := 0.0;
      collectedCoins := 0;
      coinBank := 0;
      invincible := false;
      invincibilityTimer := 0.0;
      powerupFlashTimer := 0.0;
    }

    /** The player part of `resetLevelState`: the power-up is lost, then the player is respawned. */
    method PowerDownAndRespawn()
      requires Owned()
      modifies this`poweredUp, TransformSet(playerTransform)`x, TransformSet(playerTransform)`y
      modifies PhysicsSet(playerPhysics)`velocityY, PhysicsSet(playerPhysics)`onGround
      modifies PhysicsSet(playerPhysics)`colliderHeight, MovementSet(playerMovement)`colliderHeight
      ensures Player() == Respawned(SetPower(old(Player()), old(poweredUp), false, cfg), playerSpawn)
      ensures poweredUp == (old(poweredUp) && player == null)
    {
      SetPlayerPowerState(false);
      RespawnPlayer();
    }

    /** `resetGameState`: the counters move as `ResetGame` says; the player as in `ResetLevelState`. */
    method ResetGameState()
      requires Owned()
      modifies this`score, this`lives, this`gameOver, this`paused
      modifies this`levelComplete, this`goalMessageTimer, this`collectedCoins, this`coinBank
      modifies this`invincible, this`invincibilityTimer, this`powerupFlashTimer, this`poweredUp
      modifies TransformSet(playerTransform)`x, TransformSet(playerTransform)`y
      modifies PhysicsSet(playerPhysics)`velocityY, PhysicsSet(playerPhysics)`onGround
      modifies PhysicsSet(playerPhysics)`colliderHeight, MovementSet(playerMovement)`colliderHeight
      ensures State() == ResetGame(old(State()))
      ensures Player() == Respawned(SetPower(old(Player()), old(poweredUp), false, cfg), playerSpawn)
      ensures poweredUp == (old(poweredUp) && player == null)
    {
      score := 0;
      lives := StartingLives;
      gameOver := false;
      paused := false;
      invincible := false;
      invincibilityTimer := 0.0;
      powerupFlashTimer := 0.0;
      ResetLevelState();
    }

    /** The timer part of `updateInvincibility`, as `InvincibilityTick`. */
    method UpdateInvincibility(dt: real)
      modifies this`invincible, this`invincibilityTimer
      ensures State() == InvincibilityTick(old(State()), dt)
    {
      if !invincible {
        return;
      }
      invincibilityTimer := MaxR(0.0, invincibilityTimer - dt);
      if invincibilityTimer <= 0.0 {
        invincible := false;
      }
    }

    /** The timer part of `updatePowerupFlash`, as `FlashTick`. */
    method UpdatePowerupFlash(dt: real)
      modifies this`powerupFlashTimer
      ensures State() == FlashTick(old(State()), dt, player != null)
    {
      if powerupFlashTimer <= 0.0 || player == null {
        return;
      }
      powerupFlashTimer := MaxR(0.0, powerupFlashTimer - dt);
    }

    /**
      The tests `handleEnemyCollisions` makes for entity `e` against the
      player's box `bounds`: its first enemy component must be alive and it
      must have a transform; the enemy's box must intersect the player's; a
      falling player with its feet at most 5 pixels below the enemy's top
      stomps it; otherwise the touch hurts or shrinks the player.
     */
    method Classify(e: Entity, bounds: Rect) returns (c: Contact)
      requires playerPhysics != null
      ensures c == ContactOf(LiveEnemyBounds(e), bounds, playerPhysics.velocityY, poweredUp)
    {
      var enemy := e.GetComponent(EnemyK);
      if enemy.None? || !enemy.value.enemy.alive {
        return Miss;
      }
      var t := e.GetComponent(TransformK);
      if t.None? {
        return Miss;
      }
      var enemyBounds := Rect(t.value.transform.x, t.value.transform.y, enemy.value.enemy.colliderWidth, enemy.value.enemy.colliderHeight);
      if !Intersects(bounds, enemyBounds) {
        return Miss;
      }
      var stomp := bounds.top + bounds.height <= enemyBounds.top + StompMargin && playerPhysics.velocityY > 0.0;
      if stomp {
        c := Stomp;
      } else if poweredUp {
        c := Shrink;
      } else {
        c := Hurt;
      }
    }

    /**
      A stomp: the enemy entity `e` is defeated and the player bounces up
      and leaves the ground; nothing else of the player changes.
     */
    method StompEnemy(e: Entity)
      requires Owned() && e.Valid() && playerPhysics != null
      requires EnemyIn(e.components) != null
      modifies PhysicsSet(playerPhysics)`velocityY, PhysicsSet(playerPhysics)`onGround
      modifies EnemySet(EnemyIn(e.components))`alive, EnemySet(EnemyIn(e.components))`deathTimer
      modifies PhysicsSet(PhysicsIn(e.components))`velocityY, PhysicsSet(PhysicsIn(e.components))`onGround
      modifies AnimationSet(AnimationIn(e.components))`paused
      ensures playerPhysics.velocityY == StompBounce && !playerPhysics.onGround
      ensures !EnemyIn(e.components).alive && (e != player ==> Defeated(e))
    {
      DefeatEnemy(e);
      playerPhysics.velocityY := StompBounce;
      playerPhysics.onGround := false;
    }

    /** A touch that is not a stomp while powered up: the power-up is lost and invincibility starts. */
    method LosePowerUp()
      requires Owned() && player != null && poweredUp
      modifies this`invincible, this`invincibilityTimer, this`poweredUp, TransformSet(playerTransform)`y
      modifies PhysicsSet(playerPhysics)`colliderHeight, MovementSet(playerMovement)`colliderHeight
      ensures State() == Touched(old(State()), Shrink, cfg) && !poweredUp
      ensures Player() == SetPower(old(Player()), true, false, cfg)
    {
      SetPlayerPowerState(false);
      invincible := true;
      invincibilityTimer := cfg.invincibilityDuration;
    }

    /**
      The response of `handleEnemyCollisions` to a contact `c` with entity
      `e`: a stomp defeats the enemy and bounces the player; a shrink takes
      the power-up and grants invincibility; a hurt is `LoseLife`; a miss
      changes nothing. The session moves as `Touched` says.
     */
    method ApplyContact(e: Entity, c: Contact)
      requires Owned() && e.Valid() && playerPhysics != null
      requires c == Stomp ==> EnemyIn(e.components) != null
      requires c == Shrink ==> poweredUp
      requires c == Hurt ==> !poweredUp
      modifies this`lives, this`gameOver, this`invincible, this`invincibilityTimer, this`poweredUp
      modifies TransformSet(playerTransform)`x, TransformSet(playerTransform)`y
      modifies PhysicsSet(playerPhysics)`velocityY, PhysicsSet(playerPhysics)`onGround
      modifies PhysicsSet(playerPhysics)`colliderHeight, MovementSet(playerMovement)`colliderHeight
      modifies EnemySet(EnemyIn(e.components))`alive, EnemySet(EnemyIn(e.components))`deathTimer
      modifies PhysicsSet(PhysicsIn(e.components))`velocityY, PhysicsSet(PhysicsIn(e.components))`onGround
      modifies AnimationSet(AnimationIn(e.components))`paused
      ensures State() == Touched(old(State()), c, cfg) && poweredUp == (old(poweredUp) && c != Shrink)
      ensures c == Miss ==> Player() == old(Player())
      ensures c == Stomp ==>
        playerPhysics.velocityY == StompBounce && !playerPhysics.onGround
        && !EnemyIn(e.components).alive && (e != player ==> Defeated(e))
      ensures c == Shrink ==> Player() == SetPower(old(Player()), true, false, cfg)
      ensures c == Hurt ==> Player() == if Respawns(old(State())) then Respawned(old(Player()), playerSpawn) else old(Player())
    {
      if c == Stomp {
        StompEnemy(e);
      } else if c == Shrink {
        LosePowerUp();
      } else if c == Hurt {
        LoseLife();
      }
    }

    /**
      `handleEnemyCollisions`: with a player that has a transform and a
      physics component, every entity of the scene is checked in order against
      the player's box as it was when the pass began (`Classify`, then `ApplyContact`). The
      whole pass costs at most one life, and only a vulnerable player loses
      it; a player who was powered up or invulnerable keeps every life; the
      game ends only when the lives run out; the invariant is kept.
     */
    method HandleEnemyCollisions()
      requires Owned() && scene.Valid() && Inv(State()) && ValidConfig(cfg)
      modifies this`lives, this`gameOver, this`invincible, this`invincibilityTimer, this`poweredUp
      modifies TransformSet(playerTransform)`x, TransformSet(playerTransform)`y
      modifies PhysicsSet(playerPhysics)`velocityY, PhysicsSet(playerPhysics)`onGround
      modifies PhysicsSet(playerPhysics)`colliderHeight, MovementSet(playerMovement)`colliderHeight
      modifies EnemiesOf(scene.Members())`alive, EnemiesOf(scene.Members())`deathTimer
      modifies PhysicsOf(scene.Members())`velocityY, PhysicsOf(scene.Members())`onGround
      modifies AnimationsOf(scene.Members())`paused
      ensures Inv(State()) && old(lives) - 1 <= lives <= old(lives)
      ensures lives < old(lives) ==> !Vulnerable(State())
      ensures !Vulnerable(old(State())) ==> lives == old(lives) && !Vulnerable(State())
      ensures old(poweredUp) ==> lives == old(lives)
      ensures gameOver ==> old(gameOver) || lives == 0
    {
      if player == null {
        return;
      }
      if playerTransform == null || playerPhysics == null {
        return;
      }
      var height := if playerMovement != null then playerMovement.colliderHeight else DefaultPlayerHeight;
      var bounds := Rect(playerTransform.x, playerTransform.y, PlayerWidth, height);
      TouchAll(bounds);
    }

    /** The loop of `handleEnemyCollisions`: every entity of the scene in order against `bounds`. */
    method TouchAll(bounds: Rect)
      requires Owned() && scene.Valid() && Inv(State()) && ValidConfig(cfg) && playerPhysics != null
      modifies this`lives, this`gameOver, this`invincible, this`invincibilityTimer, this`poweredUp
      modifies TransformSet(playerTransform)`x, TransformSet(playerTransform)`y
      modifies PhysicsSet(playerPhysics)`velocityY, PhysicsSet(playerPhysics)`onGround
      modifies PhysicsSet(playerPhysics)`colliderHeight, MovementSet(playerMovement)`colliderHeight
      modifies EnemiesOf(scene.Members())`alive, EnemiesOf(scene.Members())`deathTimer
      modifies PhysicsOf(scene.Members())`velocityY, PhysicsOf(scene.Members())`onGround
      modifies AnimationsOf(scene.Members())`paused
      ensures PassSoFar(old(State()), old(poweredUp), State(), poweredUp)
    {
      PassStarts(State(), poweredUp);
      var i := 0;
      while i < |scene.entities|
        invariant 0 <= i <= |scene.entities| && scene.Valid() && scene.Members() == old(scene.Members())
        invariant PassSoFar(old(State()), old(poweredUp), State(), poweredUp)
      {
        TouchNext(i, bounds, old(State()), old(poweredUp), old(scene.Members()));
        i := i + 1;
      }
    }

    /** One iteration of `TouchAll`: the entity at position `k` keeps the pass invariant from `(s0, p0)`. */
    method TouchNext(k: nat, bounds: Rect, ghost s0: Session, ghost p0: bool, ghost members: set<Entity>)
      requires Owned() && scene.Valid() && k < |scene.entities| && playerPhysics != null && ValidConfig(cfg)
      requires PassSoFar(s0, p0, State(), poweredUp) && members == scene.Members()
      modifies this`lives, this`gameOver, this`invincible, this`invincibilityTimer, this`poweredUp
      modifies TransformSet(playerTransform)`x, TransformSet(playerTransform)`y
      modifies PhysicsSet(playerPhysics)`velocityY, PhysicsSet(playerPhysics)`onGround
      modifies PhysicsSet(playerPhysics)`colliderHeight, MovementSet(playerMovement)`colliderHeight
      modifies EnemiesOf(members)`alive, EnemiesOf(members)`deathTimer
      modifies PhysicsOf(members)`velocityY, PhysicsOf(members)`onGround
      modifies AnimationsOf(members)`paused
      ensures PassSoFar(s0, p0, State(), poweredUp) && scene.Valid() && scene.Members() == members
    {
      ghost var before := State();
      ghost var wasPowered := poweredUp;
      var c := TouchMember(k, bounds);
      PassStep(s0, p0, before, wasPowered, c, cfg);
    }

    /**
      The step of `handleEnemyCollisions` for the scene's entity at position
      `k`: the contact is `ContactOf` that entity's live-enemy bounds, and
      the session moves as `Touched` says.
     */
    method TouchMember(k: nat, bounds: Rect) returns (c: Contact)
      requires Owned() && scene.Valid() && k < |scene.entities| && playerPhysics != null
      modifies this`lives, this`gameOver, this`invincible, this`invincibilityTimer, this`poweredUp
      modifies TransformSet(playerTransform)`x, TransformSet(playerTransform)`y
      modifies PhysicsSet(playerPhysics)`velocityY, PhysicsSet(playerPhysics)`onGround
      modifies PhysicsSet(playerPhysics)`colliderHeight, MovementSet(playerMovement)`colliderHeight
      modifies EnemiesOf(scene.Members())`alive, EnemiesOf(scene.Members())`deathTimer
      modifies PhysicsOf(scene.Members())`velocityY, PhysicsOf(scene.Members())`onGround
      modifies AnimationsOf(scene.Members())`paused
      ensures State() == Touched(old(State()), c, cfg) && poweredUp == (old(poweredUp) && c != Shrink)
      ensures (c == Shrink ==> old(poweredUp)) && (c == Hurt ==> !old(poweredUp))
      ensures c == old(ContactOf(LiveEnemyBounds(scene.entities[k]), bounds, playerPhysics.velocityY, poweredUp))
    {
      var e := scene.entities[k];
      scene.MemberFrames(e);
      c := Classify(e, bounds);
      ApplyContact(e, c);
    }

    /**
      The key handling of `processEvents`: Enter in the start menu, while no
      transition runs, starts the transition and a fresh game; the pause key
      outside the menu toggles the pause. Other keys change nothing.
     */
    method ProcessKey(k: Key)
      requires Owned()
      modifies this`startTransition, this`startTransitionTimer
      modifies this`score, this`lives, this`gameOver, this`paused
      modifies this`levelComplete, this`goalMessageTimer, this`collectedCoins, this`coinBank
      modifies this`invincible, this`invincibilityTimer, this`powerupFlashTimer, this`poweredUp
      modifies TransformSet(playerTransform)`x, TransformSet(playerTransform)`y
      modifies PhysicsSet(playerPhysics)`velocityY, PhysicsSet(playerPhysics)`onGround
      modifies PhysicsSet(playerPhysics)`colliderHeight, MovementSet(playerMovement)`colliderHeight
      ensures var starts := StartsGame(old(MenuState()), k);
        MenuState() == (if starts then Menu(true, true, cfg.startTransitionDuration) else old(MenuState()))
        && State() == (if starts then ResetGame(old(State())) else TogglePause(old(State()), old(MenuState()), k))
        && Player() == (if starts then Respawned(SetPower(old(Player()), old(poweredUp), false, cfg), playerSpawn) else old(Player()))
    {
      if inStartMenu && !startTransition && k == Enter {
        startTransition := true;
        startTransitionTimer := cfg.startTransitionDuration;
        ResetGameState();
      }
      if !inStartMenu && k == PauseKey {
        paused := !paused;
      }
    }

    /**
      The reset key in `update`: on the frame R goes down the game restarts
      after a game over and the level restarts otherwise, as `ApplyReset`
      says; R is then remembered as held.
     */
    method HandleResetKey(pressed: bool)
      requires Owned()
      modifies this`resetHeld, this`score, this`lives, this`gameOver, this`paused
      modifies this`levelComplete, this`goalMessageTimer, this`collectedCoins, this`coinBank
      modifies this`invincible, this`invincibilityTimer, this`powerupFlashTimer, this`poweredUp
      modifies TransformSet(playerTransform)`x, TransformSet(playerTransform)`y
      modifies PhysicsSet(playerPhysics)`velocityY, PhysicsSet(playerPhysics)`onGround
      modifies PhysicsSet(playerPhysics)`colliderHeight, MovementSet(playerMovement)`colliderHeight
      ensures var k := ResetRequest(pressed, old(resetHeld), old(gameOver));
        State() == ApplyReset(old(State()), k)
        && Player() == (if k == NoReset then old(Player()) else Respawned(SetPower(old(Player()), old(poweredUp), false, cfg), playerSpawn))
      ensures resetHeld == pressed
    {
      if pressed && !resetHeld {
        if gameOver {
          ResetGameState();
        } else {
          ResetLevelState();
        }
      }
      resetHeld := pressed;
    }

    /**
      The pick-ups of one frame of play, given the tile map's answers:
      `handleCollectibles`, `handlePowerups` and `checkGoalReached` in that
      order. They keep the invariant, never lower the score or the lives,
      and leave invincibility and the game-over flag alone.
     */
    method PickUp(input: FrameInput)
      requires Owned() && Inv(State()) && ValidConfig(cfg)
      modifies this`collectedCoins, this`score, this`coinBank, this`lives
      modifies this`poweredUp, this`powerupFlashTimer, this`levelComplete, this`goalMessageTimer
      modifies TransformSet(playerTransform)`y
      modifies PhysicsSet(playerPhysics)`colliderHeight, MovementSet(playerMovement)`colliderHeight
      ensures Inv(State()) && score >= old(score) && lives >= old(lives)
    {
      ghost var s0 := State();
      HandleCollectibles(input.coinsTaken, input.collectedCount);
      CollectKeepsInv(s0, input.coinsTaken, input.collectedCount, cfg);
      ghost var s1 := State();
      assert Inv(s1) && s1.score >= s0.score && s1.lives >= s0.lives;
      HandlePowerups(input.powerupsTaken);
      StepsKeepInv(s1, cfg, 0.0, input.powerupsTaken, 0, false, false, NoReset);
      ghost var s2 := State();
      assert Inv(s2) && s2.score >= s1.score && s2.lives == s1.lives;
      CheckGoalReached(input.reachedGoal);
      GoalFiresOnce(s2, input.reachedGoal, false, cfg);
      StepsKeepInv(s2, cfg, 0.0, 0, 0, input.reachedGoal, false, NoReset);
    }

    /**
      The end of `update` with the level complete: the message timer runs
      down and the level is reset once it reaches zero, as `GoalCountdown`
      says.
     */
    method CountDownGoal(dt: real)
      requires Owned()
      modifies this`levelComplete, this`goalMessageTimer, this`collectedCoins, this`coinBank
      modifies this`invincible, this`invincibilityTimer, this`powerupFlashTimer, this`poweredUp
      modifies TransformSet(playerTransform)`x, TransformSet(playerTransform)`y
      modifies PhysicsSet(playerPhysics)`velocityY, PhysicsSet(playerPhysics)`onGround
      modifies PhysicsSet(playerPhysics)`colliderHeight, MovementSet(playerMovement)`colliderHeight
      ensures State() == GoalCountdown(old(State()), dt)
    {
      if levelComplete {
        goalMessageTimer := goalMessageTimer - dt;
        if goalMessageTimer <= 0.0 {
          ResetLevelState();
        }
      }
    }

    /** The start-menu branch of `update`, as `MenuTick`. */
    method UpdateMenu(dt: real)
      modifies this`inStartMenu, this`startTransition, this`startTransitionTimer
      ensures MenuState() == MenuTick(old(MenuState()), dt)
    {
      if startTransition {
        startTransitionTimer := MaxR(0.0, startTransitionTimer - dt);
        if startTransitionTimer <= 0.0 {
          inStartMenu := false;
          startTransition := false;
        }
      }
    }

    /**
      `update`, with the keyboard and the tile map's answers for this frame
      in `input`. In the start menu only the transition runs. Otherwise the
      reset key acts on the frame it goes down; a paused or finished game
      then stops there, and any other frame is played (`Play`), which keeps
      the invariant, never lowers the score and costs at most one life.
     */
    method Update(dt: real, input: FrameInput)
      requires Owned() && scene.Valid() && Inv(State()) && ValidConfig(cfg) && dt >= 0.0
      modifies this`inStartMenu, this`startTransition, this`startTransitionTimer, this`resetHeld, this`paused
      modifies this`lives, this`score, this`coinBank, this`collectedCoins, this`gameOver
      modifies this`invincible, this`levelComplete, this`invincibilityTimer, this`goalMessageTimer
      modifies this`powerupFlashTimer, this`poweredUp
      modifies TransformSet(playerTransform)`x, TransformSet(playerTransform)`y
      modifies PhysicsSet(playerPhysics)`velocityY, PhysicsSet(playerPhysics)`onGround
      modifies PhysicsSet(playerPhysics)`colliderHeight, MovementSet(playerMovement)`colliderHeight
      modifies scene.Members()`active, BodiesOf(scene.Members())`x, BodiesOf(scene.Members())`y
      modifies MovementsOf(scene.Members())`velocityX, PhysicsOf(scene.Members())`velocityY, PhysicsOf(scene.Members())`onGround
      modifies EnemiesOf(scene.Members())`direction, EnemiesOf(scene.Members())`deathTimer
      modifies ProjectilesOf(scene.Members())`lifetime, ProjectilesOf(scene.Members())`velocityY
      modifies AnimationsOf(scene.Members())`state, AnimationsOf(scene.Members())`currentTime
      modifies AnimationsOf(scene.Members())`currentFrame, AnimationsOf(scene.Members())`textureRect
      modifies EnemiesOf(scene.Reach())`alive, EnemiesOf(scene.Reach())`deathTimer
      modifies PhysicsOf(scene.Reach())`velocityY, PhysicsOf(scene.Reach())`onGround, AnimationsOf(scene.Reach())`paused
      modifies EnemiesOf(scene.Members())`alive, AnimationsOf(scene.Members())`paused
      ensures scene.Valid() && Inv(State())
      ensures old(inStartMenu) ==> MenuState() == MenuTick(old(MenuState()), dt) && State() == old(State())
                                   && Player() == old(Player()) && resetHeld == old(resetHeld)
      ensures !old(inStartMenu) ==> MenuState() == old(MenuState()) && resetHeld == input.resetPressed
      ensures var s := ApplyReset(old(State()), ResetRequest(input.resetPressed, old(resetHeld), old(gameOver)));
        !old(inStartMenu) ==>
          if s.paused || s.gameOver then State() == s else score >= s.score && lives >= s.lives - 1
    {
      if inStartMenu {
        UpdateMenu(dt);
        return;
      }
      UpdateGame(dt, input);
    }

    /**
      `update` outside the start menu: the reset key, then the pause and
      game-over tests, then a frame of play.
     */
    method UpdateGame(dt: real, input: FrameInput)
      requires Owned() && scene.Valid() && Inv(State()) && ValidConfig(cfg) && dt >= 0.0
      modifies this`resetHeld, this`paused
      modifies this`lives, this`score, this`coinBank, this`collectedCoins, this`gameOver
      modifies this`invincible, this`levelComplete, this`invincibilityTimer, this`goalMessageTimer
      modifies this`powerupFlashTimer, this`poweredUp
      modifies TransformSet(playerTransform)`x, TransformSet(playerTransform)`y
      modifies PhysicsSet(playerPhysics)`velocityY, PhysicsSet(playerPhysics)`onGround
      modifies PhysicsSet(playerPhysics)`colliderHeight, MovementSet(playerMovement)`colliderHeight
      modifies scene.Members()`active, BodiesOf(scene.Members())`x, BodiesOf(scene.Members())`y
      modifies MovementsOf(scene.Members())`velocityX, PhysicsOf(scene.Members())`velocityY, PhysicsOf(scene.Members())`onGround
      modifies EnemiesOf(scene.Members())`direction, EnemiesOf(scene.Members())`deathTimer
      modifies ProjectilesOf(scene.Members())`lifetime, ProjectilesOf(scene.Members())`velocityY
      modifies AnimationsOf(scene.Members())`state, AnimationsOf(scene.Members())`currentTime
      modifies AnimationsOf(scene.Members())`currentFrame, AnimationsOf(scene.Members())`textureRect
      modifies EnemiesOf(scene.Reach())`alive, EnemiesOf(scene.Reach())`deathTimer
      modifies PhysicsOf(scene.Reach())`velocityY, PhysicsOf(scene.Reach())`onGround, AnimationsOf(scene.Reach())`paused
      modifies EnemiesOf(scene.Members())`alive, AnimationsOf(scene.Members())`paused
      ensures scene.Valid() && Inv(State()) && resetHeld == input.resetPressed
      ensures var s := ApplyReset(old(State()), ResetRequest(input.resetPressed, old(resetHeld), old(gameOver)));
        if s.paused || s.gameOver then State() == s else score >= s.score && lives >= s.lives - 1
    {
      HandleResetKey(input.resetPressed);
      ResetLevelFacts(old(State()));
      ResetGameForgets(old(State()), old(State()));
      if paused || gameOver {
        return;
      }
      SceneFramesKept(scene);
      Play(dt, input);
    }

    /**
      One frame of play, the part of `update` after the pause and game-over
      tests: the steps before the scene update, the scene update, and the
      steps after it, in the source's order. The frame keeps the invariant,
      never lowers the score and costs at most one life, however many
      enemies the player touches.
     */
    method Play(dt: real, input: FrameInput)
      requires Owned() && scene.Valid() && Inv(State()) && ValidConfig(cfg) && dt >= 0.0
      modifies this`lives, this`score, this`coinBank, this`collectedCoins, this`gameOver
      modifies this`invincible, this`levelComplete, this`invincibilityTimer, this`goalMessageTimer
      modifies this`powerupFlashTimer, this`poweredUp
      modifies TransformSet(playerTransform)`x, TransformSet(playerTransform)`y
      modifies PhysicsSet(playerPhysics)`velocityY, PhysicsSet(playerPhysics)`onGround
      modifies PhysicsSet(playerPhysics)`colliderHeight, MovementSet(playerMovement)`colliderHeight
      modifies scene.Members()`active, BodiesOf(scene.Members())`x, BodiesOf(scene.Members())`y
      modifies MovementsOf(scene.Members())`velocityX, PhysicsOf(scene.Members())`velocityY, PhysicsOf(scene.Members())`onGround
      modifies EnemiesOf(scene.Members())`direction, EnemiesOf(scene.Members())`deathTimer
      modifies ProjectilesOf(scene.Members())`lifetime, ProjectilesOf(scene.Members())`velocityY
      modifies AnimationsOf(scene.Members())`state, AnimationsOf(scene.Members())`currentTime
      modifies AnimationsOf(scene.Members())`currentFrame, AnimationsOf(scene.Members())`textureRect
      modifies EnemiesOf(scene.Reach())`alive, EnemiesOf(scene.Reach())`deathTimer
      modifies PhysicsOf(scene.Reach())`velocityY, PhysicsOf(scene.Reach())`onGround, AnimationsOf(scene.Reach())`paused
      modifies EnemiesOf(scene.Members())`alive, AnimationsOf(scene.Members())`paused
      ensures scene.Valid() && Inv(State())
      ensures score >= old(score) && lives >= old(lives) - 1
    {
      BeforeScene(dt, input);
      SceneFramesKept(scene);
      scene.Update(dt, input.keys, input.levelWidth, input.levelHeight);
      SceneFramesKept(scene);
      AfterScene(dt);
    }

    /**
      The steps of a frame of play before the scene update: the tile map,
      the invincibility and flash timers, the fall check and the pick-ups.
      They keep the invariant and never lower the score; they cost at most
      one life, and only by leaving the player invulnerable.
     */
    method BeforeScene(dt: real, input: FrameInput)
      requires Owned() && Inv(State()) && ValidConfig(cfg) && dt >= 0.0
      modifies this`lives, this`score, this`coinBank, this`collectedCoins, this`gameOver
      modifies this`invincible, this`levelComplete, this`invincibilityTimer, this`goalMessageTimer
      modifies this`powerupFlashTimer, this`poweredUp
      modifies TransformSet(playerTransform)`x, TransformSet(playerTransform)`y
      modifies PhysicsSet(playerPhysics)`velocityY, PhysicsSet(playerPhysics)`onGround
      modifies PhysicsSet(playerPhysics)`colliderHeight, MovementSet(playerMovement)`colliderHeight
      ensures Inv(State()) && score >= old(score) && lives >= old(lives) - 1
      ensures lives < old(lives) ==> !Vulnerable(State())
    {
      tilemap.Update(dt);
      TickTimers(dt);
      ghost var s2 := State();
      ResetPlayerIfFallen(input.pixelHeight);
      ContactCostsAtMostOneLife(s2, Hurt, cfg);
      PickUp(input);
    }

    /**
      `updateInvincibility` and `updatePowerupFlash` in turn: the timers run
      down as `InvincibilityTick` and `FlashTick` say, keeping the invariant.
     */
    method TickTimers(dt: real)
      requires Inv(State()) && dt >= 0.0
      modifies this`invincible, this`invincibilityTimer, this`powerupFlashTimer
      ensures State() == FlashTick(InvincibilityTick(old(State()), dt), dt, player != null) && Inv(State())
    {
      UpdateInvincibility(dt);
      UpdatePowerupFlash(dt);
    }

    /**
      The steps of a frame of play after the scene update: the enemy
      contacts and the goal countdown. They keep the invariant and never
      lower the score; they cost at most one life, and none from a player
      who is invulnerable.
     */
    method AfterScene(dt: real)
      requires Owned() && scene.Valid() && Inv(State()) && ValidConfig(cfg) && dt >= 0.0
      modifies this`lives, this`gameOver, this`invincible, this`invincibilityTimer, this`poweredUp
      modifies this`levelComplete, this`goalMessageTimer, this`collectedCoins, this`coinBank
      modifies this`powerupFlashTimer
      modifies TransformSet(playerTransform)`x, TransformSet(playerTransform)`y
      modifies PhysicsSet(playerPhysics)`velocityY, PhysicsSet(playerPhysics)`onGround
      modifies PhysicsSet(playerPhysics)`colliderHeight, MovementSet(playerMovement)`colliderHeight
      modifies EnemiesOf(scene.Members())`alive, EnemiesOf(scene.Members())`deathTimer
      modifies PhysicsOf(scene.Members())`velocityY, PhysicsOf(scene.Members())`onGround
      modifies AnimationsOf(scene.Members())`paused
      ensures Inv(State()) && score >= old(score) && lives >= old(lives) - 1
      ensures !Vulnerable(old(State())) ==> lives == old(lives)
    {
      HandleEnemyCollisions();
      ghost var s3 := State();
      CountDownGoal(dt);
      StepsKeepInv(s3, cfg, dt, 0, 0, false, player != null, NoReset);
      ScoreNeverDrops(s3, cfg, dt, 0, 0, false, player != null);
    }
  }

  /**
    While no entity list and no component list changes, a scene stays valid
    and every set of components its update may change stays the same.
   */
  twostate lemma SceneFramesKept(sc: Scene)
    requires unchanged(sc`entities) && unchanged(old(sc.Members())`components)
    requires unchanged(old(TargetScenesOf(sc.Members()))`entities) && unchanged(old(sc.Reach())`components)
    ensures old(sc.Valid()) ==> sc.Valid()
    ensures sc.Members() == old(sc.Members()) && sc.Reach() == old(sc.Reach())
    ensures BodiesOf(sc.Members()) == old(BodiesOf(sc.Members()))
    ensures MovementsOf(sc.Members()) == old(MovementsOf(sc.Members()))
    ensures PhysicsOf(sc.Members()) == old(PhysicsOf(sc.Members()))
    ensures EnemiesOf(sc.Members()) == old(EnemiesOf(sc.Members()))
    ensures ProjectilesOf(sc.Members()) == old(ProjectilesOf(sc.Members()))
    ensures AnimationsOf(sc.Members()) == old(AnimationsOf(sc.Members()))
    ensures EnemiesOf(sc.Reach()) == old(EnemiesOf(sc.Reach()))
    ensures PhysicsOf(sc.Reach()) == old(PhysicsOf(sc.Reach()))
    ensures AnimationsOf(sc.Reach()) == old(AnimationsOf(sc.Reach()))
  {
  }
}

=== FILE: geometry.dfy ===
/**
  Numeric helpers shared by every component: the C++ conversions and the
  axis-aligned rectangle test the game relies on.

  Positions, velocities and timers are `real` (the source uses `float`; IEEE
  rounding is not modelled). Tile coordinates are `int`.
 */
module Geometry {

  /** Tile sizes and other strictly positive integer quantities. */
  type Pos = n: int | n > 0 witness 1

  /** `static_cast<int>(x)` on a floating value: truncation toward zero. */
  function Trunc(x: real): (r: int)
    ensures 0.0 <= x ==> r as real <= x < r as real + 1.0
    ensures x < 0.0 ==> r as real - 1.0 < x <= r as real
  {
    if x >= 0.0 then x.Floor else -((-x).Floor)
  }

  /** C++ `a / b` on `int` with a positive divisor: the quotient truncated toward zero. */
  function TruncDiv(a: int, b: Pos): (q: int)
    ensures 0 <= a ==> 0 <= q && q * b <= a < q * b + b
    ensures a < 0 ==> q <= 0 && q * b - b < a <= q * b
  {
    if a >= 0 then a / b else -((-a) / b)
  }

  /** The tile index C++ computes as `static_cast<int>(p) / tileSize` for a pixel coordinate `p`. */
  function TileOf(p: real, tileSize: Pos): (t: int)
    ensures p < ((t + 1) * tileSize) as real
    ensures ((t - 1) * tileSize) as real < p
    ensures 0.0 <= p ==> 0 <= t && (t * tileSize) as real <= p
  {
    var c := Trunc(p);
    var q := TruncDiv(c, tileSize);
    if c >= 0 then TileBounds(c, q, tileSize); q
    else TileBoundsNeg(c, q, tileSize); q
  }

  lemma TileBounds(c: int, q: int, b: Pos)
    requires 0 <= q && q * b <= c < q * b + b
    ensures c < (q + 1) * b && (q - 1) * b < c
  {
  }

  lemma TileBoundsNeg(c: int, q: int, b: Pos)
    requires q <= 0 && q * b - b < c <= q * b
    ensures c <= q * b && (q - 1) * b < c
  {
  }

  /**
    `static_cast<int>(p / tileSize)` (dividing the float first, as the
    vertical collision does) and `static_cast<int>(p) / tileSize` (truncating
    first, as the horizontal collision does) always pick the same tile.
   */
  lemma {:induction false} QuotientOfTruncation(p: real, tileSize: Pos)
    ensures Trunc(p / tileSize as real) == TileOf(p, tileSize)
  {
    if 0.0 <= p {
      NonNegativeQuotient(p, tileSize);
    } else {
      NonNegativeQuotient(-p, tileSize);
      assert (-p) / tileSize as real == -(p / tileSize as real);
    }
  }

  /**
    The tile index C++ computes as `static_cast<int>(p / tileSize)`, dividing
    the float before truncating: the same tile as `TileOf`.
   */
  function FloatTile(p: real, tileSize: Pos): (t: int)
    ensures t == TileOf(p, tileSize)
  {
    QuotientOfTruncation(p, tileSize);
    Trunc(p / tileSize as real)
  }

  lemma {:induction false} NonNegativeQuotient(p: real, tileSize: Pos)
    requires 0.0 <= p
    ensures Trunc(p / tileSize as real) == TruncDiv(Trunc(p), tileSize)
  {
    var k := Trunc(p / tileSize as real);
    var c := Trunc(p);
    MulOfLeQuotient(k as real, p, tileSize as real);
    MulOfQuotientLt(k as real + 1.0, p, tileSize as real);
    assert k * tileSize <= c < k * tileSize + tileSize;
    QuotientUnique(c, TruncDiv(c, tileSize), k, tileSize);
  }

  lemma MulOfLeQuotient(a: real, p: real, c: real)
    requires c > 0.0 && a <= p / c
    ensures a * c <= p
  {
  }

  lemma MulOfQuotientLt(b: real, p: real, c: real)
    requires c > 0.0 && p / c < b
    ensures p < b * c
  {
  }

  lemma IntMulMonotone(x: int, y: int, b: Pos)
    requires x <= y
    ensures x * b <= y * b
  {
  }

  /** Integer division by a positive divisor has exactly one quotient. */
  lemma QuotientUnique(a: int, q: int, k: int, b: Pos)
    requires q * b <= a < q * b + b && k * b <= a < k * b + b
    ensures q == k
  {
    if q < k {
      IntMulMonotone(q + 1, k, b);
    } else if k < q {
      IntMulMonotone(k + 1, q, b);
    }
  }

  function AbsR(x: real): (r: real)
    ensures r >= 0.0 && (r == x || r == -x)
  {
    if x < 0.0 then -x else x
  }

  function MaxR(a: real, b: real): (r: real)
    ensures r >= a && r >= b && (r == a || r == b)
  {
    if a < b then b else a
  }

  function MinR(a: real, b: real): (r: real)
    ensures r <= a && r <= b && (r == a || r == b)
  {
    if b < a then b else a
  }

  /** `std::clamp(v, lo, hi)`; the standard requires `lo <= hi`. */
  function ClampR(v: real, lo: real, hi: real): (r: real)
    requires lo <= hi
    ensures lo <= r <= hi
    ensures lo <= v <= hi ==> r == v
  {
    if v < lo then lo else if hi < v then hi else v
  }

  /** A coordinate after moving at velocity `v` for `dt` seconds. */
  function Moved(p: real, v: real, dt: real): (r: real)
    ensures v == 0.0 ==> r == p
    ensures dt >= 0.0 && v > 0.0 ==> r >= p
    ensures dt >= 0.0 && v < 0.0 ==> r <= p
  {
    p + v * dt
  }

  /** An `sf::FloatRect`: left, top, width, height. */
  datatype Rect = Rect(left: real, top: real, width: real, height: real)

  /**
    `sf::FloatRect::intersects`: the rectangles are normalised (a negative
    width or height extends to the left or upwards) and must overlap on an
    interval of positive length on both axes; touching edges do not count.
   */
  predicate Intersects(a: Rect, b: Rect)
  {
    var aMinX := MinR(a.left, a.left + a.width);
    var aMaxX := MaxR(a.left, a.left + a.width);
    var aMinY := MinR(a.top, a.top + a.height);
    var aMaxY := MaxR(a.top, a.top + a.height);
    var bMinX := MinR(b.left, b.left + b.width);
    var bMaxX := MaxR(b.left, b.left + b.width);
    var bMinY := MinR(b.top, b.top + b.height);
    var bMaxY := MaxR(b.top, b.top + b.height);
    MaxR(aMinX, bMinX) < MinR(aMaxX, bMaxX) && MaxR(aMinY, bMinY) < MinR(aMaxY, bMaxY)
  }

  /** For rectangles of positive size, intersection is strict overlap on both axes, and it is symmetric. */
  lemma IntersectsPositive(a: Rect, b: Rect)
    requires a.width > 0.0 && a.height > 0.0 && b.width > 0.0 && b.height > 0.0
    ensures Intersects(a, b) <==>
      a.left < b.left + b.width && b.left < a.left + a.width &&
      a.top < b.top + b.height && b.top < a.top + a.height
    ensures Intersects(a, b) == Intersects(b, a)
  {
  }
}

=== FILE: movement.dfy ===
/**
  Horizontal movement of `MovementComponent::update` as functions on values:
  the target velocity chosen from the held keys, the rate-limited approach to
  it, the deceleration and skid, and the wall test over every row the collider
  spans with the snap to the tile boundary.
 */
module MovementLogic {
  import opened Geometry
  import opened Tiles
  import AnimationLogic

  /** The keys `update` polls: left (A/Left), right (D/Right), run (either Shift). */
  datatype MoveInput = MoveInput(left: bool, right: bool, running: bool)

  /** The component's tuning fields. */
  datatype MoveTuning = MoveTuning(
    walkSpeed: real,
    runSpeed: real,
    acceleration: real,
    deacceleration: real,
    airAcceleration: real,
    airDeacceleration: real,
    skidDeceleration: real,
    airSpeedMultiplier: real)

  predicate ValidTuning(t: MoveTuning)
  {
    t.walkSpeed > 0.0 && t.runSpeed > 0.0 && t.acceleration > 0.0 && t.deacceleration > 0.0
    && t.airAcceleration > 0.0 && t.airDeacceleration > 0.0 && t.skidDeceleration > 0.0
    && t.airSpeedMultiplier > 0.0
  }

  /** The field initialisers of `MovementComponent`. */
  const DefaultTuning := MoveTuning(180.0, 260.0, 1400.0, 2000.0, 800.0, 700.0, 2400.0, 0.9)

  function MaxSpeed(t: MoveTuning, running: bool): real
  {
    if running then t.runSpeed else t.walkSpeed
  }

  /** The clamp bound: the plain cap on the ground, the cap times `airAcceleration` in the air. */
  function EffectiveMaxSpeed(t: MoveTuning, running: bool, grounded: bool): real
  {
    if grounded then MaxSpeed(t, running) else MaxSpeed(t, running) * t.airAcceleration
  }

  /** Left contributes `-maxSpeed`, right `+maxSpeed`; holding both cancels out. */
  function TargetVelocity(input: MoveInput, maxSpeed: real): (r: real)
    ensures input.left == input.right ==> r == 0.0
    ensures input.left && !input.right ==> r == -maxSpeed
    ensures input.right && !input.left ==> r == maxSpeed
  {
    (if input.left then -maxSpeed else 0.0) + (if input.right then maxSpeed else 0.0)
  }

  /**
    Moves `v` toward `target` by at most `step`, landing exactly on the target
    when it is within reach: the result lies between `v` and `target`.
   */
  function Approach(v: real, target: real, step: real): (r: real)
    requires step >= 0.0
    ensures AbsR(r - v) <= step
    ensures v <= target ==> v <= r <= target
    ensures target <= v ==> target <= r <= v
    ensures AbsR(target - v) <= step ==> r == target
    ensures AbsR(target - v) > step ==> AbsR(r - v) == step
  {
    var delta := target - v;
    if AbsR(delta) <= step then target
    else v + (if delta > 0.0 then step else -step)
  }

  /**
    Reduces the speed `|v|` by `step`, stopping at zero: used both for the
    release deceleration and for the skid. The sign never flips.
   */
  function Decelerate(v: real, step: real): (r: real)
    requires step >= 0.0
    ensures AbsR(r) == MaxR(0.0, AbsR(v) - step)
    ensures v >= 0.0 ==> 0.0 <= r <= v
    ensures v <= 0.0 ==> v <= r <= 0.0
  {
    if AbsR(v) <= step then 0.0
    else v + (if v > 0.0 then -step else step)
  }

  /** The skid applies on the ground while a direction is held against the current velocity. */
  predicate Skids(grounded: bool, target: real, v: real)
  {
    grounded && target != 0.0 && target * v < 0.0
  }

  /** The target after the clamp (zero when no direction wins). */
  function ClampedTarget(t: MoveTuning, input: MoveInput, grounded: bool): (r: real)
    requires ValidTuning(t)
  {
    var target := TargetVelocity(input, MaxSpeed(t, input.running));
    if target != 0.0 then
      var eff := EffectiveMaxSpeed(t, input.running, grounded);
      ClampR(target, -eff, eff)
    else 0.0
  }

  /** The largest velocity change toward a held direction in one update. */
  function AccelStep(t: MoveTuning, grounded: bool, dt: real): (r: real)
    requires ValidTuning(t) && dt >= 0.0
    ensures r >= 0.0
    ensures grounded ==> r == t.acceleration * dt
    ensures !grounded ==> r == t.airAcceleration * dt
  {
    (if grounded then t.acceleration else t.airAcceleration) * dt
  }

  /** The speed lost in one update with no direction held. */
  function DecelStep(t: MoveTuning, grounded: bool, dt: real): (r: real)
    requires ValidTuning(t) && dt >= 0.0
    ensures r >= 0.0
    ensures grounded ==> r == t.deacceleration * dt
    ensures !grounded ==> r == t.airDeacceleration * dt
  {
    (if grounded then t.deacceleration else t.airDeacceleration) * dt
  }

  /** The speed lost to the skid in one update. */
  function SkidStep(t: MoveTuning, dt: real): (r: real)
    requires ValidTuning(t) && dt >= 0.0
    ensures r >= 0.0 && r == t.skidDeceleration * dt
  {
    t.skidDeceleration * dt
  }

  /** `velocityX` after the acceleration or deceleration step, before the skid. */
  function DriveStep(t: MoveTuning, v: real, target: real, grounded: bool, dt: real): real
    requires ValidTuning(t) && dt >= 0.0
  {
    if target != 0.0 then Approach(v, target, AccelStep(t, grounded, dt))
    else Decelerate(v, DecelStep(t, grounded, dt))
  }

  /** `velocityX` after the acceleration, deceleration and skid steps of one update. */
  function VelocityStep(t: MoveTuning, v: real, input: MoveInput, grounded: bool, dt: real): real
    requires ValidTuning(t) && dt >= 0.0
  {
    var target := ClampedTarget(t, input, grounded);
    var v1 := DriveStep(t, v, target, grounded, dt);
    if Skids(grounded, target, v1) then Decelerate(v1, SkidStep(t, dt)) else v1
  }

  /** The clamp never changes a non-zero target: the bound is at least the cap itself. */
  lemma ClampIsInert(t: MoveTuning, input: MoveInput, grounded: bool)
    requires ValidTuning(t) && t.airAcceleration >= 1.0
    ensures ClampedTarget(t, input, grounded) == TargetVelocity(input, MaxSpeed(t, input.running))
  {
    var m := MaxSpeed(t, input.running);
    if !grounded {
      assert m <= m * t.airAcceleration;
    }
  }

  /** With no direction held, the speed only decreases and the sign never flips. */
  lemma {:induction false} ReleaseNeverFlipsSign(t: MoveTuning, v: real, input: MoveInput, grounded: bool, dt: real)
    requires ValidTuning(t) && dt >= 0.0
    requires TargetVelocity(input, MaxSpeed(t, input.running)) == 0.0
    ensures var r := VelocityStep(t, v, input, grounded, dt);
      AbsR(r) <= AbsR(v) && (v >= 0.0 ==> r >= 0.0) && (v <= 0.0 ==> r <= 0.0)
    ensures AbsR(VelocityStep(t, v, input, grounded, dt)) == MaxR(0.0, AbsR(v) - DecelStep(t, grounded, dt))
  {
    assert ClampedTarget(t, input, grounded) == 0.0;
  }

  /**
    With a direction held, the new velocity lies between the old velocity and
    the (clamped) target: the update never overshoots the target and never
    moves away from it, with or without the skid.
   */
  lemma {:induction false} HeldNeverOvershoots(t: MoveTuning, v: real, input: MoveInput, grounded: bool, dt: real)
    requires ValidTuning(t) && dt >= 0.0
    requires ClampedTarget(t, input, grounded) != 0.0
    ensures var target := ClampedTarget(t, input, grounded);
      var r := VelocityStep(t, v, input, grounded, dt);
      (v <= target ==> v <= r <= target) && (target <= v ==> target <= r <= v)
  {
    var target := ClampedTarget(t, input, grounded);
    var rate := if grounded then t.acceleration else t.airAcceleration;
    assert rate * dt >= 0.0;
    assert t.skidDeceleration * dt >= 0.0;
    var v1 := Approach(v, target, rate * dt);
    if Skids(grounded, target, v1) {
      if target > 0.0 {
        assert v1 < 0.0;
      } else {
        assert v1 > 0.0;
      }
    }
  }

  /** The skid only ever slows a body that moves against the held direction, never reversing it. */
  lemma {:induction false} SkidStopsAtZero(t: MoveTuning, v: real, input: MoveInput, dt: real)
    requires ValidTuning(t) && dt >= 0.0
    requires ClampedTarget(t, input, true) != 0.0
    ensures var target := ClampedTarget(t, input, true);
      var v1 := DriveStep(t, v, target, true, dt);
      var r := VelocityStep(t, v, input, true, dt);
      Skids(true, target, v1) ==>
        AbsR(r) == MaxR(0.0, AbsR(v1) - SkidStep(t, dt))
        && (target > 0.0 ==> r <= 0.0) && (target < 0.0 ==> r >= 0.0)
  {
    var target := ClampedTarget(t, input, true);
    var v1 := DriveStep(t, v, target, true, dt);
    if Skids(true, target, v1) {
      var r := Decelerate(v1, SkidStep(t, dt));
      if target > 0.0 {
        assert v1 < 0.0 && r <= 0.0;
      } else {
        assert v1 > 0.0 && r >= 0.0;
      }
    }
  }

  /** The animation `update` asks for: idle up to 1 pixel per second, walking above. */
  function AnimFor(v: real): AnimationLogic.AnimState
  {
    if AbsR(v) <= 1.0 then AnimationLogic.Idle else AnimationLogic.Walk
  }

  // ---------------------------------------------------------------------
  // Horizontal collision against the grid

  /** Some row in `top..bottom` of column `tileX` is solid (the `isBlocked` lambda). */
  predicate Blocked(tiles: Grid, tileX: int, top: int, bottom: int)
  {
    exists tileY :: top <= tileY <= bottom && SolidAt(tiles, tileX, tileY)
  }

  /** Position and velocity after the horizontal collision step. */
  datatype HorizontalState = HorizontalState(x: real, velocityX: real)

  /**
    Moving left to `newX`: when the left column is blocked on a spanned row,
    the body stops with its left edge on the right boundary of that column,
    which lies right of the proposed position (the snap pushes back out of the
    wall, never further in); otherwise it takes the proposed position.
   */
  function StepLeft(tiles: Grid, tileSize: Pos, newX: real, v: real, top: int, bottom: int): (r: HorizontalState)
    ensures var left := TileOf(newX, tileSize);
      if Blocked(tiles, left, top, bottom) then
        r.velocityX == 0.0 && r.x == ((left + 1) * tileSize) as real && newX < r.x
      else r == HorizontalState(newX, v)
  {
    var left := TileOf(newX, tileSize);
    if Blocked(tiles, left, top, bottom) then HorizontalState(((left + 1) * tileSize) as real, 0.0)
    else HorizontalState(newX, v)
  }

  /**
    Moving right to `newX`: when the right column is blocked, the body stops
    with its right edge on the left boundary of that column, at least one pixel
    left of the proposed position when that edge is at a non-negative x
    (truncation toward zero merges columns -1 and 0, so at negative x the snap
    can land to the right instead); otherwise it takes the proposed position.
   */
  function StepRight(tiles: Grid, tileSize: Pos, newX: real, v: real, width: real, top: int, bottom: int): (r: HorizontalState)
    ensures var right := TileOf(newX + width - 1.0, tileSize);
      if Blocked(tiles, right, top, bottom) then
        r.velocityX == 0.0 && r.x + width == (right * tileSize) as real
        && (0.0 <= newX + width - 1.0 ==> r.x <= newX - 1.0)
      else r == HorizontalState(newX, v)
  {
    var right := TileOf(newX + width - 1.0, tileSize);
    if Blocked(tiles, right, top, bottom) then HorizontalState((right * tileSize) as real - width, 0.0)
    else HorizontalState(newX, v)
  }

  /**
    The collision part of `update`: with zero velocity nothing moves; otherwise
    the leading column at the proposed position `Moved(x, v, dt)` is checked on every
    row the collider spans (from its top pixel + 1 to its bottom pixel - 1).
   */
  function ResolveHorizontal(tiles: Grid, tileSize: Pos, x: real, y: real, v: real,
                             width: real, height: real, dt: real): (r: HorizontalState)
    ensures v == 0.0 ==> r == HorizontalState(x, 0.0)
    ensures r.velocityX == 0.0 || r.velocityX == v
    ensures r.velocityX == v ==> r.x == Moved(x, v, dt)
  {
    if v == 0.0 then HorizontalState(x, v)
    else
      var top := TileOf(y + 1.0, tileSize);
      var bottom := TileOf(y + height - 1.0, tileSize);
      if v < 0.0 then StepLeft(tiles, tileSize, Moved(x, v, dt), v, top, bottom)
      else StepRight(tiles, tileSize, Moved(x, v, dt), v, width, top, bottom)
  }
}

=== FILE: option.dfy ===
/** A value that may be absent (a null pointer the C++ code tests before use). */
module Optional {
  datatype Option<T> = None | Some(value: T)
}

=== FILE: physics.dfy ===
/**
  Vertical motion of `PhysicsComponent::update` as a function on values: the
  jump from the ground, gravity, and the floor test on one sampled cell.
 */
module PhysicsLogic {
  import opened Geometry
  import opened Tiles

  /** The field initialisers of `PhysicsComponent`: gravity pulls down (+y), a jump launches up (-y). */
  const DefaultGravity: real := 900.0
  const DefaultJumpStrength: real := -400.0

  /** The vertical state one update changes. */
  datatype Vertical = Vertical(y: real, velocityY: real, onGround: bool)

  /** A jump fires only from the ground while the jump key is held. */
  predicate Jumps(s: Vertical, jumpHeld: bool)
  {
    s.onGround && jumpHeld
  }

  /** The velocity after the jump test and one step of gravity, before collision. */
  function FallVelocity(s: Vertical, jumpHeld: bool, gravity: real, jumpStrength: real, dt: real): real
  {
    (if Jumps(s, jumpHeld) then jumpStrength else s.velocityY) + gravity * dt
  }

  /** Where the body would be after one update without a collision. */
  function ProposedY(s: Vertical, jumpHeld: bool, gravity: real, jumpStrength: real, dt: real): real
  {
    Moved(s.y, FallVelocity(s, jumpHeld, gravity, jumpStrength, dt), dt)
  }

  /**
    One update with the body's top-left corner at (x, s.y): integrate, then
    test the single cell that holds the point (x, newY). A solid cell snaps the
    body onto that cell's top boundary and grounds it; otherwise the body moves
    to newY and is airborne. The source divides the float first and then
    truncates; `Geometry.QuotientOfTruncation` shows that this picks the same
    tile as `TileOf`, which the model uses.
   */
  function VerticalStep(tiles: Grid, tileSize: Pos, x: real, s: Vertical, jumpHeld: bool,
                        gravity: real, jumpStrength: real, dt: real): (r: Vertical)
  {
    var vy := FallVelocity(s, jumpHeld, gravity, jumpStrength, dt);
    var newY := ProposedY(s, jumpHeld, gravity, jumpStrength, dt);
    var tileX := TileOf(x, tileSize);
    var tileY := TileOf(newY, tileSize);
    if SolidAt(tiles, tileX, tileY) then Vertical((tileY * tileSize) as real, 0.0, true)
    else Vertical(newY, vy, false)
  }

  /**
    The outcome of one update: the body is grounded exactly when the cell
    under the proposed position is solid. A grounded body has zero velocity and
    sits on a tile boundary; at non-negative heights that boundary is the top of
    the tile holding the proposed position, so the snap lifts the body by less
    than one tile. An airborne body takes the proposed position and velocity.
   */
  lemma {:induction false} VerticalOutcome(tiles: Grid, tileSize: Pos, x: real, s: Vertical, jumpHeld: bool,
                                           gravity: real, jumpStrength: real, dt: real)
    ensures var r := VerticalStep(tiles, tileSize, x, s, jumpHeld, gravity, jumpStrength, dt);
      var newY := ProposedY(s, jumpHeld, gravity, jumpStrength, dt);
      r.onGround <==> SolidAt(tiles, TileOf(x, tileSize), TileOf(newY, tileSize))
    ensures var r := VerticalStep(tiles, tileSize, x, s, jumpHeld, gravity, jumpStrength, dt);
      var newY := ProposedY(s, jumpHeld, gravity, jumpStrength, dt);
      r.onGround ==> r.velocityY == 0.0 && r.y == (TileOf(newY, tileSize) * tileSize) as real
    ensures var r := VerticalStep(tiles, tileSize, x, s, jumpHeld, gravity, jumpStrength, dt);
      var newY := ProposedY(s, jumpHeld, gravity, jumpStrength, dt);
      r.onGround && 0.0 <= newY ==> r.y <= newY < r.y + tileSize as real
    ensures var r := VerticalStep(tiles, tileSize, x, s, jumpHeld, gravity, jumpStrength, dt);
      !r.onGround ==>
        r.y == ProposedY(s, jumpHeld, gravity, jumpStrength, dt)
        && r.velocityY == FallVelocity(s, jumpHeld, gravity, jumpStrength, dt)
  {
    var newY := ProposedY(s, jumpHeld, gravity, jumpStrength, dt);
    if 0.0 <= newY {
      SnapBelow(newY, tileSize);
    }
  }

  /** At a non-negative position, the top of the tile holding it lies less than one tile above it. */
  lemma SnapBelow(p: real, tileSize: Pos)
    requires 0.0 <= p
    ensures var top := (TileOf(p, tileSize) * tileSize) as real;
      top <= p < top + tileSize as real
  {
    var t := TileOf(p, tileSize);
    assert (t + 1) * tileSize == t * tileSize + tileSize;
  }

  /** A jump needs ground contact: an airborne body's velocity only gains gravity. */
  lemma NoJumpWithoutGround(s: Vertical, jumpHeld: bool, gravity: real, jumpStrength: real, dt: real)
    requires !s.onGround
    ensures FallVelocity(s, jumpHeld, gravity, jumpStrength, dt) == s.velocityY + gravity * dt
  {
  }

  /**
    Resting on a floor is stable: a body on the top boundary of tile row `k`
    over a solid cell, with zero velocity and no jump, lands on the same
    boundary again when one step of gravity moves it down by less than a tile.
   */
  lemma {:induction false} RestingStaysPut(tiles: Grid, tileSize: Pos, x: real, k: nat, gravity: real,
                                           jumpStrength: real, dt: real)
    requires 0.0 <= gravity * dt * dt < tileSize as real
    requires SolidAt(tiles, TileOf(x, tileSize), k)
    ensures var s := Vertical((k * tileSize) as real, 0.0, true);
      VerticalStep(tiles, tileSize, x, s, false, gravity, jumpStrength, dt) == s
  {
    var s := Vertical((k * tileSize) as real, 0.0, true);
    var fall := gravity * dt * dt;
    RestingFall(s, gravity, jumpStrength, dt);
    RowAfterFall(k, tileSize, fall);
  }

  /** At rest and without a jump, one step moves the body down by `gravity * dt * dt`. */
  lemma RestingFall(s: Vertical, gravity: real, jumpStrength: real, dt: real)
    requires s.velocityY == 0.0
    ensures ProposedY(s, false, gravity, jumpStrength, dt) == s.y + gravity * dt * dt
  {
  }

  /** Falling by less than one tile from the top of row `k` stays in row `k`. */
  lemma RowAfterFall(k: nat, tileSize: Pos, fall: real)
    requires 0.0 <= fall < tileSize as real
    ensures TileOf((k * tileSize) as real + fall, tileSize) == k
  {
    TruncShift(k * tileSize, fall);
    var c := Trunc((k * tileSize) as real + fall);
    assert k * tileSize <= c < k * tileSize + tileSize;
    QuotientUnique(c, TruncDiv(c, tileSize), k, tileSize);
  }

  /** Truncating a whole number plus a non-negative fraction keeps the whole number. */
  lemma TruncShift(n: nat, f: real)
    requires 0.0 <= f
    ensures Trunc(n as real + f) == n + Trunc(f)
  {
  }
}

=== FILE: projectile.dfy ===
/**
  The value-level part of `ProjectileComponent`: the lifetime countdown, the
  optional gravity, the collider-versus-tiles rectangle test and the
  out-of-level test.
 */
module ProjectileLogic {
  import opened Geometry
  import opened Tiles

  /** The lifetime after one update: it never goes below zero. */
  function NextLifetime(lifetime: real, dt: real): (r: real)
    ensures r >= 0.0
    ensures lifetime - dt >= 0.0 ==> r == lifetime - dt
    ensures lifetime - dt < 0.0 ==> r == 0.0
  {
    MaxR(0.0, lifetime - dt)
  }

  /** With a non-negative frame time the lifetime never grows, and once it is zero it stays zero. */
  lemma LifetimeRunsDown(lifetime: real, dt: real)
    requires lifetime >= 0.0 && dt >= 0.0
    ensures NextLifetime(lifetime, dt) <= lifetime
    ensures lifetime == 0.0 ==> NextLifetime(lifetime, dt) == 0.0
  {
  }

  /** Gravity is applied only when it is non-zero (a straight shot keeps its vertical speed exactly). */
  function FallVelocity(velocityY: real, gravity: real, dt: real): (r: real)
    ensures gravity == 0.0 ==> r == velocityY
    ensures gravity != 0.0 ==> r == velocityY + gravity * dt
  {
    if gravity != 0.0 then velocityY + gravity * dt else velocityY
  }

  /** The tile rectangle the collider covers: columns `left..right`, rows `top..bottom`. */
  datatype TileSpan = TileSpan(left: int, right: int, top: int, bottom: int)

  /** The tiles under a collider of size `width` x `height` at (x, y), edges inclusive (last pixel = size - 1). */
  function SpanOf(tileSize: Pos, x: real, y: real, width: real, height: real): TileSpan
  {
    TileSpan(TileOf(x, tileSize), TileOf(x + width - 1.0, tileSize),
             TileOf(y, tileSize), TileOf(y + height - 1.0, tileSize))
  }

  /** Some cell of the span is solid: the specification of `collidesWithSolid`. */
  predicate SolidInSpan(tiles: Grid, s: TileSpan)
  {
    exists ty, tx :: s.top <= ty <= s.bottom && s.left <= tx <= s.right && SolidAt(tiles, tx, ty)
  }

  /** A span that lies entirely outside the grid, or a grid with no solid cell, never collides. */
  lemma {:induction false} NoCollisionOutsideGrid(tiles: Grid, s: TileSpan)
    requires s.bottom < 0 || s.top >= |tiles| || s.right < 0
    ensures !SolidInSpan(tiles, s)
  {
  }

  /** Growing the span never loses a collision. */
  lemma {:induction false} SolidInSpanMonotone(tiles: Grid, s: TileSpan, t: TileSpan)
    requires t.left <= s.left && s.right <= t.right && t.top <= s.top && s.bottom <= t.bottom
    requires SolidInSpan(tiles, s)
    ensures SolidInSpan(tiles, t)
  {
    var ty, tx :| s.top <= ty <= s.bottom && s.left <= tx <= s.right && SolidAt(tiles, tx, ty);
    assert t.top <= ty <= t.bottom && t.left <= tx <= t.right && SolidAt(tiles, tx, ty);
  }

  /**
    The level-bounds test: the projectile is gone once its corner leaves the
    level rectangle grown by one collider size on every side.
   */
  predicate OutOfLevel(x: real, y: real, width: real, height: real, levelWidth: real, levelHeight: real)
  {
    x < -width || x > levelWidth + width || y < -height || y > levelHeight + height
  }

  /** A projectile whose collider overlaps the level rectangle is never out of the level. */
  lemma {:induction false} OverlapIsInLevel(x: real, y: real, width: real, height: real, levelWidth: real, levelHeight: real)
    requires width > 0.0 && height > 0.0 && levelWidth >= 0.0 && levelHeight >= 0.0
    requires Intersects(Rect(x, y, width, height), Rect(0.0, 0.0, levelWidth, levelHeight))
    ensures !OutOfLevel(x, y, width, height, levelWidth, levelHeight)
  {
    if levelWidth > 0.0 && levelHeight > 0.0 {
      IntersectsPositive(Rect(x, y, width, height), Rect(0.0, 0.0, levelWidth, levelHeight));
    }
  }
}

=== FILE: session.dfy ===
/**
  The bookkeeping of the game controller (`EngineCore`) as functions on
  values: lives, score, the coin bank, the goal, invincibility, the resets and
  the start menu. `Engine.EngineCore` holds the same fields and each of its
  methods is proved to move them as the function of the same name does.
 */
module SessionLogic {
  import opened Optional
  import opened Geometry

  /**
    The tunables the controller reads but whose values the shown sources do
    not fix (the header that declares them is not part of this model).
   */
  datatype Config = Config(
    invincibilityDuration: real,
    goalMessageDuration: real,
    powerupFlashDuration: real,
    startTransitionDuration: real,
    coinScoreValue: int,
    powerupScoreValue: int,
    goalScoreValue: int,
    smallColliderHeight: real,
    bigColliderHeight: real)

  predicate ValidConfig(cfg: Config)
  {
    cfg.invincibilityDuration >= 0.0 && cfg.goalMessageDuration >= 0.0
    && cfg.powerupFlashDuration >= 0.0 && cfg.startTransitionDuration >= 0.0
    && cfg.coinScoreValue >= 0 && cfg.powerupScoreValue >= 0 && cfg.goalScoreValue >= 0
    && cfg.smallColliderHeight > 0.0 && cfg.bigColliderHeight > 0.0
  }

  /** The lives a new game starts with. */
  const StartingLives: int := 3
  /** Coins that buy one extra life. */
  const CoinsPerLife: int := 100

  /** The counters, flags and timers of one game session. */
  datatype Session = Session(
    lives: int,
    score: int,
    coinBank: int,
    collectedCoins: int,
    gameOver: bool,
    paused: bool,
    invincible: bool,
    levelComplete: bool,
    invincibilityTimer: real,
    goalMessageTimer: real,
    powerupFlashTimer: real)

  /**
    What every operation keeps: lives never go below zero, the coin bank
    holds fewer coins than buy a life, and no timer is negative.
   */
  predicate Inv(s: Session)
  {
    s.lives >= 0 && 0 <= s.coinBank < CoinsPerLife && s.collectedCoins >= 0
    && s.invincibilityTimer >= 0.0 && s.goalMessageTimer >= 0.0 && s.powerupFlashTimer >= 0.0
  }

  // ---------------------------------------------------------------------
  // Losing a life

  /** Whether `loseLife` acts at all: not while invincible, not after the game is over. */
  predicate Vulnerable(s: Session)
  {
    !s.invincible && !s.gameOver
  }

  /** `std::max(0, lives - 1)`. */
  function LivesAfterHit(lives: int): (r: int)
    ensures r >= 0 && (lives >= 1 ==> r == lives - 1)
  {
    if lives - 1 > 0 then lives - 1 else 0
  }

  /**
    `loseLife` on the counters: a vulnerable player loses one life (never
    going below zero); with none left the game is over and invincibility is
    cleared, otherwise the player becomes invincible for the full duration.
   */
  function LifeLoss(s: Session, cfg: Config): Session
  {
    if !Vulnerable(s) then s
    else
      var lives := LivesAfterHit(s.lives);
      if lives <= 0 then s.(lives := lives, gameOver := true, invincible := false, invincibilityTimer := 0.0)
      else s.(lives := lives, invincible := true, invincibilityTimer := cfg.invincibilityDuration)
  }

  /** `loseLife` respawns the player exactly when it acts and a life remains. */
  predicate Respawns(s: Session)
  {
    Vulnerable(s) && LivesAfterHit(s.lives) > 0
  }

  /**
    The outcomes of `loseLife`: nothing happens unless the player is
    vulnerable; the last life ends the game without a respawn; any other hit
    costs exactly one life and grants invincibility. Score, coins, pause and
    goal are never touched.
   */
  lemma LifeLossOutcomes(s: Session, cfg: Config)
    ensures var r := LifeLoss(s, cfg);
      (!Vulnerable(s) ==> r == s)
      && (Vulnerable(s) && s.lives <= 1 ==>
            r.lives == 0 && r.gameOver && !r.invincible && r.invincibilityTimer == 0.0 && !Respawns(s))
      && (Vulnerable(s) && s.lives > 1 ==>
            r.lives == s.lives - 1 && !r.gameOver && r.invincible
            && r.invincibilityTimer == cfg.invincibilityDuration && Respawns(s))
      && r.score == s.score && r.coinBank == s.coinBank && r.collectedCoins == s.collectedCoins
      && r.paused == s.paused && r.levelComplete == s.levelComplete
      && r.goalMessageTimer == s.goalMessageTimer && r.powerupFlashTimer == s.powerupFlashTimer
  {
  }

  /**
    A second hit right after the first does nothing: the first one leaves the
    player invincible or the game over. So the hits of one frame cost at most
    one life.
   */
  lemma {:induction false} LifeLossAbsorbsRepeats(s: Session, cfg: Config)
    ensures LifeLoss(LifeLoss(s, cfg), cfg) == LifeLoss(s, cfg)
    ensures LifeLoss(s, cfg).lives >= s.lives - 1
  {
    var r := LifeLoss(s, cfg);
    if Vulnerable(s) {
      assert !Vulnerable(r);
    }
  }

  // ---------------------------------------------------------------------
  // Coins

  /** The coin bank and the lives it buys. */
  datatype Bank = Bank(coins: int, livesGained: int)

  /**
    Adding `n` coins to the bank and trading every full hundred for a life.
    The controller does this with a `while` loop; this is the closed form.
   */
  function BankCoins(bank: int, n: int): Bank
  {
    var total := bank + n;
    if total >= CoinsPerLife then Bank(total % CoinsPerLife, total / CoinsPerLife) else Bank(total, 0)
  }

  /**
    Banking conserves coins (`bank + n == coins + 100 * livesGained`), leaves
    fewer than 100 in the bank, gains a life only for a full hundred, and from
    a valid bank and a non-negative count keeps the bank non-negative.
   */
  lemma BankConserves(bank: int, n: int)
    ensures var b := BankCoins(bank, n);
      bank + n == b.coins + CoinsPerLife * b.livesGained
      && b.coins < CoinsPerLife && b.livesGained >= 0
      && (b.livesGained > 0 <==> bank + n >= CoinsPerLife)
    ensures 0 <= bank && 0 <= n ==> 0 <= BankCoins(bank, n).coins
  {
  }

  /**
    `handleCollectibles` on the counters once the tile map reports `n` coins
    under the player and `total` coins collected so far: nothing happens for
    `n == 0`; otherwise the collected count is refreshed, the score grows by
    `n` coin values and the coins go to the bank.
   */
  function Collect(s: Session, n: nat, total: nat, cfg: Config): Session
  {
    if n > 0 then
      var b := BankCoins(s.coinBank, n);
      s.(collectedCoins := total, score := s.score + n * cfg.coinScoreValue,
         coinBank := b.coins, lives := s.lives + b.livesGained)
    else s
  }

  /** Collecting keeps the invariant, never lowers the score or the lives, and conserves coins. */
  lemma {:induction false} CollectKeepsInv(s: Session, n: nat, total: nat, cfg: Config)
    requires Inv(s) && ValidConfig(cfg)
    ensures var r := Collect(s, n, total, cfg);
      Inv(r) && r.score >= s.score && r.lives >= s.lives
      && s.coinBank + n == r.coinBank + CoinsPerLife * (r.lives - s.lives)
  {
    BankConserves(s.coinBank, n);
    if n > 0 {
      assert n * cfg.coinScoreValue >= 0;
    }
  }

  // ---------------------------------------------------------------------
  // Power-ups and the goal

  /** The counters after `handlePowerups` picks up `n` power-ups (the power state itself lives on the player). */
  function PowerupPickup(s: Session, n: nat, cfg: Config): Session
  {
    if n > 0 then s.(powerupFlashTimer := cfg.powerupFlashDuration, score := s.score + n * cfg.powerupScoreValue)
    else s
  }

  /**
    `checkGoalReached`: the first time the player's box reaches the goal the
    level is complete, the message timer starts and the goal score is added;
    while the level is complete nothing more happens.
   */
  function Goal(s: Session, reached: bool, cfg: Config): Session
  {
    if s.levelComplete || !reached then s
    else s.(levelComplete := true, goalMessageTimer := cfg.goalMessageDuration, score := s.score + cfg.goalScoreValue)
  }

  /** The goal fires at most once: after it fired, any further check changes nothing. */
  lemma {:induction false} GoalFiresOnce(s: Session, reached: bool, again: bool, cfg: Config)
    ensures var r := Goal(s, reached, cfg);
      (r.levelComplete <==> s.levelComplete || reached)
      && (r != s ==> !s.levelComplete && r.score == s.score + cfg.goalScoreValue)
      && (r.levelComplete ==> Goal(r, again, cfg) == r)
  {
  }

  // ---------------------------------------------------------------------
  // Timers

  /**
    The timer part of `updateInvincibility`: the timer runs down to zero and
    invincibility ends on the update that takes it there.
   */
  function InvincibilityTick(s: Session, dt: real): Session
  {
    if !s.invincible then s
    else
      var t := MaxR(0.0, s.invincibilityTimer - dt);
      if t <= 0.0 then s.(invincibilityTimer := t, invincible := false) else s.(invincibilityTimer := t)
  }

  /** `n` updates of `dt` seconds each. */
  function InvincibilityTicks(s: Session, dt: real, n: nat): Session
    decreases n
  {
    if n == 0 then s else InvincibilityTicks(InvincibilityTick(s, dt), dt, n - 1)
  }

  /** Updates of a player who is not invincible leave the counters alone. */
  lemma {:induction false} TicksIdle(s: Session, dt: real, n: nat)
    requires !s.invincible
    ensures InvincibilityTicks(s, dt, n) == s
    decreases n
  {
    if n > 0 {
      TicksIdle(s, dt, n - 1);
    }
  }

  /**
    Invincibility wears off: with a positive frame time, a timer no longer
    than `n >= 1` frames ends it within `n` updates.
   */
  lemma {:induction false} InvincibilityEnds(s: Session, dt: real, n: nat)
    requires dt > 0.0 && n >= 1 && s.invincibilityTimer <= n as real * dt
    ensures !InvincibilityTicks(s, dt, n).invincible
    decreases n
  {
    var r := InvincibilityTick(s, dt);
    if !s.invincible {
      TicksIdle(s, dt, n);
    } else if !r.invincible {
      TicksIdle(r, dt, n - 1);
    } else {
      assert n != 1;
      assert r.invincibilityTimer <= (n - 1) as real * dt by {
        assert n as real * dt == (n - 1) as real * dt + dt;
      }
      InvincibilityEnds(r, dt, n - 1);
    }
  }

  /**
    The timer part of `updatePowerupFlash`: when there is a player, a
    running flash timer counts down to zero.
   */
  function FlashTick(s: Session, dt: real, hasPlayer: bool): Session
  {
    if s.powerupFlashTimer <= 0.0 || !hasPlayer then s
    else s.(powerupFlashTimer := MaxR(0.0, s.powerupFlashTimer - dt))
  }

  /**
    The end of a frame with the level complete: the goal message timer runs
    down (without a floor) and the level is reset once it reaches zero.
   */
  function GoalCountdown(s: Session, dt: real): Session
  {
    if !s.levelComplete then s
    else
      var t := s.goalMessageTimer - dt;
      if t <= 0.0 then ResetLevel(s.(goalMessageTimer := t)) else s.(goalMessageTimer := t)
  }

  // ---------------------------------------------------------------------
  // Resets

  /**
    The counters after `resetLevelState`: the level is no longer complete,
    the coins of the level and the invincibility are gone, and every timer is
    cleared. Lives, score, pause and game over are kept.
   */
  function ResetLevel(s: Session): Session
  {
    s.(levelComplete := false, goalMessageTimer := 0.0, collectedCoins := 0, coinBank := 0,
       invincible := false, invincibilityTimer := 0.0, powerupFlashTimer := 0.0)
  }

  /** `resetGameState`: a fresh score, three lives, no game over and no pause, then a level reset. */
  function ResetGame(s: Session): Session
  {
    ResetLevel(s.(score := 0, lives := StartingLives, gameOver := false, paused := false,
                  invincible := false, invincibilityTimer := 0.0, powerupFlashTimer := 0.0))
  }

  /**
    A level reset keeps lives, score and the game-over flag, satisfies the
    invariant whenever lives were non-negative, and is idempotent.
   */
  lemma ResetLevelFacts(s: Session)
    ensures var r := ResetLevel(s);
      r.lives == s.lives && r.score == s.score && r.gameOver == s.gameOver && r.paused == s.paused
      && !r.levelComplete && !r.invincible && r.coinBank == 0 && r.collectedCoins == 0
      && (s.lives >= 0 ==> Inv(r))
      && ResetLevel(r) == r
  {
  }

  /** A game reset forgets the whole session: any two sessions reset to the same one, which is valid. */
  lemma ResetGameForgets(s: Session, t: Session)
    ensures ResetGame(s) == ResetGame(t)
    ensures Inv(ResetGame(s)) && ResetGame(s).lives == StartingLives && ResetGame(s).score == 0
    ensures !ResetGame(s).gameOver && !ResetGame(s).paused && !ResetGame(s).levelComplete
  {
  }

  /** What the reset key does this frame. */
  datatype ResetKind = NoReset | LevelReset | GameReset

  /**
    The reset key is edge-triggered: it acts only on the frame it goes down
    (pressed now, not held before), restarting the game after a game over and
    the level otherwise.
   */
  function ResetRequest(pressed: bool, held: bool, gameOver: bool): (k: ResetKind)
    ensures k != NoReset <==> pressed && !held
    ensures k == GameReset <==> pressed && !held && gameOver
  {
    if pressed && !held then (if gameOver then GameReset else LevelReset) else NoReset
  }

  /** The counters after the reset request `k`. */
  function ApplyReset(s: Session, k: ResetKind): Session
  {
    match k
    case NoReset => s
    case LevelReset => ResetLevel(s)
    case GameReset => ResetGame(s)
  }

  /**
    Holding the key down resets once: whatever happened in between, the
    frames after the one the key went down see it held and do nothing.
   */
  lemma {:induction false} HeldResetActsOnce(gameOver: bool, gameOver2: bool, s: Session)
    ensures ResetRequest(true, false, gameOver) != NoReset
    ensures ApplyReset(s, ResetRequest(true, true, gameOver2)) == s
  {
  }

  // ---------------------------------------------------------------------
  // Start menu and pause

  /** The start menu: shown, and whether the fade into the game is running. */
  datatype Menu = Menu(inStartMenu: bool, startTransition: bool, startTransitionTimer: real)

  /**
    The start-menu branch of `update`: while the transition runs its timer
    counts down to zero, and reaching zero leaves the menu.
   */
  function MenuTick(m: Menu, dt: real): Menu
  {
    if !m.startTransition then m
    else
      var t := MaxR(0.0, m.startTransitionTimer - dt);
      if t <= 0.0 then Menu(false, false, t) else m.(startTransitionTimer := t)
  }

  /**
    The menu is left only through a running transition whose timer has run
    out; without a transition nothing moves, and the timer stays non-negative.
   */
  lemma {:induction false} MenuLeavesOnlyAfterTransition(m: Menu, dt: real)
    requires m.inStartMenu && dt >= 0.0
    ensures var r := MenuTick(m, dt);
      (!r.inStartMenu <==> m.startTransition && m.startTransitionTimer - dt <= 0.0)
      && (!m.startTransition ==> r == m)
      && (m.startTransition ==> r.startTransitionTimer >= 0.0 && r.startTransitionTimer <= MaxR(0.0, m.startTransitionTimer))
  {
  }

  /** A key the controller reacts to while polling events. */
  datatype Key = Enter | PauseKey | OtherKey

  /** Enter starts the transition out of the menu, once: only in the menu and not while it already runs. */
  predicate StartsGame(m: Menu, k: Key)
  {
    k == Enter && m.inStartMenu && !m.startTransition
  }

  /** The pause key toggles the pause outside the start menu. */
  function TogglePause(s: Session, m: Menu, k: Key): Session
  {
    if k == PauseKey && !m.inStartMenu then s.(paused := !s.paused) else s
  }

  /** Pressing the pause key twice in play restores the pause flag; nothing else ever changes. */
  lemma PauseTwice(s: Session, m: Menu)
    ensures TogglePause(TogglePause(s, m, PauseKey), m, PauseKey) == s
    ensures TogglePause(s, m, PauseKey).(paused := s.paused) == s
    ensures !m.inStartMenu ==> TogglePause(s, m, PauseKey).paused == !s.paused
  {
  }

  // ---------------------------------------------------------------------
  // Whole-session properties

  /**
    Every bookkeeping step keeps the invariant, given a configuration with
    non-negative durations and scores and a non-negative frame time.
   */
  lemma {:induction false} StepsKeepInv(s: Session, cfg: Config, dt: real, n: nat, total: nat, reached: bool,
                                        hasPlayer: bool, k: ResetKind)
    requires Inv(s) && ValidConfig(cfg) && dt >= 0.0
    ensures Inv(LifeLoss(s, cfg)) && Inv(PowerupPickup(s, n, cfg)) && Inv(Goal(s, reached, cfg))
    ensures Inv(InvincibilityTick(s, dt)) && Inv(FlashTick(s, dt, hasPlayer)) && Inv(GoalCountdown(s, dt))
    ensures Inv(ApplyReset(s, k)) && Inv(Collect(s, n, total, cfg))
  {
    CollectKeepsInv(s, n, total, cfg);
    ResetGameForgets(s, s);
  }

  /**
    The score only grows during play: only a game reset lowers it. Coins,
    power-ups and the goal add to it, nothing else touches it.
   */
  lemma {:induction false} ScoreNeverDrops(s: Session, cfg: Config, dt: real, n: nat, total: nat, reached: bool, hasPlayer: bool)
    requires ValidConfig(cfg)
    ensures Collect(s, n, total, cfg).score == s.score + n * cfg.coinScoreValue
    ensures PowerupPickup(s, n, cfg).score == s.score + n * cfg.powerupScoreValue
    ensures Goal(s, reached, cfg).score >= s.score
    ensures LifeLoss(s, cfg).score == s.score && InvincibilityTick(s, dt).score == s.score
    ensures FlashTick(s, dt, hasPlayer).score == s.score && GoalCountdown(s, dt).score == s.score
    ensures ApplyReset(s, LevelReset).score == s.score
  {
  }

  /**
    A completed level resets within `n >= 1` frames of `dt > 0` when its
    message timer is at most `n` frames long; until then it stays complete.
   */
  lemma {:induction false} GoalMessageEnds(s: Session, dt: real, n: nat)
    requires s.levelComplete && dt > 0.0 && n >= 1 && s.goalMessageTimer <= n as real * dt
    ensures !GoalCountdowns(s, dt, n).levelComplete
    decreases n
  {
    var r := GoalCountdown(s, dt);
    if r.levelComplete {
      assert n != 1;
      assert r.goalMessageTimer <= (n - 1) as real * dt by {
        assert n as real * dt == (n - 1) as real * dt + dt;
      }
      GoalMessageEnds(r, dt, n - 1);
    } else {
      CountdownsIdle(r, dt, n - 1);
    }
  }

  /** `n` frame ends of `dt` seconds each. */
  function GoalCountdowns(s: Session, dt: real, n: nat): Session
    decreases n
  {
    if n == 0 then s else GoalCountdowns(GoalCountdown(s, dt), dt, n - 1)
  }

  /** Frame ends after the level is no longer complete change nothing. */
  lemma {:induction false} CountdownsIdle(s: Session, dt: real, n: nat)
    requires !s.levelComplete
    ensures GoalCountdowns(s, dt, n) == s
    decreases n
  {
    if n > 0 {
      CountdownsIdle(s, dt, n - 1);
    }
  }

  // ---------------------------------------------------------------------
  // The player as the controller sees it

  /** A position. */
  datatype Pose = Pose(x: real, y: real)
  /** The vertical state of a physics component. */
  datatype Fall = Fall(velocityY: real, onGround: bool)

  /**
    The parts of the player's components the controller reads and writes:
    the first transform, the first physics component (with its collider
    height) and the collider height of the first movement component; `None`
    where the player lacks that component.
   */
  datatype PlayerView = PlayerView(pose: Option<Pose>, fall: Option<Fall>,
                                   physicsHeight: Option<real>, movementHeight: Option<real>)

  /** The collider width `MovementComponent` fixes and the collider used when the player has none. */
  const PlayerWidth: real := 32.0
  const DefaultPlayerHeight: real := 48.0
  /** How far below the level the player may fall before losing a life. */
  const FallMargin: real := 200.0

  /**
    The player's box at the moment of a query: its transform's position,
    the movement component's collider (or 32 by 48 without one); none
    without a transform.
   */
  function PlayerBox(v: PlayerView): (r: Option<Rect>)
    ensures r.Some? <==> v.pose.Some?
    ensures r.Some? ==> r.value.width == PlayerWidth && r.value.left == v.pose.value.x && r.value.top == v.pose.value.y
  {
    if v.pose.None? then None
    else Some(Rect(v.pose.value.x, v.pose.value.y, PlayerWidth,
                   if v.movementHeight.Some? then v.movementHeight.value else DefaultPlayerHeight))
  }

  /** `resetPlayerIfFallen`'s test: the player's top edge is more than 200 pixels below the level. */
  predicate Fallen(v: PlayerView, pixelHeight: int)
  {
    v.pose.Some? && v.pose.value.y > pixelHeight as real + FallMargin
  }

  /** `respawnPlayer`: the transform goes to the spawn point and the physics falls afresh. */
  function Respawned(v: PlayerView, spawn: Pose): (r: PlayerView)
    ensures r.pose.Some? <==> v.pose.Some?
    ensures r.fall.Some? <==> v.fall.Some?
    ensures r.pose.Some? ==> r.pose.value == spawn
    ensures r.fall.Some? ==> r.fall.value == Fall(0.0, false)
    ensures r.physicsHeight == v.physicsHeight && r.movementHeight == v.movementHeight
  {
    v.(pose := if v.pose.Some? then Some(spawn) else None,
       fall := if v.fall.Some? then Some(Fall(0.0, false)) else None)
  }

  /** Respawning twice is respawning once. */
  lemma RespawnIdempotent(v: PlayerView, spawn: Pose)
    ensures Respawned(Respawned(v, spawn), spawn) == Respawned(v, spawn)
  {
  }

  /** The collider height before a power change: the movement component's, or the small one without it. */
  function OldHeight(v: PlayerView, cfg: Config): real
  {
    if v.movementHeight.Some? then v.movementHeight.value else cfg.smallColliderHeight
  }

  /**
    The body of `setPlayerPowerState` once it acts, for a given new collider
    height: the transform moves up by the growth (so that the feet stay put)
    when it exceeds 0.1 pixels either way, and both colliders take the new
    height.
   */
  function Resize(v: PlayerView, newHeight: real, cfg: Config): (r: PlayerView)
    ensures r.fall == v.fall
    ensures r.pose.Some? <==> v.pose.Some?
    ensures r.movementHeight.Some? <==> v.movementHeight.Some?
    ensures r.physicsHeight.Some? <==> v.physicsHeight.Some?
  {
    var delta := newHeight - OldHeight(v, cfg);
    v.(pose := if v.pose.Some? && AbsR(delta) > 0.1 then Some(v.pose.value.(y := v.pose.value.y - delta)) else v.pose,
       movementHeight := if v.movementHeight.Some? then Some(newHeight) else None,
       physicsHeight := if v.physicsHeight.Some? then Some(newHeight) else None)
  }

  /**
    The new collider height as `setPlayerPowerState` computes it: the big
    one whenever the player has a movement component, whatever `powered` is.
   */
  function NewHeightAsWritten(v: PlayerView, powered: bool, cfg: Config): real
  {
    if v.movementHeight.Some? then cfg.bigColliderHeight else cfg.smallColliderHeight
  }

  /** The new collider height the power state calls for: big when powered, small otherwise. */
  function NewHeight(powered: bool, cfg: Config): (h: real)
    ensures h == cfg.bigColliderHeight || h == cfg.smallColliderHeight
    ensures powered ==> h == cfg.bigColliderHeight
    ensures !powered ==> h == cfg.smallColliderHeight
  {
    if powered then cfg.bigColliderHeight else cfg.smallColliderHeight
  }

  /** `setPlayerPowerState(powered)` on a player whose power state is `poweredUp`, as written. */
  function SetPowerAsWritten(v: PlayerView, poweredUp: bool, powered: bool, cfg: Config): PlayerView
  {
    if poweredUp == powered then v else Resize(v, NewHeightAsWritten(v, powered, cfg), cfg)
  }

  /** `setPlayerPowerState(powered)` with the new height chosen by `powered`. */
  function SetPower(v: PlayerView, poweredUp: bool, powered: bool, cfg: Config): PlayerView
  {
    if poweredUp == powered then v else Resize(v, NewHeight(powered, cfg), cfg)
  }

  /**
    As written, losing the power-up does not shrink the player: a powered
    player with a movement component keeps the big collider. The sizes 48 and
    64 make this concrete.
   */
  lemma PowerDownKeepsBigCollider(v: PlayerView, cfg: Config)
    requires cfg.smallColliderHeight == 48.0 && cfg.bigColliderHeight == 64.0
    requires v.movementHeight == Some(64.0)
    ensures SetPowerAsWritten(v, true, false, cfg).movementHeight == Some(64.0)
    ensures SetPower(v, true, false, cfg).movementHeight == Some(48.0)
  {
  }

  /** The colliders match the power state: big when powered, small otherwise. */
  predicate Sized(v: PlayerView, poweredUp: bool, cfg: Config)
  {
    (v.movementHeight.Some? ==> v.movementHeight.value == NewHeight(poweredUp, cfg))
    && (v.physicsHeight.Some? ==> v.physicsHeight.value == NewHeight(poweredUp, cfg))
  }

  /**
    With the corrected height, a power change on a player with a movement
    component leaves the colliders matching the new state and keeps the
    feet where they were (the bottom edge `y + height` does not move) when
    the sizes differ by more than 0.1 pixels.
   */
  lemma {:induction false} SetPowerResizes(v: PlayerView, poweredUp: bool, powered: bool, cfg: Config)
    requires Sized(v, poweredUp, cfg) && v.movementHeight.Some?
    requires AbsR(cfg.bigColliderHeight - cfg.smallColliderHeight) > 0.1
    ensures var r := SetPower(v, poweredUp, powered, cfg);
      Sized(r, powered, cfg)
      && (v.pose.Some? ==> r.pose.value.y + r.movementHeight.value == v.pose.value.y + v.movementHeight.value)
  {
  }

  /** Gaining and then losing the power-up puts the player back exactly where and as it was. */
  lemma {:induction false} PowerRoundTrip(v: PlayerView, cfg: Config)
    requires Sized(v, false, cfg) && v.movementHeight.Some?
    requires AbsR(cfg.bigColliderHeight - cfg.smallColliderHeight) > 0.1
    ensures SetPower(SetPower(v, false, true, cfg), true, false, cfg) == v
  {
    var up := SetPower(v, false, true, cfg);
    assert up.movementHeight == Some(cfg.bigColliderHeight);
  }

  // ---------------------------------------------------------------------
  // Enemy contact

  /** How far above an enemy's top edge the player's feet may be for a touch to count as a stomp. */
  const StompMargin: real := 5.0
  /** The player's vertical velocity after a stomp (upwards). */
  const StompBounce: real := -250.0

  /** What touching one enemy does. */
  datatype Contact = Miss | Stomp | Shrink | Hurt

  /**
    The outcome of `handleEnemyCollisions` for one enemy with collider
    `enemy` (`None` when it is dead or has no transform): no overlap is a
    miss; a falling player whose feet are at most 5 pixels below the enemy's
    top stomps it; any other touch costs the power-up if there is one and a
    life otherwise.
   */
  function ContactOf(enemy: Option<Rect>, player: Rect, velocityY: real, poweredUp: bool): (c: Contact)
    ensures c == Miss <==> enemy.None? || !Intersects(player, enemy.value)
    ensures c == Stomp ==> velocityY > 0.0 && player.top + player.height <= enemy.value.top + StompMargin
    ensures c == Shrink ==> poweredUp
    ensures c == Hurt ==> !poweredUp
    ensures enemy.Some? && Intersects(player, enemy.value) ==>
      (c == Stomp <==> velocityY > 0.0 && player.top + player.height <= enemy.value.top + StompMargin)
    ensures enemy.Some? && Intersects(player, enemy.value) && c != Stomp ==>
      c == (if poweredUp then Shrink else Hurt)
  {
    if enemy.None? || !Intersects(player, enemy.value) then Miss
    else if player.top + player.height <= enemy.value.top + StompMargin && velocityY > 0.0 then Stomp
    else if poweredUp then Shrink
    else Hurt
  }

  /** The counters after a contact: a shrink grants invincibility, a hurt is `loseLife`. */
  function Touched(s: Session, c: Contact, cfg: Config): Session
  {
    match c
    case Miss => s
    case Stomp => s
    case Shrink => s.(invincible := true, invincibilityTimer := cfg.invincibilityDuration)
    case Hurt => LifeLoss(s, cfg)
  }

  /**
    One contact costs at most one life and leaves the player invulnerable
    when it does; a player who is already invulnerable loses nothing and
    stays so; a shrink costs no life at all; and the invariant is kept.
   */
  lemma {:induction false} ContactCostsAtMostOneLife(s: Session, c: Contact, cfg: Config)
    ensures var r := Touched(s, c, cfg);
      (s.lives - 1 <= r.lives <= s.lives || (s.lives < 0 && r.lives == 0))
      && (r.lives < s.lives ==> !Vulnerable(r))
      && (!Vulnerable(s) ==> r.lives == s.lives && !Vulnerable(r))
      && (c != Hurt ==> r.lives == s.lives)
      && (r.gameOver ==> s.gameOver || r.lives == 0)
      && r.score == s.score && r.coinBank == s.coinBank && r.levelComplete == s.levelComplete
      && (Inv(s) && ValidConfig(cfg) ==> Inv(r))
  {
    if c == Hurt {
      LifeLossOutcomes(s, cfg);
    }
  }

  /**
    What a pass of `handleEnemyCollisions` keeps between the session `s0`
    (powered up or not: `p0`) it began with and the session `s` (`p`) it has
    reached: the invariant holds; at most one life is gone, and only from a
    player who was vulnerable and is now invulnerable; a player who began
    invulnerable keeps every life and stays so; a player who began powered
    up keeps every life and is still powered up or invincible; the game ends
    only when the lives run out.
   */
  predicate PassSoFar(s0: Session, p0: bool, s: Session, p: bool)
  {
    Inv(s) && s0.lives - 1 <= s.lives <= s0.lives
    && (s.lives < s0.lives ==> !Vulnerable(s))
    && (!Vulnerable(s0) ==> s.lives == s0.lives && !Vulnerable(s))
    && (p0 ==> s.lives == s0.lives && (p || s.invincible))
    && (s.gameOver ==> s0.gameOver || s.lives == 0)
  }

  /** A pass begins with nothing lost. */
  lemma PassStarts(s: Session, p: bool)
    requires Inv(s)
    ensures PassSoFar(s, p, s, p)
  {
  }

  /**
    One more contact keeps `PassSoFar`, whatever it is, as long as a shrink
    only happens to a powered-up player and a hurt only to one who is not.
   */
  lemma {:induction false} PassStep(s0: Session, p0: bool, s: Session, p: bool, c: Contact, cfg: Config)
    requires PassSoFar(s0, p0, s, p) && ValidConfig(cfg)
    requires c == Shrink ==> p
    requires c == Hurt ==> !p
    ensures PassSoFar(s0, p0, Touched(s, c, cfg), p && c != Shrink)
  {
    ContactCostsAtMostOneLife(s, c, cfg);
  }
}

=== FILE: tiles.dfy ===
/**
  The tile grid (`Tilemap.h`): a vector of rows of tile values, where only the
  value 1 is solid and every coordinate outside the grid is open.
 */
module Tiles {
  import opened Geometry

  type Grid = seq<seq<int>>

  /** `Tilemap::isSolid` on a grid value: bounds-checked, and only tile value 1 is solid. */
  predicate SolidAt(tiles: Grid, x: int, y: int)
    ensures y < 0 || y >= |tiles| ==> !SolidAt(tiles, x, y)
    ensures 0 <= y < |tiles| && (x < 0 || x >= |tiles[y]|) ==> !SolidAt(tiles, x, y)
    ensures SolidAt(tiles, x, y) <==>
      0 <= y < |tiles| && 0 <= x < |tiles[y]| && tiles[y][x] == 1
  {
    if y < 0 || y >= |tiles| then false
    else if x < 0 || x >= |tiles[y]| then false
    else tiles[y][x] == 1
  }

  /** Every row has the same width. */
  predicate Rectangular(tiles: Grid, width: int)
  {
    forall y :: 0 <= y < |tiles| ==> |tiles[y]| == width
  }

  /** The grid `Tilemap(width, height)` builds: `height` rows of `width` zeros. */
  function EmptyGrid(width: nat, height: nat): (g: Grid)
    ensures |g| == height && Rectangular(g, width)
    ensures forall y, x :: 0 <= y < height && 0 <= x < width ==> g[y][x] == 0
  {
    seq(height, _ => seq(width, _ => 0))
  }

  /** No cell of a freshly built grid is solid. */
  lemma EmptyGridHasNoSolid(width: nat, height: nat, x: int, y: int)
    ensures !SolidAt(EmptyGrid(width, height), x, y)
  {
  }

  /** What the stand-in `loadFromFile` does: every cell of the last row becomes 1. */
  function GroundFilled(tiles: Grid): (g: Grid)
    ensures |g| == |tiles|
    ensures forall y :: 0 <= y < |tiles| ==> |g[y]| == |tiles[y]|
    ensures forall y :: 0 <= y < |tiles| - 1 ==> g[y] == tiles[y]
    ensures forall y, x :: 0 <= y == |tiles| - 1 && 0 <= x < |g[y]| ==> g[y][x] == 1
  {
    if tiles == [] then tiles
    else tiles[|tiles| - 1 := seq(|tiles[|tiles| - 1]|, _ => 1)]
  }

  /** Loading the ground row twice is the same as loading it once. */
  lemma GroundFilledIdempotent(tiles: Grid)
    ensures GroundFilled(GroundFilled(tiles)) == GroundFilled(tiles)
  {
  }

  /** After loading, a cell of the last row is solid exactly when it lies inside that row. */
  lemma GroundRowSolid(tiles: Grid, x: int)
    requires |tiles| > 0
    ensures SolidAt(GroundFilled(tiles), x, |tiles| - 1) <==> 0 <= x < |tiles[|tiles| - 1]|
  {
  }

  class Tilemap {
    /** Pixel size of one tile (64 until `loadTileset` replaces it). */
    var tileSize: Pos
    var tiles: Grid

    /** `Tilemap(int width, int height)`: `height` rows of `width` empty tiles. */
    constructor (width: nat, height: nat)
      ensures tileSize == 64
      ensures tiles == EmptyGrid(width, height)
    {
      tileSize := 64;
      tiles := seq(height, _ => seq(width, _ => 0));
    }

    /** `isSolid` against the current grid. */
    predicate IsSolid(x: int, y: int)
      reads this`tiles
    {
      SolidAt(tiles, x, y)
    }

    /**
      The stand-in level loader: on a non-empty grid it sets every cell of the
      last row to 1, one cell at a time; the path is not read.
     */
    method LoadFromFile(path: string)
      modifies this`tiles
      ensures tiles == GroundFilled(old(tiles))
    {
      if |tiles| == 0 {
        return;
      }
      var groundRow := |tiles| - 1;
      var x := 0;
      while x < |tiles[groundRow]|
        invariant |tiles| == |old(tiles)| && groundRow == |tiles| - 1
        invariant forall y :: 0 <= y < groundRow ==> tiles[y] == old(tiles)[y]
        invariant |tiles[groundRow]| == |old(tiles)[groundRow]|
        invariant 0 <= x <= |tiles[groundRow]|
        invariant forall i :: 0 <= i < x ==> tiles[groundRow][i] == 1
        invariant forall i :: x <= i < |tiles[groundRow]| ==> tiles[groundRow][i] == old(tiles)[groundRow][i]
      {
        tiles := tiles[groundRow := tiles[groundRow][x := 1]];
        x := x + 1;
      }
      assert tiles[groundRow] == GroundFilled(old(tiles))[groundRow];
    }

    /** Tilemaps are static during play: `update` changes nothing. */
    method Update(dt: real)
      ensures tiles == old(tiles) && tileSize == old(tileSize)
    {
    }
  }
}
